=== FILE: README.md ===
# EN 18031 assessment app: a Dafny model of its functional core

The EN 18031 assessment app is a browser application in which an assessor
records compliance assessments of radio equipment against the EN 18031-1 and
EN 18031-2 cybersecurity standards. Around its React screens sits a small core
of data rules:

- content-hash duplicate detection of assessments, with a per-project summary;
- the static ACM-1 decision tree and its click rule;
- the conceptual-assessment session (asset list, then one verdict per asset);
- the step-by-step assessment with its fail/pass/na roll-up;
- the three zustand stores (projects, assessments, evidence files) as state
  transitions over sequences of records;
- export selection, import validation, report counts and file-name sanitising;
- the policy deciding which imported records get created;
- the built-in test-case catalog and its lookups;
- the project-creation and assessment-edit dialogs.

This project models that core as immutable Dafny datatypes and functions (a
few methods where the source loops). Generated ids, the clock and the
`btoa(JSON.stringify(..))` encoding are parameters. Every module is one source
file:

| file | module | source |
|---|---|---|
| wrappers.dfy | Wrappers | `Option`/`Result` helpers |
| seqs.dfy | Seqs | `filter`, `find`, `map` over arrays |
| text.dfy | Text | `trim`, `toLowerCase`, `includes`, number printing |
| types.dfy | Types | src/types/index.ts |
| duplicate_detection.dfy | DuplicateDetection | src/utils/duplicateDetection.ts |
| decision_tree.dfy | DecisionTree | src/components/assessment/DecisionTree.tsx |
| conceptual_assessment.dfy | ConceptualAssessment | src/components/assessment/ConceptualAssessment.tsx |
| assessment_execution.dfy | AssessmentExecution | src/components/assessment/AssessmentExecution.tsx |
| assessment_store.dfy | AssessmentStore | src/stores/assessmentStore.ts |
| project_store.dfy | ProjectStore | src/stores/projectStore.ts |
| evidence_store.dfy | EvidenceStore | src/stores/evidenceStore.ts |
| export_utils.dfy | ExportUtils | src/utils/exportUtils.ts |
| import_policy.dfy | ImportPolicy | src/components/project/ImportExportModal.tsx |
| test_catalog.dfy | TestCatalog | src/data/testCases.ts |
| create_project_form.dfy | CreateProjectForm | src/components/project/CreateProjectModal.tsx |
| edit_assessment_form.dfy | EditAssessmentForm | src/components/assessment/EditAssessmentModal.tsx |

Modelling conventions:

- **Spread objects.** `{ id: generateId(), ...data }` lets a runtime `id` in
  `data` win. The model gives the store's input records optional `id` and
  `projectId` fields; a present one overrides.
- **Hashing.** The hash is `StripNonAlnum(enc(CanonicalOf(a)))`. `enc` is an
  arbitrary function standing for `btoa(JSON.stringify(..))`. Hashing fails,
  as `btoa` throws, exactly when a string of the canonical tuple has a
  character above U+00FF.
- **Store operations.** Every store operation takes the generated id and the
  current time as arguments. "Not found" is the `Failure` of a `Result`.

Where the code and the system's design notes disagree, the model follows the
code:

- "Back to Asset List" only changes the phase. The results and the index are
  kept, so a restart can complete with more results than assets
  (`ConceptualAssessment.BackThenRestartOvercounts`).
- No code aggregates the per-asset verdicts into one project verdict: the
  component hands the list to `onComplete`. The model does the same.

## Model

| member | source | states |
|---|---|---|
| Types.MechanismNameRoundTrip | src/types/index.ts:26-28 | every mechanism code reads back as the mechanism it names |
| Types.MechanismNamesDistinct | src/types/index.ts:26-28 | two mechanisms share a code exactly when they are the same mechanism |
| Types.EnumerationsComplete | src/types/index.ts:95-101 | the result type has exactly pass, fail and na; the file type has exactly six distinct values |
| Text.Trim | src/components/project/CreateProjectModal.tsx:43 | trimming never lengthens the string, and gives the empty string exactly when the input is all whitespace |
| Text.TrimIsStrippedSlice | src/components/project/CreateProjectModal.tsx:43 | the trimmed string is a slice of the input with only whitespace cut off on either side, and it neither starts nor ends with whitespace |
| Text.TrimShape | src/components/project/CreateProjectModal.tsx:43 | a trimmed string has no whitespace at either end, and a string with none there is left as it is |
| Text.ToLower | src/stores/projectStore.ts:143 | lower-casing keeps the length and lowers each character on its own |
| Text.Contains | src/stores/projectStore.ts:145-148 | a substring test holds exactly when the needle occurs at some position |
| Seqs.FilterSelects | src/stores/assessmentStore.ts:117-119 | `filter` keeps the elements that satisfy the predicate in their order and with their multiplicity, and drops the rest |
| Seqs.SelectionIsFilter | src/stores/assessmentStore.ts:117-119 | any order-preserving selection with those counts is the filter, so the query contracts fix their results |
| DuplicateDetection.CanonicalIffSameContent | src/utils/duplicateDetection.ts:8-23 | two assessments project to the same canonical tuple exactly when they agree on project, test case, result, justification, comments, tester, product, step content and notes, with missing texts read as empty |
| DuplicateDetection.MetadataIgnored | src/utils/duplicateDetection.ts:8-23 | changing id, timestamps, assessor, version, status, evidence or review fields leaves the canonical tuple unchanged |
| DuplicateDetection.ScreenshotsIgnored | src/utils/duplicateDetection.ts:16-21 | a step's screenshots do not enter the hashed content |
| DuplicateDetection.MissingTextIsEmpty | src/utils/duplicateDetection.ts:13-22 | a missing comment or note, on the assessment or on a step, hashes like an empty one |
| DuplicateDetection.JustificationMatters | src/utils/duplicateDetection.ts:12 | a different justification gives a different canonical tuple |
| DuplicateDetection.StripNonAlnum | src/utils/duplicateDetection.ts:25 | the result keeps exactly the ASCII letters and digits of the input |
| DuplicateDetection.ContentHash | src/utils/duplicateDetection.ts:7-26 | hashing fails exactly on content with a character above U+00FF; a hash is made only of ASCII letters and digits |
| DuplicateDetection.SameContentSameHash | src/utils/duplicateDetection.ts:7-26 | equal content gives equal hashes, whatever the encoder |
| DuplicateDetection.WideCharacterFails | src/utils/duplicateDetection.ts:25 | a justification character above U+00FF makes hashing throw |
| DuplicateDetection.ContentIdentical | src/utils/duplicateDetection.ts:31-33 | the comparison fails when either hash fails, and otherwise is true exactly when the hashes agree |
| DuplicateDetection.ContentIdenticalIsEquivalence | src/utils/duplicateDetection.ts:31-33 | content identity is reflexive on hashable records, symmetric and transitive |
| DuplicateDetection.LastWithKey | src/utils/duplicateDetection.ts:58-62 | finds the last existing record with a given hash, or reports that none has it |
| DuplicateDetection.HashIndex | src/utils/duplicateDetection.ts:57-62 | the hash map holds exactly the existing hashes, each bound to the last record with that hash |
| DuplicateDetection.BuildHashIndex | src/utils/duplicateDetection.ts:57-62 | building the map fails exactly when some existing record cannot be hashed, and otherwise yields the hash map |
| DuplicateDetection.Partition | src/utils/duplicateDetection.ts:64-78 | the second pass fails exactly when a new record cannot be hashed; otherwise it splits the batch in order by whether the hash is indexed, and pairs each duplicate with the indexed record |
| DuplicateDetection.IndexedIffDuplicate | src/utils/duplicateDetection.ts:66-69 | a new record's hash is in the index exactly when some existing record has the same hash |
| DuplicateDetection.SplitBatchIsFilter | src/utils/duplicateDetection.ts:64-78 | the split equals the pair of order-preserving filters "is a duplicate" and "is not" |
| DuplicateDetection.PairedByIsWellPaired | src/utils/duplicateDetection.ts:70-74 | a reported pair's content hash is the hash of both records, and its existing record is the last one with that hash |
| DuplicateDetection.FindDuplicateAssessments | src/utils/duplicateDetection.ts:38-81 | throws exactly when some record cannot be hashed; otherwise every new record lands in exactly one of duplicates and unique, both in input order, and every pair is consistent |
| DuplicateDetection.FirstAppearance | src/utils/duplicateDetection.ts:97-104 | the grouped project ids are distinct and are exactly the ids that occur |
| DuplicateDetection.InsertByIndex | src/utils/duplicateDetection.ts:106 | inserting an array-index key adds exactly that key |
| DuplicateDetection.SortByIndex | src/utils/duplicateDetection.ts:106 | sorting array-index keys keeps the same keys and the same length |
| DuplicateDetection.SortByIndexSorts | src/utils/duplicateDetection.ts:106 | the sorted keys ascend numerically and stay distinct |
| DuplicateDetection.PropertyOrder | src/utils/duplicateDetection.ts:106 | `Object.entries` order lists exactly the object's keys |
| DuplicateDetection.PropertyOrderShape | src/utils/duplicateDetection.ts:106 | in `Object.entries` order the keys are distinct, and the array-index keys come first in ascending order |
| DuplicateDetection.SummaryProjects | src/utils/duplicateDetection.ts:97-108 | the summary lists exactly the projects of the duplicates' new records |
| DuplicateDetection.SummaryGroupsPartition | src/utils/duplicateDetection.ts:97-108 | each project is listed once with a positive count, and the per-project counts sum to the number of duplicates |
| DuplicateDetection.SummaryOrderForOrdinaryIds | src/utils/duplicateDetection.ts:106 | when no project id looks like an array index, projects are listed in order of first appearance |
| DuplicateDetection.JoinLinesLength | src/utils/duplicateDetection.ts:108 | the joined text is exactly as long as the lines plus one newline between each neighbouring pair |
| DuplicateDetection.JoinLinesPlaces | src/utils/duplicateDetection.ts:108 | in the joined text each line sits at its own start position, right after a newline unless it is the first line |
| DuplicateDetection.CreateDuplicateSummary | src/utils/duplicateDetection.ts:93-110 | the summary is the fixed "No duplicates found." text exactly when there are no duplicates; otherwise it is the header giving the total followed by the per-project lines joined by newlines, one line per listed project, in list order, each naming that project and its own duplicate count |
| DuplicateDetection.SummaryMentionsEveryProject | src/utils/duplicateDetection.ts:97-110 | for every duplicate, the summary text contains the line for its project with that project's count |
| DecisionTree.GetNodeById | src/components/assessment/DecisionTree.tsx:108-110 | the lookup fails exactly for ids not in the table, and otherwise returns the table's node with that id |
| DecisionTree.TreeIdsMatch | src/components/assessment/DecisionTree.tsx:22-99 | the table has nine nodes, in the listed id order |
| DecisionTree.IdsDistinct | src/components/assessment/DecisionTree.tsx:22-99 | node ids are unique |
| DecisionTree.LookupAt | src/components/assessment/DecisionTree.tsx:108-110 | looking up any table id returns that node |
| DecisionTree.ShapeAt | src/components/assessment/DecisionTree.tsx:22-99 | each decision node has no outcome and yes/no targets in the table; each outcome node has an outcome and no targets |
| DecisionTree.TreeWellFormed | src/components/assessment/DecisionTree.tsx:22-99 | ids are unique, every decision edge names a node in the table, and decision and outcome nodes have the right fields |
| DecisionTree.Walk | src/components/assessment/DecisionTree.tsx:22-99 | the walk by yes/no answers starts at its node and stays in the table |
| DecisionTree.WalkFollowsEdges | src/components/assessment/DecisionTree.tsx:22-99 | each walk step follows the yes or no edge the answer picks |
| DecisionTree.WalkDescends | src/components/assessment/DecisionTree.tsx:22-99 | along a walk the distance to an outcome strictly falls, so no node is revisited |
| DecisionTree.RootTerminates | src/components/assessment/DecisionTree.tsx:22-99 | from DN-1, any four answers reach an outcome node within five nodes, visiting distinct nodes |
| DecisionTree.Scenarios | src/components/assessment/DecisionTree.tsx:24-99 | yes, no, no, yes from DN-1 reaches PASS via DN-2, DN-3, DN-4; no from DN-1 reaches NOT APPLICABLE |
| DecisionTree.OutcomeParentUnique | src/components/assessment/DecisionTree.tsx:116-120 | every outcome node has exactly one parent decision node |
| DecisionTree.Click | src/components/assessment/DecisionTree.tsx:112-133 | a click on a known node with a listener appends the node to the path and reports it; a decision node is reported with no verdict, and an outcome node is reported as its parent with the outcome's verdict; otherwise nothing happens |
| DecisionTree.ClickOutcomeHasParent | src/components/assessment/DecisionTree.tsx:116-126 | for a clicked outcome node the parent search succeeds, so the report is always made |
| DecisionTree.ClickDecision | src/components/assessment/DecisionTree.tsx:127-131 | clicking a decision node reports its own id with no verdict and appends it to the path |
| DecisionTree.ClickOutcome | src/components/assessment/DecisionTree.tsx:116-126 | clicking an outcome node reports its parent's id with the outcome's verdict and appends the outcome id |
| DecisionTree.Reset | src/components/assessment/DecisionTree.tsx:407-410 | Reset Path empties the path and, with a listener, reports an empty node and no verdict |
| ConceptualAssessment.AddAsset | src/components/assessment/ConceptualAssessment.tsx:53-65 | with a non-empty id and name the asset is appended and the form reset to a blank security asset; otherwise nothing changes |
| ConceptualAssessment.RemoveAsset | src/components/assessment/ConceptualAssessment.tsx:67-69 | the remaining assets are exactly the others, in their order and with their multiplicity, and nothing else changes |
| ConceptualAssessment.RemoveUndoesAdd | src/components/assessment/ConceptualAssessment.tsx:53-69 | removing an asset just added under a fresh id restores the list |
| ConceptualAssessment.StartAssessment | src/components/assessment/ConceptualAssessment.tsx:71-76 | with assets the session enters the assessment phase at index 0; with none nothing changes |
| ConceptualAssessment.SelectNode | src/components/assessment/ConceptualAssessment.tsx:78-86 | selecting a node sets the draft's node and verdict and keeps its justification |
| ConceptualAssessment.SetJustification | src/components/assessment/ConceptualAssessment.tsx:306 | typing sets the justification to the typed text and keeps the node, verdict, phase, assets, index and results; Submit is then enabled exactly when a node and a verdict are set and the text is not blank |
| ConceptualAssessment.SubmitEnabledImpliesComplete | src/components/assessment/ConceptualAssessment.tsx:324-328 | an enabled Submit button implies the handler's guard; a blank justification passes the guard but not the button |
| ConceptualAssessment.ResultFor | src/components/assessment/ConceptualAssessment.tsx:90-97 | a committed result takes id and name from the current asset and has the one-element decision path |
| ConceptualAssessment.SubmitAssessment | src/components/assessment/ConceptualAssessment.tsx:88-117 | an incomplete draft changes nothing; otherwise the result is appended, and the session either advances with a fresh draft or, on the last asset, completes with all results |
| ConceptualAssessment.Back | src/components/assessment/ConceptualAssessment.tsx:317 | Back returns to the asset list in a valid session and keeps the results, index, draft, assets and asset form; restarting from there re-enters the assessment at index 0 with the old results still present |
| ConceptualAssessment.TreeClick | src/components/assessment/ConceptualAssessment.tsx:278 | a tree click never changes the phase, the assets, the index or the results |
| ConceptualAssessment.SubmitClick | src/components/assessment/ConceptualAssessment.tsx:323-328 | a disabled button does nothing; an enabled one submits |
| ConceptualAssessment.Step | src/components/assessment/ConceptualAssessment.tsx:53-117 | every event keeps the current index in range, events of the other phase do nothing, and completion only comes from an enabled Submit |
| ConceptualAssessment.DecisionClickBlocksSubmit | src/components/assessment/ConceptualAssessment.tsx:78-86 | after clicking a decision node the verdict is cleared and Submit is disabled |
| ConceptualAssessment.OutcomeClickRecordsVerdict | src/components/assessment/ConceptualAssessment.tsx:78-86 | after clicking an outcome node the draft holds its parent's id and its verdict |
| ConceptualAssessment.StartAligns | src/components/assessment/ConceptualAssessment.tsx:71-76 | starting on a fresh list begins with no results for index 0 |
| ConceptualAssessment.SubmitKeepsAlignment | src/components/assessment/ConceptualAssessment.tsx:99-115 | without Back, the completed list has one result per asset, in asset order |
| ConceptualAssessment.DraftEventsKeepAlignment | src/components/assessment/ConceptualAssessment.tsx:78-86 | tree clicks, reset and typing keep results aligned with assets |
| ConceptualAssessment.BackThenRestartOvercounts | src/components/assessment/ConceptualAssessment.tsx:317 | with one asset, completing, going back, restarting and completing again hands over two results |
| AssessmentExecution.InitStepResults | src/components/assessment/AssessmentExecution.tsx:35-40 | one result per test step, in order, each na with empty actual result, no screenshots and no notes |
| AssessmentExecution.Initialise | src/components/assessment/AssessmentExecution.tsx:42-47 | initialisation sets the step results, the product under test and the tester, and keeps the other fields |
| AssessmentExecution.UpdateStepResult | src/components/assessment/AssessmentExecution.tsx:70-77 | only the named field of matching entries changes; the length and the other entries are kept |
| AssessmentExecution.LaterEditWins | src/components/assessment/AssessmentExecution.tsx:70-77 | two edits of the same field of a step leave the second one's value |
| AssessmentExecution.EditOfAbsentStep | src/components/assessment/AssessmentExecution.tsx:70-77 | editing a step id with no entry changes nothing |
| AssessmentExecution.CurrentStepResult | src/components/assessment/AssessmentExecution.tsx:78-80 | finds an entry for the step exactly when one exists, and then returns the first such entry |
| AssessmentExecution.FillingUnlocksNext | src/components/assessment/AssessmentExecution.tsx:83-86 | after setting a step's result and actual result, Next is allowed exactly when the result is not na and the trimmed text is not empty |
| AssessmentExecution.OverallResult | src/components/assessment/AssessmentExecution.tsx:88-96 | fail exactly when some step failed; pass exactly when every step passed (also for no steps); na otherwise |
| AssessmentExecution.OverallResultOrderFree | src/components/assessment/AssessmentExecution.tsx:88-96 | the roll-up does not depend on the order of the steps |
| AssessmentExecution.CompletedSteps | src/components/assessment/AssessmentExecution.tsx:67 | counts the non-na results, never more than there are, and all of them exactly when every step is complete |
| AssessmentExecution.InitialRollUp | src/components/assessment/AssessmentExecution.tsx:35-40 | freshly initialised steps roll up to na (pass when there are none), with none completed |
| AssessmentExecution.PreviousStep | src/components/assessment/AssessmentExecution.tsx:266 | Previous goes back one step and stops at 0 |
| AssessmentExecution.NextStep | src/components/assessment/AssessmentExecution.tsx:271-275 | Next advances exactly when a later step exists and the current one may proceed |
| AssessmentExecution.NavigationStaysInRange | src/components/assessment/AssessmentExecution.tsx:266-275 | Previous, Next and a click in the step overview keep the step index in range |
| AssessmentExecution.JumpToStep | src/components/assessment/AssessmentExecution.tsx:365 | a click in the step overview moves to the clicked step |
| AssessmentExecution.OverviewBypassesGate | src/components/assessment/AssessmentExecution.tsx:271-275 | with the current step unfinished Next stays put, yet the overview still reaches any later step |
| AssessmentExecution.BuildSubmitRequest | src/components/assessment/AssessmentExecution.tsx:103-112 | the request takes its result from the roll-up, and missing strings become empty and missing steps the empty list |
| AssessmentExecution.DraftResultIgnored | src/components/assessment/AssessmentExecution.tsx:103-112 | any result typed into the draft is replaced by the roll-up |
| AssessmentExecution.SubmitAfterInitialise | src/components/assessment/AssessmentExecution.tsx:103-112 | the request a freshly initialised draft would build carries na (pass with no steps), the product name and the current user; the page itself never sends it, see InitialisedCannotComplete |
| AssessmentExecution.InitialisedCannotComplete | src/components/assessment/AssessmentExecution.tsx:280-283 | on a freshly initialised draft the Complete button is disabled on every step, and it is absent for a case with no steps |
| AssessmentExecution.FillingLastStepEnablesComplete | src/components/assessment/AssessmentExecution.tsx:280-283 | on the last step with a single entry, Complete is enabled exactly when its verdict is not na and its observation is not blank, with no submit running |
| AssessmentStore.NewAssessment | src/stores/assessmentStore.ts:45-55 | a runtime id or project id in the data wins over the generated one; version 1, draft, no evidence, the current user and time always come from the store; missing steps become [] |
| AssessmentStore.CreateAssessment | src/stores/assessmentStore.ts:57-60 | creation appends exactly the new record and keeps the others and the test cases |
| AssessmentStore.TypedCreateUsesArguments | src/stores/assessmentStore.ts:45-55 | a typed request (no id, no project id) gets the generated id and the given project |
| AssessmentStore.GetAssessment | src/stores/assessmentStore.ts:113-115 | the lookup fails exactly when no record has the id, and otherwise returns the first stored record with it |
| AssessmentStore.AssessmentsByProject | src/stores/assessmentStore.ts:117-119 | returns exactly the records of the project, in stored order and with their multiplicity |
| AssessmentStore.AssessmentsByTestCase | src/stores/assessmentStore.ts:121-123 | returns exactly the records of the test case, in stored order and with their multiplicity |
| AssessmentStore.CreateThenQuery | src/stores/assessmentStore.ts:57-60 | a created record is found by its id and shows up last in its project's query |
| AssessmentStore.UpdateAssessment | src/stores/assessmentStore.ts:74-87 | an unknown id fails with "Assessment not found"; otherwise every record with the id is replaced in place: each given field overrides, each omitted field is kept, and so are the id, project, evidence list, assessor, assessment time, reviewer, review time and notes, the version goes up by one, and the other records are unchanged |
| AssessmentStore.UpdateKeepsProjects | src/stores/assessmentStore.ts:79-87 | with unique ids, an update keeps every project's record count |
| AssessmentStore.DeleteAssessment | src/stores/assessmentStore.ts:102-104 | the remaining records are exactly those with another id, in stored order and with their multiplicity; an absent id changes nothing |
| AssessmentStore.DeleteUndoesCreate | src/stores/assessmentStore.ts:102-104 | deleting a record just created under a fresh id restores the store |
| AssessmentStore.MockTestCase | src/stores/assessmentStore.ts:131-149 | the mock case is an ACM case with no steps, from the requested standard |
| AssessmentStore.LoadTestCases | src/stores/assessmentStore.ts:151-153 | loading keeps exactly the other standards' cases, in order, and appends the mock case |
| AssessmentStore.LoadTestCasesTwice | src/stores/assessmentStore.ts:151-153 | loading a standard twice is the same as loading it once |
| AssessmentStore.LoadKeepsOtherStandard | src/stores/assessmentStore.ts:151-153 | loading one standard leaves the other standard's cases as they were |
| AssessmentStore.GetTestCase | src/stores/assessmentStore.ts:162-164 | the lookup fails exactly when no case has the id, and otherwise returns the first case with it |
| AssessmentStore.TestCasesByMechanism | src/stores/assessmentStore.ts:166-168 | returns exactly the cases whose mechanism code is the argument, in stored order |
| ProjectStore.NewProject | src/stores/projectStore.ts:42-50 | a runtime id in the data wins; status draft, version 1, created and updated now, by the current user; all nine request fields (name, description, product name, manufacturer, model reference, test standard, test laboratory, report reference, assignees) are copied |
| ProjectStore.CreateProject | src/stores/projectStore.ts:41-55 | creation appends exactly the new project and keeps the current project |
| ProjectStore.GetProject | src/stores/projectStore.ts:111-113 | the lookup fails exactly when no project has the id, and otherwise returns the first project with it |
| ProjectStore.UpdateProject | src/stores/projectStore.ts:69-85 | an unknown id fails with "Project not found"; otherwise the project is replaced in place: each given field overrides, each omitted one is kept, the version goes up by one and the update time is now; the current project follows it exactly when its id matches |
| ProjectStore.DeleteProject | src/stores/projectStore.ts:99-103 | the remaining projects are exactly those with another id, in order; the current project is cleared exactly when it matches |
| ProjectStore.SetCurrentProject | src/stores/projectStore.ts:115-117 | sets the current project and nothing else |
| ProjectStore.CurrentStaysStored | src/stores/projectStore.ts:83 | every store operation keeps the current project, when set, among the stored projects |
| ProjectStore.DeleteUndoesCreate | src/stores/projectStore.ts:99-103 | deleting a project just created under a fresh id restores the store |
| ProjectStore.SearchProjects | src/stores/projectStore.ts:142-150 | returns exactly the projects whose name, description, product name or manufacturer contains the lower-cased query, in stored order |
| ProjectStore.EmptyQueryReturnsAll | src/stores/projectStore.ts:142-150 | the empty query returns every project, in order |
| ProjectStore.SearchIgnoresQueryCase | src/stores/projectStore.ts:143 | a query and its lower-cased form find the same projects |
| ProjectStore.ProjectsByStatus | src/stores/projectStore.ts:152-154 | returns exactly the projects with the status, in stored order |
| ProjectStore.CreatedIsDraft | src/stores/projectStore.ts:45 | a created project shows up last among the drafts and in no other status list |
| ProjectStore.ProjectProgressOf | src/stores/projectStore.ts:119-139 | null exactly when the project is absent; otherwise fixed figures whose parts add up to the total |
| EvidenceStore.GetFileType | src/stores/evidenceStore.ts:29-36 | each MIME type gets exactly one of the six kinds, by the first matching rule: image prefix, video prefix, document words, text or log, data words, other |
| EvidenceStore.TextTypesAreLogs | src/stores/evidenceStore.ts:33 | any `text/` type that names no document is a log |
| EvidenceStore.CsvIsLog | src/stores/evidenceStore.ts:29-36 | `text/csv` names a data format but is classified as a log |
| EvidenceStore.GetFile | src/stores/evidenceStore.ts:155-157 | the lookup fails exactly when no file has the id, and otherwise returns the first file with it |
| EvidenceStore.DeleteFile | src/stores/evidenceStore.ts:117-120 | the remaining files are exactly those with another id, in order and with their multiplicity |
| EvidenceStore.DeleteFileSplits | src/stores/evidenceStore.ts:117-120 | deletion works piecewise over a split list, so it keeps the order |
| EvidenceStore.UpdateFile | src/stores/evidenceStore.ts:128-147 | an unknown id fails with "File not found"; otherwise the file is updated in place: a given description or tag list overrides and an omitted one is kept, every other field and every other file are unchanged |
| EvidenceStore.EmptyUpdateChangesNothing | src/stores/evidenceStore.ts:137-144 | an empty update leaves the store as it was |
| EvidenceStore.FilesByAssessment | src/stores/evidenceStore.ts:159-161 | returns exactly the files of the assessment, in stored order |
| EvidenceStore.FilesByType | src/stores/evidenceStore.ts:163-165 | returns exactly the files of the kind, in stored order |
| EvidenceStore.TypesPartitionFiles | src/stores/evidenceStore.ts:163-165 | the six per-kind lists together account for every file once |
| EvidenceStore.SearchFiles | src/stores/evidenceStore.ts:167-174 | returns exactly the files whose name, description or some tag contains the lower-cased query, in stored order |
| EvidenceStore.TagFindsFile | src/stores/evidenceStore.ts:172 | a matching tag is enough to find the file |
| EvidenceStore.SearchIgnoresQueryCase | src/stores/evidenceStore.ts:168 | a query and its lower-cased form find the same files |
| ExportUtils.ExportProjectData | src/utils/exportUtils.ts:16-22 | the full export carries the three lists unchanged, the time and version 1.0.0 |
| ExportUtils.ExportSingleProject | src/utils/exportUtils.ts:42-53 | the single export carries exactly the project's assessments and the files of those assessments, each in stored order, with version 1.0.0 |
| ExportUtils.OwnAssessments | src/utils/exportUtils.ts:43-45 | a file's assessment is among the project's exported ones exactly when the project owns an assessment with that id |
| ExportUtils.NoAssessmentsNoEvidence | src/utils/exportUtils.ts:42-45 | a project with no assessments exports no evidence |
| ExportUtils.ImportProjectData | src/utils/exportUtils.ts:76-89 | accepted exactly when projects, assessments and evidence files are all arrays; otherwise the error names the first that is not, in that order |
| ExportUtils.ImportOfExports | src/utils/exportUtils.ts:77-79 | a full export imports back to its three lists; a single-project export is rejected for its missing projects |
| ExportUtils.ReportCountsOf | src/utils/exportUtils.ts:107-111 | the report's passed, failed and na counts add up to the project's assessment count |
| ExportUtils.ResultsPartition | src/utils/exportUtils.ts:109-111 | the three per-result counts account for every assessment once |
| ExportUtils.CompletionRate | src/utils/exportUtils.ts:132 | the rate is 0 with no assessments and exactly 100 otherwise |
| ExportUtils.WholeIsHundredPercent | src/utils/exportUtils.ts:132 | rounding a whole to a percentage gives 100 |
| ExportUtils.RoundedPercentIsNearest | src/utils/exportUtils.ts:132 | the percentage of the exact fraction, rounded, is the nearest integer, with halves rounded up |
| ExportUtils.StemChar | src/utils/exportUtils.ts:61 | a stem character is a lower-case letter, a digit or `_`, and letters and digits are kept (lowered) |
| ExportUtils.ReplaceNonAlnum | src/utils/exportUtils.ts:61 | every character outside A-Z, a-z, 0-9 becomes `_`, and the length is kept |
| ExportUtils.FileStem | src/utils/exportUtils.ts:61 | the file-name stem keeps the length and uses only a-z, 0-9 and `_` |
| ExportUtils.FileStemIdempotent | src/utils/exportUtils.ts:154 | sanitising a sanitised stem changes nothing |
| ExportUtils.DatePart | src/utils/exportUtils.ts:30 | the date part is the prefix of the timestamp before its first `T` |
| ExportUtils.FileNamesShareStem | src/utils/exportUtils.ts:61 | the export and report file names of a project share the stem and differ |
| ImportPolicy.CreateRehomed | src/components/project/ImportExportModal.tsx:105-110 | each chosen record is stored once, in order, under its own id and the new project's id, with store defaults |
| ImportPolicy.CreateRenumbered | src/components/project/ImportExportModal.tsx:148-155 | each chosen record is stored once, in order, under a fresh id, with store defaults |
| ImportPolicy.CreateProjects | src/components/project/ImportExportModal.tsx:117-126 | one new project per list entry, in order, each with its fresh id |
| ImportPolicy.WarningIffDuplicate | src/components/project/ImportExportModal.tsx:99-101 | the duplicate warning is set exactly when some imported record duplicates a stored one |
| ImportPolicy.ImportProjectFile | src/components/project/ImportExportModal.tsx:84-113 | one fresh project is always created; when hashing fails only the error is shown; otherwise the chosen records are created in it, the success text names the project, and the warning is set exactly when there are duplicates |
| ImportPolicy.ImportProjectList | src/components/project/ImportExportModal.tsx:114-127 | one draft project per entry with a fresh id, no assessments, and the count in the message |
| ImportPolicy.ImportCsv | src/components/project/ImportExportModal.tsx:129-158 | only the open project's records are considered; the chosen ones are created under fresh ids; the message counts the created and, when skipping, the skipped; the warning is set exactly when there are duplicates |
| ImportPolicy.SkipWithoutDuplicates | src/components/project/ImportExportModal.tsx:103 | with no duplicates, skipping creates the whole batch |
| ImportPolicy.SkippedStillCounted | src/components/project/ImportExportModal.tsx:103-113 | with duplicates, fewer records are created than the batch length the JSON message reports |
| ImportPolicy.CsvChoosesOpenProject | src/components/project/ImportExportModal.tsx:132-134 | every record chosen on the CSV path belongs to the open project |
| ImportPolicy.CsvRecordsLandInOpenProject | src/components/project/ImportExportModal.tsx:148-153 | the k-th record a CSV import stores sits right after the existing ones, in the open project, under the k-th fresh id |
| ImportPolicy.CsvReimportFindsDuplicates | src/components/project/ImportExportModal.tsx:136-153 | every record a CSV import stores is a duplicate of what is then stored, so importing the same file again finds it |
| ImportPolicy.RehomedRepeatsStoredIds | src/components/project/ImportExportModal.tsx:105-110 | re-importing a record whose id is already stored leaves two records with that id |
| ImportPolicy.OnDrop | src/components/project/ImportExportModal.tsx:68-199 | no file changes nothing; a parse error is shown; CSV never creates projects; a project file creates one fresh project; a project list creates one project per entry and no assessments; an unrecognised shape only clears the notices |
| TestCatalog.FirstListWellFormed | src/data/testCases.ts:4-161 | every EN18031-1 case comes from EN18031-1, and each step belongs to its case and is numbered by its 1-based position |
| TestCatalog.SecondListWellFormed | src/data/testCases.ts:164-239 | every EN18031-2 case comes from EN18031-2, with its steps numbered the same way |
| TestCatalog.CatalogIdsDistinct | src/data/testCases.ts:4-239 | catalog ids are distinct |
| TestCatalog.GetAllTestCases | src/data/testCases.ts:241-243 | the EN18031-1 list followed by the EN18031-2 list |
| TestCatalog.GetTestCasesByStandard | src/data/testCases.ts:245-247 | returns the EN18031-1 list exactly when asked for EN18031-1, and the EN18031-2 list otherwise |
| TestCatalog.ByStandardIsFilter | src/data/testCases.ts:245-247 | the per-standard list is the catalog filtered by source |
| TestCatalog.GetTestCasesByMechanism | src/data/testCases.ts:249-251 | returns exactly the catalog cases with the mechanism code, in catalog order |
| TestCatalog.HasMechanismIsCode | src/data/testCases.ts:250 | matching by code is matching by mechanism |
| TestCatalog.AccessControlCases | src/data/testCases.ts:249-251 | the ACM query returns the two ACM cases in catalog order |
| TestCatalog.UnusedMechanismFindsNothing | src/data/testCases.ts:249-251 | a mechanism with no case in the catalog finds nothing |
| TestCatalog.GetTestCaseById | src/data/testCases.ts:253-255 | the lookup fails exactly when no case has the id |
| TestCatalog.LookupByOwnId | src/data/testCases.ts:253-255 | looking up any case by its own id finds exactly that case |
| CreateProjectForm.SetAssigneeInput | src/components/project/CreateProjectModal.tsx:155 | typing changes only the assignee box |
| CreateProjectForm.AddAssignee | src/components/project/CreateProjectModal.tsx:42-47 | the list changes exactly when the trimmed input is non-empty and not yet listed; then it is appended and the box cleared |
| CreateProjectForm.RemoveAssignee | src/components/project/CreateProjectModal.tsx:49-51 | the remaining names are exactly the others, in order |
| CreateProjectForm.RemoveUndoesAdd | src/components/project/CreateProjectModal.tsx:42-51 | removing a name just added restores the list |
| CreateProjectForm.AddKeepsAssigneesClean | src/components/project/CreateProjectModal.tsx:42-47 | adding keeps the list free of blank, padded and repeated names |
| CreateProjectForm.RemoveKeepsAssigneesClean | src/components/project/CreateProjectModal.tsx:49-51 | removing keeps the list free of blank, padded and repeated names |
| CreateProjectForm.HandleClose | src/components/project/CreateProjectModal.tsx:36-40 | closing closes the dialog, clears the assignee box and resets every form field to its initial empty value |
| CreateProjectForm.OnSubmit | src/components/project/CreateProjectModal.tsx:53-61 | submitting appends exactly one project under the new id, carrying every form field, as a draft at version 1 created and updated now by the current user; the dialog is closed and reset, the current project is untouched, and the new id is reported |
| CreateProjectForm.RunKeepsAssigneesClean | src/components/project/CreateProjectModal.tsx:29-51 | starting from [], no sequence of actions puts a blank, padded or repeated name in the list |
| EditAssessmentForm.ResultOptionsComplete | src/components/assessment/EditAssessmentModal.tsx:93-96 | the result options are exactly pass, fail and na |
| EditAssessmentForm.Seed | src/components/assessment/EditAssessmentModal.tsx:21-31 | opening copies exactly result, justification, comments, product and tester into the form |
| EditAssessmentForm.ApplyEdit | src/components/assessment/EditAssessmentModal.tsx:88-137 | no edit touches the status, the test case or the step results |
| EditAssessmentForm.SaveDisabled | src/components/assessment/EditAssessmentModal.tsx:155 | Save is enabled exactly when a result and a non-empty justification are set and no save is running |
| EditAssessmentForm.HandleSubmit | src/components/assessment/EditAssessmentModal.tsx:33-46 | the assessment's id and the form are handed over exactly when there is an assessment and the form is filled; the dialog then closes only if the save resolved |
| EditAssessmentForm.HandleClose | src/components/assessment/EditAssessmentModal.tsx:48-51 | closing empties the form |
| EditAssessmentForm.EditAll | src/components/assessment/EditAssessmentModal.tsx:88-137 | any run of edits keeps the status, the test case and the step results |
| EditAssessmentForm.SeededFormIsFilled | src/components/assessment/EditAssessmentModal.tsx:21-35 | a freshly seeded form can be saved exactly when the assessment's justification is non-empty |
| EditAssessmentForm.SaveKeepsStatus | src/components/assessment/EditAssessmentModal.tsx:39 | saving the form through the store keeps status, test case and step results, and bumps the version |

## Left out

- Rendering, layout and the decision tree's SVG drawing: no behaviour beyond what the handlers do.
- Browser I/O: downloads, `FileReader`, the drop zone and localStorage persistence. The file reader's `JSON.parse` is left out too; the model starts from the parsed object.
- `uploadFile`, its simulated progress, SHA-256 checksum and `setUploadProgress`: timers and crypto.
- The loading and error flags of the stores, and `clearError`/`setLoading`: bookkeeping only.
- `crypto.randomUUID` and `new Date()`: ids and timestamps are parameters.
- The CSV/XML/PDF/Markdown codec (`exportAssessmentData`, `importAssessmentData`) is not part of this model. `ImportPolicy.OnDrop` takes its result, or its error, as a parameter.
- The Markdown text of the report, and its locale dates: only the counts and the completion rate are modelled.
- Floating point: `progressPercentage` in the step view.
- Keys present with the value `undefined` are treated as absent.
- The unused `testCaseId` parameter of the decision tree and the write-only `selectedOutcome` state of the conceptual session.
- The "Import failed" message for a thrown non-`Error`: every modelled failure is an `Error` with a message.
- A store-generated id that a spread id overrides is never observable, so it is not modelled.
- ProjectStore.ProjectProgressOf: the empty per-mechanism, per-type and activity lists are not modelled.
- TestCatalog: the catalog's descriptive texts (objectives, procedures, expected results) are empty strings; ids, mechanisms, numbers, types, titles, sources, sections, order and steps are modelled.
- EditAssessmentForm.HandleSubmit: `onSave` has no caller in the repository; whether it resolves is a parameter.
- DuplicateDetection.ContentHash: the encoder is an arbitrary function of the canonical tuple, so the model proves that equal content hashes equally but says nothing about distinct content. Stripping the `+`, `/` and `=` of base64 loses information, so the real hash does not promise that either.
- ExportUtils.ReplaceNonAlnum: strings are sequences of code points here, while the regular expression (no `u` flag) runs over UTF-16 code units; a character above U+FFFF is one `_` in the model but two in the browser.
- ExportUtils.FileStem: inherits the same difference, so for a name with a character above U+FFFF the model's stem is one character shorter per such character than the browser's.
- DuplicateDetection.CreateDuplicateSummary: the source groups into a plain `{}`, so a project id naming an inherited property (`constructor`, `toString`, `__proto__`, ...) is already truthy there and `acc[projectId].push` throws a TypeError, while the model writes an ordinary line for it. The import paths never reach this: every stored project id comes from `crypto.randomUUID`, and the step page renders nothing without a stored project.
- ExportUtils.RoundedPercentIsNearest: rounds the exact fraction, while `Math.round(count / length * 100)` rounds a double (29 of 200 gives 14 in the browser and 15 here). The completion rate only evaluates it with count equal to length, where both give 100 (ExportUtils.WholeIsHundredPercent).
- Text.ToLower: lower-cases ASCII letters only; `toLowerCase` also folds other scripts.
- ProjectStore.SearchProjects: case folding is ASCII-only, through Text.ToLower.
- EvidenceStore.SearchFiles: case folding is ASCII-only, through Text.ToLower.
- DuplicateDetection.SummaryOrderForOrdinaryIds: first-appearance order is proved only for project ids that are not array indices; `Object.entries` lists those first, and DuplicateDetection.PropertyOrderShape states that order.

## Observations

- The JSON project import reports the batch length, not the number created. With skipping on and duplicates present, the count is too high (`ImportPolicy.SkippedStillCounted`).
- The JSON and XML imports keep each record's own id. Importing a file twice stores two records with one id, and from then on `updateAssessment` replaces both (`ImportPolicy.RehomedRepeatsStoredIds`).

=== FILE: assessment_execution.dfy ===
/** Step-based assessment execution (src/components/assessment/AssessmentExecution.tsx):
    one result per test step of the case, per-field updates, step navigation
    (the Next button's gate on moving on, and the step overview, which jumps
    to any step without it), the overall roll-up and the request sent on
    submit. */
module AssessmentExecution {
  import opened Wrappers
  import opened Text
  import opened Types
  import Seqs

  /** The page's `Partial<CreateAssessmentRequest>`. */
  datatype ExecutionDraft = ExecutionDraft(
    result: Option<AssessmentResult>,
    justification: Option<string>,
    comments: Option<string>,
    testPerformedOn: Option<string>,
    testExecutedBy: Option<string>,
    testStepResults: Option<seq<TestStepResult>>)

  const InitialDraft: ExecutionDraft := ExecutionDraft(None, Some(""), Some(""), Some(""), Some(""), Some([]))

  const CurrentUser: string := "current_user"

  /** A blank result for one step: not yet assessed, no observation. */
  function BlankResult(step: TestStep): TestStepResult {
    TestStepResult(step.id, Na, "", [], None)
  }

  /** The step results a case starts with: one per test step, in order, all 'na'. */
  function InitStepResults(steps: seq<TestStep>): (r: seq<TestStepResult>)
    ensures |r| == |steps|
    ensures forall i :: 0 <= i < |steps| ==>
              && r[i].testStepId == steps[i].id
              && r[i].result == Na && r[i].actualResult == "" && r[i].screenshots == [] && r[i].notes.None?
  {
    Seqs.Map(steps, BlankResult)
  }

  /** The initialisation effect once project and test case are known: the
      step results, the product under test and the executing user; the
      other draft fields are kept. */
  function Initialise(d: ExecutionDraft, productName: string, steps: seq<TestStep>): (r: ExecutionDraft)
    ensures r.testStepResults == Some(InitStepResults(steps))
    ensures r.testPerformedOn == Some(productName) && r.testExecutedBy == Some(CurrentUser)
    ensures r.result == d.result && r.justification == d.justification && r.comments == d.comments
  {
    d.(testStepResults := Some(InitStepResults(steps)), testPerformedOn := Some(productName), testExecutedBy := Some(CurrentUser))
  }

  // ---------------------------------------------------------------------------
  // Per-field update

  /** The fields the page edits through `updateStepResult`. */
  datatype StepEdit = SetResult(result: AssessmentResult) | SetActualResult(text: string) | SetNotes(text: string)

  function ApplyEdit(r: TestStepResult, e: StepEdit): TestStepResult {
    match e
    case SetResult(v) => r.(result := v)
    case SetActualResult(t) => r.(actualResult := t)
    case SetNotes(t) => r.(notes := Some(t))
  }

  /** The edited field of `r` holds the edit's value. */
  predicate EditHolds(r: TestStepResult, e: StepEdit) {
    match e
    case SetResult(v) => r.result == v
    case SetActualResult(t) => r.actualResult == t
    case SetNotes(t) => r.notes == Some(t)
  }

  /** `r` and `r'` agree on every field the edit does not name. */
  predicate OthersAgree(r: TestStepResult, r': TestStepResult, e: StepEdit) {
    && r'.testStepId == r.testStepId && r'.screenshots == r.screenshots
    && (!e.SetResult? ==> r'.result == r.result)
    && (!e.SetActualResult? ==> r'.actualResult == r.actualResult)
    && (!e.SetNotes? ==> r'.notes == r.notes)
  }

  function EditWhere(stepId: string, e: StepEdit): TestStepResult -> TestStepResult {
    (r: TestStepResult) => if r.testStepId == stepId then ApplyEdit(r, e) else r
  }

  /** `updateStepResult`: every entry with the step id gets the new field
      value and keeps its other fields; the other entries and the length are
      unchanged. A missing list becomes the empty list. */
  function UpdateStepResult(d: ExecutionDraft, stepId: string, e: StepEdit): (r: ExecutionDraft)
    ensures r.testStepResults.Some?
    ensures var before := d.testStepResults.GetOr([]);
            var after := r.testStepResults.value;
            && |after| == |before|
            && forall i :: 0 <= i < |before| ==>
                 && OthersAgree(before[i], after[i], e)
                 && (before[i].testStepId == stepId ==> EditHolds(after[i], e))
                 && (before[i].testStepId != stepId ==> after[i] == before[i])
    ensures r == d.(testStepResults := r.testStepResults)
  {
    d.(testStepResults := Some(Seqs.Map(d.testStepResults.GetOr([]), EditWhere(stepId, e))))
  }

  /** A later edit of the same field overwrites an earlier one. */
  lemma LaterEditWins(d: ExecutionDraft, stepId: string, e1: StepEdit, e2: StepEdit)
    requires e1.SetResult? == e2.SetResult? && e1.SetActualResult? == e2.SetActualResult?
    ensures UpdateStepResult(UpdateStepResult(d, stepId, e1), stepId, e2) == UpdateStepResult(d, stepId, e2)
  {
    var before := d.testStepResults.GetOr([]);
    var a := UpdateStepResult(UpdateStepResult(d, stepId, e1), stepId, e2).testStepResults.value;
    var b := UpdateStepResult(d, stepId, e2).testStepResults.value;
    assert |a| == |b|;
    forall i | 0 <= i < |a| ensures a[i] == b[i] {
      if before[i].testStepId == stepId {
        assert a[i] == ApplyEdit(ApplyEdit(before[i], e1), e2);
      }
    }
    assert a == b;
  }

  /** An edit for a step id no entry carries changes nothing but the
      missing-list default. */
  lemma EditOfAbsentStep(d: ExecutionDraft, stepId: string, e: StepEdit)
    requires d.testStepResults.Some?
    requires forall i :: 0 <= i < |d.testStepResults.value| ==> d.testStepResults.value[i].testStepId != stepId
    ensures UpdateStepResult(d, stepId, e) == d
  {
    var before := d.testStepResults.value;
    var after := UpdateStepResult(d, stepId, e).testStepResults.value;
    assert after == before;
  }

  // ---------------------------------------------------------------------------
  // Moving on

  function StepIdIs(stepId: string): TestStepResult -> bool {
    (r: TestStepResult) => r.testStepId == stepId
  }

  /** `getCurrentStepResult`: the first entry for the current step. */
  function CurrentStepResult(d: ExecutionDraft, stepId: string): (r: Option<TestStepResult>)
    ensures r.None? <==> forall i :: 0 <= i < |d.testStepResults.GetOr([])| ==> d.testStepResults.GetOr([])[i].testStepId != stepId
    ensures r.Some? ==> r.value in d.testStepResults.GetOr([]) && r.value.testStepId == stepId
    ensures r.Some? ==>
              var s := d.testStepResults.GetOr([]);
              exists k :: 0 <= k < |s| && s[k] == r.value && forall j :: 0 <= j < k ==> s[j].testStepId != stepId
  {
    Seqs.FindFirst(d.testStepResults.GetOr([]), StepIdIs(stepId))
  }

  /** The step counts as done: assessed, with an observation that is not blank. */
  predicate StepDone(r: TestStepResult) {
    r.result != Na && Trim(r.actualResult) != ""
  }

  /** `canProceedToNext`: the current step has an entry, and the first such
      entry is done. */
  predicate CanProceed(d: ExecutionDraft, stepId: string) {
    var r := CurrentStepResult(d, stepId);
    r.Some? && StepDone(r.value)
  }

  /** With a single entry for the step, setting a verdict and a non-blank
      observation unlocks the next step, and clearing the verdict back to
      'na' locks it again. */
  lemma FillingUnlocksNext(d: ExecutionDraft, stepId: string, k: nat, v: AssessmentResult, text: string)
    requires d.testStepResults.Some? && k < |d.testStepResults.value|
    requires d.testStepResults.value[k].testStepId == stepId
    requires forall i :: 0 <= i < |d.testStepResults.value| && d.testStepResults.value[i].testStepId == stepId ==> i == k
    ensures var d2 := UpdateStepResult(UpdateStepResult(d, stepId, SetResult(v)), stepId, SetActualResult(text));
            CanProceed(d2, stepId) <==> v != Na && Trim(text) != ""
  {
    var d1 := UpdateStepResult(d, stepId, SetResult(v));
    var d2 := UpdateStepResult(d1, stepId, SetActualResult(text));
    var s := d2.testStepResults.value;
    assert s[k].result == v && s[k].actualResult == text;
    Seqs.FindFirstUnique(s, StepIdIs(stepId), k);
  }

  // ---------------------------------------------------------------------------
  // Roll-up

  predicate HasFailure(rs: seq<TestStepResult>) {
    exists i :: 0 <= i < |rs| && rs[i].result == Fail
  }

  predicate AllCompleted(rs: seq<TestStepResult>) {
    forall i :: 0 <= i < |rs| ==> rs[i].result != Na
  }

  /** `calculateOverallResult`, folded over the list: 'fail' if any step
      failed; otherwise 'pass' if every step passed (so also for no steps);
      otherwise 'na'. */
  function OverallResult(rs: seq<TestStepResult>): (r: AssessmentResult)
    ensures r == Fail <==> HasFailure(rs)
    ensures r == Pass <==> !HasFailure(rs) && AllCompleted(rs)
    ensures r == Pass <==> forall i :: 0 <= i < |rs| ==> rs[i].result == Pass
    ensures r == Na <==> !HasFailure(rs) && !AllCompleted(rs)
  {
    if |rs| == 0 then Pass
    else
      var rest := OverallResult(rs[1..]);
      assert forall i :: 1 <= i < |rs| ==> rs[i] == rs[1..][i - 1];
      assert HasFailure(rs[1..]) ==> HasFailure(rs) by {
        if HasFailure(rs[1..]) {
          var j :| 0 <= j < |rs[1..]| && rs[1..][j].result == Fail;
          assert rs[j + 1].result == Fail;
        }
      }
      if rs[0].result == Fail || rest == Fail then Fail
      else if rs[0].result == Na || rest == Na then Na
      else Pass
  }

  /** The roll-up does not depend on the order of the steps. */
  lemma OverallResultOrderFree(a: seq<TestStepResult>, b: seq<TestStepResult>)
    ensures OverallResult(a + b) == OverallResult(b + a)
  {
    var ab, ba := a + b, b + a;
    assert HasFailure(ab) <==> HasFailure(a) || HasFailure(b) by {
      if HasFailure(a) { var i :| 0 <= i < |a| && a[i].result == Fail; assert ab[i] == a[i]; }
      if HasFailure(b) { var i :| 0 <= i < |b| && b[i].result == Fail; assert ab[|a| + i] == b[i]; }
    }
    assert HasFailure(ba) <==> HasFailure(a) || HasFailure(b) by {
      if HasFailure(b) { var i :| 0 <= i < |b| && b[i].result == Fail; assert ba[i] == b[i]; }
      if HasFailure(a) { var i :| 0 <= i < |a| && a[i].result == Fail; assert ba[|b| + i] == a[i]; }
    }
    AllCompletedConcat(a, b);
    AllCompletedConcat(b, a);
  }

  lemma AllCompletedConcat(a: seq<TestStepResult>, b: seq<TestStepResult>)
    ensures AllCompleted(a + b) <==> AllCompleted(a) && AllCompleted(b)
  {
    var ab := a + b;
    if AllCompleted(ab) {
      forall i | 0 <= i < |a| ensures a[i].result != Na { assert ab[i] == a[i]; }
      forall i | 0 <= i < |b| ensures b[i].result != Na { assert ab[|a| + i] == b[i]; }
    }
    if AllCompleted(a) && AllCompleted(b) {
      forall i | 0 <= i < |ab| ensures ab[i].result != Na {
        if i < |a| { assert ab[i] == a[i]; } else { assert ab[i] == b[i - |a|]; }
      }
    }
  }

  function IsCompleted(r: TestStepResult): bool {
    r.result != Na
  }

  /** `completedSteps`: the number of entries whose result is not 'na'
      (0 for a missing list); it never exceeds the number of entries, and
      reaches it exactly when every entry is completed. */
  method CompletedSteps(d: ExecutionDraft) returns (n: nat)
    ensures n == |Seqs.Filter(d.testStepResults.GetOr([]), IsCompleted)|
    ensures n <= |d.testStepResults.GetOr([])|
    ensures n == |d.testStepResults.GetOr([])| <==> AllCompleted(d.testStepResults.GetOr([]))
  {
    var rs := d.testStepResults.GetOr([]);
    n := 0;
    var i := 0;
    while i < |rs|
      invariant 0 <= i <= |rs|
      invariant n == |Seqs.Filter(rs[..i], IsCompleted)|
    {
      assert rs[..i + 1][..i] == rs[..i];
      if rs[i].result != Na {
        n := n + 1;
      }
      i := i + 1;
    }
    assert rs[..i] == rs;
    Seqs.FilterKeepsAll(rs, IsCompleted);
  }

  /** Freshly initialised steps: nothing completed, and the roll-up is
      'na' unless the case has no steps, when it is 'pass'. */
  lemma InitialRollUp(steps: seq<TestStep>)
    ensures OverallResult(InitStepResults(steps)) == if |steps| == 0 then Pass else Na
    ensures Seqs.Filter(InitStepResults(steps), IsCompleted) == []
  {
    var rs := InitStepResults(steps);
    Seqs.FilterNone(rs, IsCompleted);
    if |steps| > 0 {
      assert rs[0].result == Na;
    }
  }

  // ---------------------------------------------------------------------------
  // Step navigation

  /** "Previous Step": one back, never below 0. */
  function PreviousStep(index: nat): (r: nat)
    ensures index == 0 ==> r == 0
    ensures index > 0 ==> r + 1 == index
  {
    if index == 0 then 0 else index - 1
  }

  /** "Next Step": offered only while there is a later step, and enabled
      only when the current step can be left. */
  function NextStep(index: nat, totalSteps: nat, canProceed: bool): (r: nat)
    ensures r == index || r == index + 1
    ensures r == index + 1 <==> index + 1 < totalSteps && canProceed
  {
    if index + 1 < totalSteps && canProceed then index + 1 else index
  }

  /** The step index names a step, or is the 0 of a case without steps. */
  predicate IndexInRange(index: nat, totalSteps: nat) {
    index == 0 || index < totalSteps
  }

  /** A click on entry `target` of the step overview: the overview lists
      one entry per step, and a click selects it outright. */
  function JumpToStep(index: nat, target: nat, totalSteps: nat): (r: nat)
    requires target < totalSteps
    ensures r < totalSteps && IndexInRange(r, totalSteps)
    ensures r == target
  {
    target
  }

  /** Navigation keeps the index in range, whichever control is used. */
  lemma NavigationStaysInRange(index: nat, totalSteps: nat, canProceed: bool, target: nat)
    requires IndexInRange(index, totalSteps)
    ensures IndexInRange(PreviousStep(index), totalSteps)
    ensures IndexInRange(NextStep(index, totalSteps, canProceed), totalSteps)
    ensures totalSteps > 0 ==> PreviousStep(index) < totalSteps && NextStep(index, totalSteps, canProceed) < totalSteps
    ensures target < totalSteps ==> IndexInRange(JumpToStep(index, target, totalSteps), totalSteps)
  {
  }

  /** Only the Next button is gated: with the current step unfinished, Next
      stays put while the overview still reaches any later step. */
  lemma OverviewBypassesGate(index: nat, totalSteps: nat, target: nat)
    requires index < target < totalSteps
    ensures NextStep(index, totalSteps, false) == index
    ensures JumpToStep(index, target, totalSteps) == target && target > index
  {
  }

  // ---------------------------------------------------------------------------
  // Submit

  /** The request built by `handleSubmitAssessment`: the roll-up as result,
      missing strings as '' and a missing step list as []. */
  function BuildSubmitRequest(testCaseId: string, d: ExecutionDraft): (r: CreateAssessmentRequest)
    ensures r.testCaseId == testCaseId
    ensures r.result == OverallResult(d.testStepResults.GetOr([]))
    ensures r.justification == d.justification.GetOr("") && r.comments == d.comments
    ensures r.testPerformedOn == d.testPerformedOn.GetOr("") && r.testExecutedBy == d.testExecutedBy.GetOr("")
    ensures r.testStepResults == Some(d.testStepResults.GetOr([]))
  {
    var steps := d.testStepResults.GetOr([]);
    CreateAssessmentRequest(testCaseId, OverallResult(steps), d.justification.GetOr(""), d.comments,
                            d.testPerformedOn.GetOr(""), d.testExecutedBy.GetOr(""), Some(steps))
  }

  /** The draft's own `result` field never reaches the request: two drafts
      that differ only there build the same request. */
  lemma DraftResultIgnored(testCaseId: string, d: ExecutionDraft, v: Option<AssessmentResult>)
    ensures BuildSubmitRequest(testCaseId, d.(result := v)) == BuildSubmitRequest(testCaseId, d)
  {
  }

  /** The Complete Assessment button: it is rendered only on the last step
      (there is none for a case without steps), and it is enabled when that
      step can proceed and no submit is running. */
  predicate CompleteEnabled(d: ExecutionDraft, steps: seq<TestStep>, index: nat, submitting: bool) {
    && |steps| > 0 && index == |steps| - 1
    && CanProceed(d, steps[index].id)
    && !submitting
  }

  /** A freshly initialised draft cannot be submitted: every entry is 'na',
      so whichever step is current, Complete stays disabled. */
  lemma InitialisedCannotComplete(d: ExecutionDraft, productName: string, steps: seq<TestStep>, index: nat, submitting: bool)
    ensures !CompleteEnabled(Initialise(d, productName, steps), steps, index, submitting)
  {
    var d1 := Initialise(d, productName, steps);
    if |steps| > 0 && index == |steps| - 1 {
      var r := CurrentStepResult(d1, steps[index].id);
      if r.Some? {
        var s := InitStepResults(steps);
        assert r.value in s;
        assert !StepDone(r.value);
      }
    }
  }

  /** Filling in the last step, when it has a single entry, enables Complete
      exactly when the verdict is not 'na' and the observation is not blank. */
  lemma FillingLastStepEnablesComplete(d: ExecutionDraft, steps: seq<TestStep>, k: nat, v: AssessmentResult, text: string)
    requires |steps| > 0
    requires d.testStepResults.Some? && k < |d.testStepResults.value|
    requires d.testStepResults.value[k].testStepId == steps[|steps| - 1].id
    requires forall i :: 0 <= i < |d.testStepResults.value| && d.testStepResults.value[i].testStepId == steps[|steps| - 1].id ==> i == k
    ensures var id := steps[|steps| - 1].id;
            var d2 := UpdateStepResult(UpdateStepResult(d, id, SetResult(v)), id, SetActualResult(text));
            CompleteEnabled(d2, steps, |steps| - 1, false) <==> v != Na && Trim(text) != ""
  {
    FillingUnlocksNext(d, steps[|steps| - 1].id, k, v, text);
  }

  /** The request that a freshly initialised draft would build reports the
      product, the executing user and an 'na' roll-up (or 'pass' for a case
      without steps). The page never sends it as it stands: see
      InitialisedCannotComplete. */
  lemma SubmitAfterInitialise(testCaseId: string, productName: string, steps: seq<TestStep>)
    ensures var r := BuildSubmitRequest(testCaseId, Initialise(InitialDraft, productName, steps));
            && r.result == (if |steps| == 0 then Pass else Na)
            && r.testPerformedOn == productName && r.testExecutedBy == CurrentUser
            && r.justification == "" && r.comments == Some("")
  {
    InitialRollUp(steps);
  }
}

=== FILE: assessment_store.dfy ===
/** The assessment store (src/stores/assessmentStore.ts) as state
    transitions on its persisted collections. The generated id and the
    clock reading are parameters; the loading and error flags are left out. */
module AssessmentStore {
  import opened Wrappers
  import opened Types
  import Seqs

  datatype AssessmentStoreState = AssessmentStoreState(assessments: seq<Assessment>, testCases: seq<TestCase>)

  const CurrentUser: string := "current_user"
  const NotFound: string := "Assessment not found"

  /** The object handed to `createAssessment`. Typed callers pass a
      `CreateAssessmentRequest`; the import paths pass whole assessment
      records, whose extra keys the spread carries along. A key absent
      from the object is `None`. */
  datatype AssessmentData = AssessmentData(
    request: CreateAssessmentRequest,
    id: Option<string>,
    projectId: Option<string>,
    reviewedBy: Option<string>,
    reviewedAt: Option<string>,
    notes: Option<string>)

  /** A typed request carries none of the extra keys. */
  function FromRequest(req: CreateAssessmentRequest): AssessmentData {
    AssessmentData(req, None, None, None, None, None)
  }

  /** A stored record spread as creation data. */
  function FromAssessment(a: Assessment): AssessmentData {
    AssessmentData(
      CreateAssessmentRequest(a.testCaseId, a.result, a.justification, a.comments,
                              a.testPerformedOn, a.testExecutedBy, Some(a.testStepResults)),
      Some(a.id), Some(a.projectId), a.reviewedBy, a.reviewedAt, a.notes)
  }

  /** The record `createAssessment` builds. Keys spread from `data` win
      over the generated id and the `projectId` argument; evidence files,
      assessment time and user, version and status always come from the
      store, and missing step results become []. */
  function NewAssessment(data: AssessmentData, projectId: string, newId: string, now: string): (a: Assessment)
    ensures a.id == (if data.id.Some? then data.id.value else newId)
    ensures a.projectId == (if data.projectId.Some? then data.projectId.value else projectId)
    ensures a.version == 1 && a.status == StatusDraft && a.evidenceFiles == []
    ensures a.assessedAt == now && a.assessedBy == CurrentUser
    ensures a.testStepResults == data.request.testStepResults.GetOr([])
    ensures a.testCaseId == data.request.testCaseId && a.result == data.request.result
    ensures a.justification == data.request.justification && a.comments == data.request.comments
    ensures a.notes == data.notes && a.reviewedBy == data.reviewedBy && a.reviewedAt == data.reviewedAt
  {
    var req := data.request;
    Assessment(
      data.id.GetOr(newId), data.projectId.GetOr(projectId),
      req.testCaseId, req.result, req.justification, req.comments,
      req.testPerformedOn, req.testExecutedBy,
      [], req.testStepResults.GetOr([]),
      now, CurrentUser, 1, StatusDraft,
      data.reviewedBy, data.reviewedAt, data.notes)
  }

  /** `createAssessment`: appends exactly the new record. */
  function CreateAssessment(st: AssessmentStoreState, data: AssessmentData, projectId: string, newId: string, now: string)
    : (r: (AssessmentStoreState, Assessment))
    ensures r.1 == NewAssessment(data, projectId, newId, now)
    ensures r.0.assessments == st.assessments + [r.1]
    ensures r.0.testCases == st.testCases
  {
    var a := NewAssessment(data, projectId, newId, now);
    (st.(assessments := st.assessments + [a]), a)
  }

  /** Through the typed interface the generated id and the argument are used. */
  lemma TypedCreateUsesArguments(st: AssessmentStoreState, req: CreateAssessmentRequest, projectId: string, newId: string, now: string)
    ensures var a := CreateAssessment(st, FromRequest(req), projectId, newId, now).1;
            a.id == newId && a.projectId == projectId && a.notes.None? && a.reviewedBy.None?
  {
  }

  // ---------------------------------------------------------------------------
  // Queries

  function HasId(id: string): Assessment -> bool {
    (a: Assessment) => a.id == id
  }

  function InProject(projectId: string): Assessment -> bool {
    (a: Assessment) => a.projectId == projectId
  }

  function ForTestCase(testCaseId: string): Assessment -> bool {
    (a: Assessment) => a.testCaseId == testCaseId
  }

  /** `getAssessment`: the first record with the id. */
  function GetAssessment(st: AssessmentStoreState, id: string): (r: Option<Assessment>)
    ensures r.None? <==> forall i :: 0 <= i < |st.assessments| ==> st.assessments[i].id != id
    ensures r.Some? ==> r.value in st.assessments && r.value.id == id
    ensures r.Some? ==> exists k :: 0 <= k < |st.assessments| && st.assessments[k] == r.value
                                    && forall j :: 0 <= j < k ==> st.assessments[j].id != id
  {
    Seqs.FindFirst(st.assessments, HasId(id))
  }

  /** `getAssessmentsByProject`: exactly the project's records, in stored order. */
  function AssessmentsByProject(st: AssessmentStoreState, projectId: string): (r: seq<Assessment>)
    ensures forall a :: a in r <==> a in st.assessments && a.projectId == projectId
    ensures Seqs.Selects(r, st.assessments, InProject(projectId))
  {
    Seqs.FilterSelects(st.assessments, InProject(projectId));
    Seqs.Filter(st.assessments, InProject(projectId))
  }

  /** `getAssessmentsByTestCase`: exactly the test case's records, in stored order. */
  function AssessmentsByTestCase(st: AssessmentStoreState, testCaseId: string): (r: seq<Assessment>)
    ensures forall a :: a in r <==> a in st.assessments && a.testCaseId == testCaseId
    ensures Seqs.Selects(r, st.assessments, ForTestCase(testCaseId))
  {
    Seqs.FilterSelects(st.assessments, ForTestCase(testCaseId));
    Seqs.Filter(st.assessments, ForTestCase(testCaseId))
  }

  /** A created record is found by its id when the id was new, and joins
      the end of its project's list; other projects' lists are unchanged. */
  lemma CreateThenQuery(st: AssessmentStoreState, data: AssessmentData, projectId: string, newId: string, now: string, p: string)
    requires forall i :: 0 <= i < |st.assessments| ==> st.assessments[i].id != NewAssessment(data, projectId, newId, now).id
    ensures var (st', a) := CreateAssessment(st, data, projectId, newId, now);
            && GetAssessment(st', a.id) == Some(a)
            && AssessmentsByProject(st', p) == AssessmentsByProject(st, p) + (if a.projectId == p then [a] else [])
  {
    var (st', a) := CreateAssessment(st, data, projectId, newId, now);
    Seqs.FindFirstUnique(st'.assessments, HasId(a.id), |st.assessments|);
    Seqs.FilterAppend(st.assessments, [a], InProject(p));
  }

  // ---------------------------------------------------------------------------
  // Update and delete

  /** `{...existing, ...data}`: a field present in the request replaces the
      stored one. The request has no id, project id or version keys. */
  function Merge(a: Assessment, data: UpdateAssessmentRequest): Assessment {
    a.(testCaseId := data.testCaseId.GetOr(a.testCaseId),
       result := data.result.GetOr(a.result),
       justification := data.justification.GetOr(a.justification),
       comments := if data.comments.Some? then data.comments else a.comments,
       testPerformedOn := data.testPerformedOn.GetOr(a.testPerformedOn),
       testExecutedBy := data.testExecutedBy.GetOr(a.testExecutedBy),
       testStepResults := data.testStepResults.GetOr(a.testStepResults),
       status := data.status.GetOr(a.status))
  }

  /** `updateAssessment`. An unknown id fails with "Assessment not found".
      Otherwise the first record with the id, merged with the request and
      one version up, replaces every record with that id in place. */
  function UpdateAssessment(st: AssessmentStoreState, id: string, data: UpdateAssessmentRequest)
    : (r: Result<(AssessmentStoreState, Assessment), string>)
    ensures r.Failure? <==> forall i :: 0 <= i < |st.assessments| ==> st.assessments[i].id != id
    ensures r.Failure? ==> r.error == NotFound
    ensures r.Success? ==>
              var (st', updated) := r.value;
              var prior := GetAssessment(st, id).value;
              && updated.id == id && updated.projectId == prior.projectId
              && updated.version == prior.version + 1
              && updated.evidenceFiles == prior.evidenceFiles
              && updated.assessedAt == prior.assessedAt && updated.assessedBy == prior.assessedBy
              && updated.reviewedBy == prior.reviewedBy && updated.reviewedAt == prior.reviewedAt
              && updated.notes == prior.notes
              && Patched(data.testCaseId, prior.testCaseId, updated.testCaseId)
              && Patched(data.result, prior.result, updated.result)
              && Patched(data.justification, prior.justification, updated.justification)
              && (data.comments.Some? ==> updated.comments == data.comments)
              && (data.comments.None? ==> updated.comments == prior.comments)
              && Patched(data.testPerformedOn, prior.testPerformedOn, updated.testPerformedOn)
              && Patched(data.testExecutedBy, prior.testExecutedBy, updated.testExecutedBy)
              && Patched(data.testStepResults, prior.testStepResults, updated.testStepResults)
              && Patched(data.status, prior.status, updated.status)
              && st'.testCases == st.testCases
              && |st'.assessments| == |st.assessments|
              && forall i :: 0 <= i < |st.assessments| ==>
                   st'.assessments[i] == if st.assessments[i].id == id then updated else st.assessments[i]
  {
    match GetAssessment(st, id)
    case None => Failure(NotFound)
    case Some(existing) =>
      var updated := Merge(existing, data).(version := existing.version + 1);
      Success((st.(assessments := Seqs.ReplaceWhere(st.assessments, HasId(id), updated)), updated))
  }

  /** No two stored records share an id. */
  predicate UniqueIds(s: seq<Assessment>) {
    forall i, j :: 0 <= i < j < |s| ==> s[i].id != s[j].id
  }

  /** An update neither moves a record to another project nor changes how
      many records each project has. */
  lemma UpdateKeepsProjects(st: AssessmentStoreState, id: string, data: UpdateAssessmentRequest, p: string)
    requires UniqueIds(st.assessments)
    requires UpdateAssessment(st, id, data).Success?
    ensures var st' := UpdateAssessment(st, id, data).value.0;
            |AssessmentsByProject(st', p)| == |AssessmentsByProject(st, p)|
  {
    var st' := UpdateAssessment(st, id, data).value.0;
    var prior := GetAssessment(st, id).value;
    var k :| 0 <= k < |st.assessments| && st.assessments[k] == prior;
    forall i | 0 <= i < |st.assessments| ensures st'.assessments[i].projectId == st.assessments[i].projectId {
      if st.assessments[i].id == id {
        assert i == k;
      }
    }
    SameProjectsSameCount(st.assessments, st'.assessments, p);
  }

  /** Two lists whose records agree position by position on the project
      have equally many records of each project. */
  lemma {:induction false} SameProjectsSameCount(a: seq<Assessment>, b: seq<Assessment>, p: string)
    requires |a| == |b|
    requires forall i :: 0 <= i < |a| ==> a[i].projectId == b[i].projectId
    ensures |Seqs.Filter(a, InProject(p))| == |Seqs.Filter(b, InProject(p))|
    decreases |a|
  {
    if |a| > 0 {
      var n := |a| - 1;
      assert forall i :: 0 <= i < n ==> a[..n][i] == a[i] && b[..n][i] == b[i];
      SameProjectsSameCount(a[..n], b[..n], p);
      assert InProject(p)(a[n]) == InProject(p)(b[n]);
    }
  }

  function OtherId(id: string): Assessment -> bool {
    (a: Assessment) => a.id != id
  }

  /** `deleteAssessment`: every record with the id goes, the rest stay in
      order; an absent id changes nothing. */
  function DeleteAssessment(st: AssessmentStoreState, id: string): (r: AssessmentStoreState)
    ensures forall a :: a in r.assessments <==> a in st.assessments && a.id != id
    ensures Seqs.Selects(r.assessments, st.assessments, OtherId(id))
    ensures (forall i :: 0 <= i < |st.assessments| ==> st.assessments[i].id != id) ==> r == st
    ensures r.testCases == st.testCases
  {
    var kept := Seqs.Filter(st.assessments, OtherId(id));
    Seqs.FilterSelects(st.assessments, OtherId(id));
    assert (forall i :: 0 <= i < |st.assessments| ==> st.assessments[i].id != id) ==> kept == st.assessments by {
      if forall i :: 0 <= i < |st.assessments| ==> st.assessments[i].id != id {
        Seqs.FilterAll(st.assessments, OtherId(id));
      }
    }
    st.(assessments := kept)
  }

  /** Deleting a record just created under a fresh id restores the store. */
  lemma DeleteUndoesCreate(st: AssessmentStoreState, data: AssessmentData, projectId: string, newId: string, now: string)
    requires forall i :: 0 <= i < |st.assessments| ==> st.assessments[i].id != NewAssessment(data, projectId, newId, now).id
    ensures var (st', a) := CreateAssessment(st, data, projectId, newId, now);
            DeleteAssessment(st', a.id) == st
  {
    var (st', a) := CreateAssessment(st, data, projectId, newId, now);
    Seqs.FilterAppend(st.assessments, [a], OtherId(a.id));
    Seqs.FilterAll(st.assessments, OtherId(a.id));
  }

  // ---------------------------------------------------------------------------
  // Test cases

  /** The descriptive texts of the placeholder case: title, objective,
      prerequisites, procedures, units and rationale. */
  const MockTexts: seq<string> := [
    "Access Control Mechanism - Conceptual Assessment",
    "Verify the conceptual design of access control mechanisms",
    "System documentation and design specifications",
    "Review design documentation and verify access control concepts",
    "Design documents, specifications",
    "Conceptual assessment based on design review"]

  /** The placeholder case `loadTestCases` installs for a standard. */
  function MockTestCase(newId: string, standard: Standard): (tc: TestCase)
    ensures tc.source == standard && tc.id == newId && tc.mechanism == ACM && tc.testSteps == []
  {
    var t := MockTexts;
    TestCase(newId, ACM, 1, Conceptual, t[0], t[1], t[2], t[3], t[4], t[5], standard, "5.1.1", 1, [])
  }

  function OtherStandard(standard: Standard): TestCase -> bool {
    (tc: TestCase) => tc.source != standard
  }

  /** `loadTestCases`: the standard's cases are replaced by the placeholder,
      the other standard's cases stay in order in front of it. */
  function LoadTestCases(st: AssessmentStoreState, standard: Standard, newId: string): (r: AssessmentStoreState)
    ensures r.assessments == st.assessments
    ensures |r.testCases| >= 1 && r.testCases[|r.testCases| - 1] == MockTestCase(newId, standard)
    ensures forall tc :: tc in r.testCases[..|r.testCases| - 1] <==> tc in st.testCases && tc.source != standard
    ensures Seqs.Selects(r.testCases[..|r.testCases| - 1], st.testCases, OtherStandard(standard))
  {
    var kept := Seqs.Filter(st.testCases, OtherStandard(standard));
    Seqs.FilterSelects(st.testCases, OtherStandard(standard));
    assert (kept + [MockTestCase(newId, standard)])[..|kept|] == kept;
    st.(testCases := kept + [MockTestCase(newId, standard)])
  }

  /** Loading the same standard again leaves a single placeholder for it. */
  lemma LoadTestCasesTwice(st: AssessmentStoreState, standard: Standard, id1: string, id2: string)
    ensures LoadTestCases(LoadTestCases(st, standard, id1), standard, id2) == LoadTestCases(st, standard, id2)
  {
    var p := OtherStandard(standard);
    var kept := Seqs.Filter(st.testCases, p);
    Seqs.FilterAppend(kept, [MockTestCase(id1, standard)], p);
    Seqs.FilterIdempotent(st.testCases, p);
    assert Seqs.Filter([MockTestCase(id1, standard)], p) == [];
  }

  /** Cases of the other standard survive a load untouched. */
  lemma LoadKeepsOtherStandard(st: AssessmentStoreState, standard: Standard, newId: string, other: Standard)
    requires other != standard
    ensures Seqs.Filter(LoadTestCases(st, standard, newId).testCases, (tc: TestCase) => tc.source == other)
         == Seqs.Filter(st.testCases, (tc: TestCase) => tc.source == other)
  {
    var p := OtherStandard(standard);
    var q := (tc: TestCase) => tc.source == other;
    var kept := Seqs.Filter(st.testCases, p);
    Seqs.FilterAppend(kept, [MockTestCase(newId, standard)], q);
    assert Seqs.Filter([MockTestCase(newId, standard)], q) == [];
    FilterOfFilter(st.testCases, p, q);
  }

  /** When `q` implies `p`, filtering by `p` first changes nothing for `q`. */
  lemma {:induction false} FilterOfFilter(s: seq<TestCase>, p: TestCase -> bool, q: TestCase -> bool)
    requires forall x :: q(x) ==> p(x)
    ensures Seqs.Filter(Seqs.Filter(s, p), q) == Seqs.Filter(s, q)
    decreases |s|
  {
    if |s| > 0 {
      var n := |s| - 1;
      FilterOfFilter(s[..n], p, q);
      Seqs.FilterAppend(Seqs.Filter(s[..n], p), if p(s[n]) then [s[n]] else [], q);
    }
  }

  /** `getTestCase`: the first loaded case with the id. */
  function GetTestCase(st: AssessmentStoreState, id: string): (r: Option<TestCase>)
    ensures r.None? <==> forall i :: 0 <= i < |st.testCases| ==> st.testCases[i].id != id
    ensures r.Some? ==> r.value in st.testCases && r.value.id == id
    ensures r.Some? ==> exists k :: 0 <= k < |st.testCases| && st.testCases[k] == r.value
                                    && forall j :: 0 <= j < k ==> st.testCases[j].id != id
  {
    Seqs.FindFirst(st.testCases, (tc: TestCase) => tc.id == id)
  }

  /** `getTestCasesByMechanism`: the loaded cases whose mechanism code is the string given. */
  function TestCasesByMechanism(st: AssessmentStoreState, mechanism: string): (r: seq<TestCase>)
    ensures forall tc :: tc in r <==> tc in st.testCases && MechanismName(tc.mechanism) == mechanism
    ensures Seqs.Selects(r, st.testCases, NamesMechanism(mechanism))
  {
    Seqs.FilterSelects(st.testCases, NamesMechanism(mechanism));
    Seqs.Filter(st.testCases, NamesMechanism(mechanism))
  }

  function NamesMechanism(mechanism: string): TestCase -> bool {
    (tc: TestCase) => MechanismName(tc.mechanism) == mechanism
  }
}

=== FILE: conceptual_assessment.dfy ===
/** The conceptual-assessment session (src/components/assessment/ConceptualAssessment.tsx):
    a two-phase state machine. In the assets phase the assessor builds a list
    of assets; in the assessment phase each asset in turn gets a verdict from
    the ACM-1 decision tree and a justification, and submitting on the last
    asset hands the collected results to `onComplete`. */
module ConceptualAssessment {
  import opened Wrappers
  import opened Text
  import Seqs
  import DecisionTree

  datatype Phase = AssetsPhase | AssessmentPhase

  datatype AssetType = Security | Network

  datatype Asset = Asset(id: string, name: string, assetType: AssetType, description: string)

  /** The asset entry form. */
  datatype AssetForm = AssetForm(id: string, name: string, assetType: AssetType, description: string)

  const BlankAssetForm: AssetForm := AssetForm("", "", Security, "")

  /** One committed `AssessmentResult`. */
  datatype AssetVerdict = AssetVerdict(
    assetId: string,
    assetName: string,
    decisionNode: string,
    verdict: DecisionTree.Verdict,
    justification: string,
    decisionPath: seq<string>)

  /** The per-asset draft (`currentAssessment`). */
  datatype Draft = Draft(
    decisionNode: string,
    verdict: Option<DecisionTree.Verdict>,
    justification: string,
    decisionPath: seq<string>)

  const BlankDraft: Draft := Draft("", None, "", [])

  /** The component state, including the embedded tree's click path. */
  datatype Session = Session(
    phase: Phase,
    assets: seq<Asset>,
    index: nat,
    results: seq<AssetVerdict>,
    assetForm: AssetForm,
    draft: Draft,
    selectedNode: string,
    treePath: seq<string>)

  const Initial: Session := Session(AssetsPhase, [], 0, [], BlankAssetForm, BlankDraft, "", [])

  /** The one invariant the handlers rely on: while assessing, the current
      index names an asset. */
  predicate Valid(s: Session) {
    s.phase == AssessmentPhase ==> s.index < |s.assets|
  }

  // ---------------------------------------------------------------------------
  // Handlers

  predicate CanAddAsset(f: AssetForm) {
    f.id != "" && f.name != ""
  }

  /** `handleAddAsset`: with a non-empty id and name, appends the asset (no
      uniqueness check) and clears the form back to a security asset;
      otherwise nothing changes. */
  function AddAsset(s: Session): (r: Session)
    ensures CanAddAsset(s.assetForm) ==>
              && |r.assets| == |s.assets| + 1
              && r.assets[..|s.assets|] == s.assets
              && r.assets[|s.assets|].id == s.assetForm.id
              && r.assets[|s.assets|].name == s.assetForm.name
              && r.assetForm == BlankAssetForm
              && r == s.(assets := r.assets, assetForm := BlankAssetForm)
    ensures !CanAddAsset(s.assetForm) ==> r == s
  {
    if CanAddAsset(s.assetForm) then
      var f := s.assetForm;
      var r := s.(assets := s.assets + [Asset(f.id, f.name, f.assetType, f.description)], assetForm := BlankAssetForm);
      assert r.assets[..|s.assets|] == s.assets;
      r
    else s
  }

  function OtherThan(id: string): Asset -> bool {
    (a: Asset) => a.id != id
  }

  /** `handleRemoveAsset`: drops every asset with the id, keeping the rest in order. */
  function RemoveAsset(s: Session, id: string): (r: Session)
    ensures forall a :: a in r.assets <==> a in s.assets && a.id != id
    ensures r == s.(assets := r.assets)
    ensures Seqs.Selects(r.assets, s.assets, OtherThan(id))
  {
    Seqs.FilterSelects(s.assets, OtherThan(id));
    s.(assets := Seqs.Filter(s.assets, OtherThan(id)))
  }

  /** Removing the id of an asset just added, when no earlier asset had that
      id, gives back the earlier list. */
  lemma RemoveUndoesAdd(s: Session)
    requires CanAddAsset(s.assetForm)
    requires forall a :: a in s.assets ==> a.id != s.assetForm.id
    ensures RemoveAsset(AddAsset(s), s.assetForm.id).assets == s.assets
  {
    var f := s.assetForm;
    var added := Asset(f.id, f.name, f.assetType, f.description);
    assert AddAsset(s).assets == s.assets + [added];
    Seqs.FilterAppend(s.assets, [added], OtherThan(f.id));
    Seqs.FilterAll(s.assets, OtherThan(f.id));
  }

  /** `handleStartAssessment`: with at least one asset, enters the assessment
      phase at the first asset; otherwise nothing changes. */
  function StartAssessment(s: Session): (r: Session)
    ensures |s.assets| > 0 ==> r.phase == AssessmentPhase && r.index == 0 && r.assets == s.assets && r.results == s.results
    ensures |s.assets| == 0 ==> r == s
  {
    if |s.assets| > 0 then s.(phase := AssessmentPhase, index := 0) else s
  }

  /** `handleDecisionNodeSelect`: records the reported node and verdict; a
      report without a verdict clears it. */
  function SelectNode(s: Session, nodeId: string, outcome: Option<DecisionTree.Verdict>): (r: Session)
    ensures r.draft.decisionNode == nodeId && r.draft.verdict == outcome && r.selectedNode == nodeId
    ensures r.draft.justification == s.draft.justification
    ensures r == s.(draft := r.draft, selectedNode := nodeId)
  {
    s.(selectedNode := nodeId, draft := s.draft.(decisionNode := nodeId, verdict := outcome))
  }

  /** Typing in the justification box. Submit becomes enabled exactly when
      a node and verdict are already chosen and the text is not all
      whitespace; nothing outside the draft's justification changes. */
  function SetJustification(s: Session, text: string): (r: Session)
    ensures r.draft.justification == text
    ensures SubmitEnabled(r.draft) <==> s.draft.decisionNode != "" && s.draft.verdict.Some? && !AllWhitespace(text)
    ensures DraftComplete(r.draft) <==> s.draft.decisionNode != "" && s.draft.verdict.Some? && text != ""
    ensures r.draft.decisionNode == s.draft.decisionNode && r.draft.verdict == s.draft.verdict
    ensures r.phase == s.phase && r.assets == s.assets && r.index == s.index && r.results == s.results
  {
    s.(draft := s.draft.(justification := text))
  }

  /** The guard inside `handleSubmitAssessment`. */
  predicate DraftComplete(d: Draft) {
    d.decisionNode != "" && d.verdict.Some? && d.justification != ""
  }

  /** The Submit button is enabled: as the guard, but the justification must
      be non-empty after trimming. */
  predicate SubmitEnabled(d: Draft) {
    d.decisionNode != "" && d.verdict.Some? && Trim(d.justification) != ""
  }

  /** The button is stricter than the handler: whitespace-only
      justifications pass the handler but not the button. */
  lemma SubmitEnabledImpliesComplete(d: Draft)
    ensures SubmitEnabled(d) ==> DraftComplete(d)
    ensures DraftComplete(d) && AllWhitespace(d.justification) ==> !SubmitEnabled(d)
  {
  }

  /** The committed record for the current asset. */
  function ResultFor(s: Session): (v: AssetVerdict)
    requires s.index < |s.assets| && DraftComplete(s.draft)
    ensures v.assetId == s.assets[s.index].id && v.assetName == s.assets[s.index].name
    ensures v.decisionNode == s.draft.decisionNode && Some(v.verdict) == s.draft.verdict
    ensures v.justification == s.draft.justification && v.decisionPath == [s.draft.decisionNode]
  {
    AssetVerdict(s.assets[s.index].id, s.assets[s.index].name, s.draft.decisionNode,
                 s.draft.verdict.value, s.draft.justification, [s.draft.decisionNode])
  }

  /** `handleSubmitAssessment`. With an incomplete draft nothing happens.
      Otherwise the result for the current asset is appended; before the
      last asset the index advances and the draft is cleared; on the last
      asset `onComplete` receives the results so far plus this one and the
      index stays. */
  function SubmitAssessment(s: Session): (r: (Session, Option<seq<AssetVerdict>>))
    requires Valid(s) && s.phase == AssessmentPhase
    ensures !DraftComplete(s.draft) ==> r == (s, None)
    ensures DraftComplete(s.draft) ==> r.0.results == s.results + [ResultFor(s)]
    ensures DraftComplete(s.draft) && s.index < |s.assets| - 1 ==>
              && r.1 == None
              && r.0 == s.(index := s.index + 1, results := r.0.results, draft := BlankDraft, selectedNode := "")
    ensures DraftComplete(s.draft) && s.index == |s.assets| - 1 ==>
              && r.1 == Some(r.0.results)
              && r.0 == s.(results := r.0.results)
    ensures Valid(r.0)
  {
    if !DraftComplete(s.draft) then (s, None)
    else
      var results := s.results + [ResultFor(s)];
      if s.index < |s.assets| - 1 then
        (s.(results := results, index := s.index + 1, draft := BlankDraft, selectedNode := ""), None)
      else
        (s.(results := results), Some(results))
  }

  /** "Back to Asset List" returns to the assets phase but discards nothing:
      the results, the index and the draft survive, so starting again
      resumes at the first asset with the earlier results still collected. */
  function Back(s: Session): (r: Session)
    ensures r.phase == AssetsPhase && Valid(r)
    ensures r.results == s.results && r.index == s.index && r.draft == s.draft
    ensures r.assets == s.assets && r.assetForm == s.assetForm
    ensures |s.assets| > 0 ==>
              var t := StartAssessment(r);
              t.phase == AssessmentPhase && t.index == 0 && t.results == s.results && t.draft == s.draft
  {
    s.(phase := AssetsPhase)
  }

  // ---------------------------------------------------------------------------
  // The session as a whole: each control exists only in one phase

  datatype Event =
    | EditAssetForm(form: AssetForm)
    | AddAssetClicked
    | RemoveAssetClicked(assetId: string)
    | StartClicked
    | TreeNodeClicked(nodeId: string)
    | TreeResetClicked
    | JustificationEdited(text: string)
    | SubmitClicked
    | BackClicked

  predicate AvailableIn(e: Event, p: Phase) {
    match e
    case EditAssetForm(_) => p == AssetsPhase
    case AddAssetClicked => p == AssetsPhase
    case RemoveAssetClicked(_) => p == AssetsPhase
    case StartClicked => p == AssetsPhase
    case _ => p == AssessmentPhase
  }

  /** A click on the embedded tree: the tree's own click rule, whose report
      goes to `handleDecisionNodeSelect`. */
  function TreeClick(s: Session, nodeId: string): (r: Session)
    ensures r.phase == s.phase && r.assets == s.assets && r.index == s.index && r.results == s.results
  {
    var c := DecisionTree.Click(s.treePath, nodeId, true);
    var s' := s.(treePath := c.path);
    match c.reported
    case None => s'
    case Some(sel) => SelectNode(s', sel.nodeId, sel.outcome)
  }

  /** The Submit button: present in the assessment phase and enabled only
      when `SubmitEnabled`. */
  function SubmitClick(s: Session): (r: (Session, Option<seq<AssetVerdict>>))
    requires Valid(s) && s.phase == AssessmentPhase
    ensures !SubmitEnabled(s.draft) ==> r == (s, None)
    ensures SubmitEnabled(s.draft) ==> r == SubmitAssessment(s)
    ensures Valid(r.0)
  {
    if SubmitEnabled(s.draft) then
      SubmitEnabledImpliesComplete(s.draft);
      SubmitAssessment(s)
    else (s, None)
  }

  /** One user action; the second component is what `onComplete` received, if anything. */
  function Step(s: Session, e: Event): (r: (Session, Option<seq<AssetVerdict>>))
    requires Valid(s)
    ensures Valid(r.0)
    ensures !AvailableIn(e, s.phase) ==> r == (s, None)
    ensures r.1.Some? ==> e == SubmitClicked && SubmitEnabled(s.draft)
  {
    if !AvailableIn(e, s.phase) then (s, None)
    else
      match e
      case EditAssetForm(f) => (s.(assetForm := f), None)
      case AddAssetClicked => (AddAsset(s), None)
      case RemoveAssetClicked(id) => (RemoveAsset(s, id), None)
      case StartClicked => (StartAssessment(s).(treePath := []), None)
      case TreeNodeClicked(id) => (TreeClick(s, id), None)
      case TreeResetClicked =>
        var c := DecisionTree.Reset(true);
        (SelectNode(s.(treePath := c.path), c.reported.value.nodeId, c.reported.value.outcome), None)
      case JustificationEdited(t) => (SetJustification(s, t), None)
      case SubmitClicked => SubmitClick(s)
      case BackClicked => (Back(s), None)
  }

  /** Clicking a decision node leaves the draft without a verdict, so the
      Submit button is disabled until an outcome node is clicked. */
  lemma DecisionClickBlocksSubmit(s: Session, k: nat)
    requires Valid(s) && s.phase == AssessmentPhase
    requires k < 9 && DecisionTree.IsDecisionIndex(k)
    ensures var r := Step(s, TreeNodeClicked(DecisionTree.TreeIds[k])).0;
            r.draft.decisionNode == DecisionTree.TreeIds[k] && r.draft.verdict.None? && !SubmitEnabled(r.draft)
  {
    DecisionTree.ClickDecision(s.treePath, k);
  }

  /** Clicking an outcome node records its parent decision node and its verdict. */
  lemma OutcomeClickRecordsVerdict(s: Session, k: nat)
    requires Valid(s) && s.phase == AssessmentPhase
    requires k < 9 && !DecisionTree.IsDecisionIndex(k)
    ensures var r := Step(s, TreeNodeClicked(DecisionTree.TreeIds[k])).0;
            && r.draft.decisionNode == DecisionTree.TreeIds[DecisionTree.ParentIndex(k)]
            && r.draft.verdict == DecisionTree.Acm1Tree[k].outcome
            && r.draft.verdict.Some?
  {
    DecisionTree.ClickOutcome(s.treePath, k);
    DecisionTree.ShapeAt(k);
  }

  // ---------------------------------------------------------------------------
  // Results line up with the assets until Back is used

  /** `results[i]` is the result for `assets[i]`. */
  predicate ResultsMatch(results: seq<AssetVerdict>, assets: seq<Asset>) {
    && |results| <= |assets|
    && forall i :: 0 <= i < |results| ==> results[i].assetId == assets[i].id && results[i].assetName == assets[i].name
  }

  /** Mid-assessment, one result per asset already passed. */
  predicate Aligned(s: Session) {
    s.phase == AssessmentPhase && s.index < |s.assets| && |s.results| == s.index && ResultsMatch(s.results, s.assets)
  }

  /** Starting on a fresh list is aligned. */
  lemma StartAligns(s: Session)
    requires |s.assets| > 0 && s.results == []
    ensures Aligned(StartAssessment(s))
  {
  }

  /** From an aligned state, Submit either keeps the alignment (advancing
      one asset) or completes with exactly one result per asset, in asset
      order. */
  lemma SubmitKeepsAlignment(s: Session)
    requires Aligned(s)
    ensures var (r, done) := SubmitAssessment(s);
            && (done.None? ==> Aligned(r))
            && (done.Some? ==> |done.value| == |s.assets| && ResultsMatch(done.value, s.assets))
  {
  }

  /** Editing the draft or clicking the tree keeps the alignment. */
  lemma DraftEventsKeepAlignment(s: Session, e: Event)
    requires Aligned(s)
    requires e.TreeNodeClicked? || e.TreeResetClicked? || e.JustificationEdited?
    ensures Aligned(Step(s, e).0)
  {
  }

  /** Back keeps the results, so after Back and a restart the assessor can
      complete with more results than assets: a one-asset list with a filled
      draft completes first with one result and, after Back, Start and
      Submit, again with two. */
  lemma BackThenRestartOvercounts(s: Session)
    requires s.phase == AssessmentPhase && |s.assets| == 1 && s.index == 0 && s.results == []
    requires SubmitEnabled(s.draft)
    ensures var (s1, first) := SubmitClick(s);
            var s2 := StartAssessment(Back(s1));
            var (s3, second) := SubmitClick(s2);
            && first.Some? && |first.value| == 1
            && second.Some? && |second.value| == 2 && |s3.assets| == 1
  {
  }
}

=== FILE: create_project_form.dfy ===
/** The project-creation dialog (src/components/project/CreateProjectModal.tsx):
    the assignee list editor, closing, and submitting. The form's text
    fields are held as a `CreateProjectRequest`; after a reset they are empty
    (the inputs show nothing), and the assignee list is []. */
module CreateProjectForm {
  import opened Wrappers
  import opened Types
  import opened Text
  import Seqs
  import PS = ProjectStore

  /** The form values, the assignee text box, and whether the dialog is open. */
  datatype Dialog = Dialog(form: CreateProjectRequest, assigneeInput: string, open: bool)

  /** The form's default values: `assignees: []` and nothing typed. */
  const BlankForm: CreateProjectRequest := CreateProjectRequest("", None, "", "", "", "", "", "", [])

  /** No assignee is blank, padded or listed twice. */
  predicate AssigneesClean(assignees: seq<string>) {
    && (forall i :: 0 <= i < |assignees| ==> assignees[i] != [] && Trim(assignees[i]) == assignees[i])
    && Seqs.Distinct(assignees)
  }

  // ---------------------------------------------------------------------------
  // Editing the assignee list

  function SetAssigneeInput(d: Dialog, text: string): (r: Dialog)
    ensures r.assigneeInput == text && r.form == d.form && r.open == d.open
  {
    d.(assigneeInput := text)
  }

  /** `addAssignee`: the trimmed input is appended, and the box cleared,
      exactly when it is non-empty and not yet listed; otherwise nothing
      changes. */
  function AddAssignee(d: Dialog): (r: Dialog)
    ensures var name := Trim(d.assigneeInput);
            (name != [] && name !in d.form.assignees) <==> r != d
    ensures var name := Trim(d.assigneeInput);
            r != d ==> r == d.(form := d.form.(assignees := d.form.assignees + [name]), assigneeInput := "")
  {
    var name := Trim(d.assigneeInput);
    if name != [] && name !in d.form.assignees then
      var r := d.(form := d.form.(assignees := d.form.assignees + [name]), assigneeInput := "");
      assert |r.form.assignees| != |d.form.assignees|;
      r
    else d
  }

  function OtherThan(name: string): string -> bool {
    (a: string) => a != name
  }

  /** `removeAssignee`: every occurrence of the name goes, the others stay in order. */
  function RemoveAssignee(d: Dialog, name: string): (r: Dialog)
    ensures r.assigneeInput == d.assigneeInput && r.open == d.open
    ensures r.form == d.form.(assignees := r.form.assignees)
    ensures forall a :: a in r.form.assignees <==> a in d.form.assignees && a != name
    ensures Seqs.Selects(r.form.assignees, d.form.assignees, OtherThan(name))
  {
    Seqs.FilterSelects(d.form.assignees, OtherThan(name));
    d.(form := d.form.(assignees := Seqs.Filter(d.form.assignees, OtherThan(name))))
  }

  /** Removing a name just added restores the list as it was. */
  lemma RemoveUndoesAdd(d: Dialog)
    requires AddAssignee(d) != d
    ensures RemoveAssignee(AddAssignee(d), Trim(d.assigneeInput)).form == d.form
  {
    var name := Trim(d.assigneeInput);
    var p := OtherThan(name);
    Seqs.FilterAppend(d.form.assignees, [name], p);
    Seqs.FilterAll(d.form.assignees, p);
  }

  /** Adding keeps the list clean. */
  lemma AddKeepsAssigneesClean(d: Dialog)
    requires AssigneesClean(d.form.assignees)
    ensures AssigneesClean(AddAssignee(d).form.assignees)
  {
    if AddAssignee(d) != d {
      var added := Trim(d.assigneeInput);
      TrimIdempotent(d.assigneeInput);
      Seqs.DistinctConcat(d.form.assignees, [added]);
      var r := AddAssignee(d).form.assignees;
      assert r == d.form.assignees + [added];
      forall i | 0 <= i < |r| ensures r[i] != [] && Trim(r[i]) == r[i] {
        if i < |d.form.assignees| {
          assert r[i] == d.form.assignees[i];
        }
      }
    }
  }

  /** Removing keeps the list clean. */
  lemma RemoveKeepsAssigneesClean(d: Dialog, name: string)
    requires AssigneesClean(d.form.assignees)
    ensures AssigneesClean(RemoveAssignee(d, name).form.assignees)
  {
    var kept := RemoveAssignee(d, name).form.assignees;
    Seqs.FilterDistinct(d.form.assignees, OtherThan(name));
    forall i | 0 <= i < |kept| ensures kept[i] != [] && Trim(kept[i]) == kept[i] {
      assert kept[i] in d.form.assignees;
    }
  }

  // ---------------------------------------------------------------------------
  // Closing and submitting

  /** `handleClose`: the form and the assignee box are reset and the dialog
      closes, whatever was typed before. */
  function HandleClose(d: Dialog): (r: Dialog)
    ensures !r.open && r.assigneeInput == [] && r.form == BlankForm
    ensures r.form.name == [] && r.form.description.None? && r.form.productName == []
            && r.form.manufacturer == [] && r.form.modelReference == [] && r.form.testStandard == []
            && r.form.testLaboratory == [] && r.form.reportReference == [] && r.form.assignees == []
    ensures AssigneesClean(r.form.assignees)
  {
    Dialog(BlankForm, "", false)
  }

  /** `onSubmit`: the form values go to `createProject`; then the dialog is
      closed and reset, and the new project's id is reported. */
  function OnSubmit(d: Dialog, st: PS.ProjectStoreState, newId: string, now: string)
    : (r: (Dialog, PS.ProjectStoreState, string))
    ensures r.0 == HandleClose(d)
    ensures |r.1.projects| == |st.projects| + 1 && r.1.projects[..|st.projects|] == st.projects
    ensures var p := r.1.projects[|st.projects|];
            && p.id == newId && r.2 == p.id
            && p.name == d.form.name && p.description == d.form.description
            && p.productName == d.form.productName && p.manufacturer == d.form.manufacturer
            && p.modelReference == d.form.modelReference && p.testStandard == d.form.testStandard
            && p.testLaboratory == d.form.testLaboratory && p.reportReference == d.form.reportReference
            && p.assignees == d.form.assignees
            && p.status == ProjectDraft && p.version == 1 && p.createdBy == PS.CurrentUser
            && p.createdAt == now && p.updatedAt == now
    ensures r.1.currentProject == st.currentProject
  {
    var (st', p) := PS.CreateProject(st, PS.ProjectData(d.form, None), newId, now);
    (HandleClose(d), st', p.id)
  }

  /** What the user can do in the dialog. */
  datatype Action = Type(text: string) | Add | Remove(name: string) | Close | Submit(newId: string, now: string)

  /** The dialog and the project store after a sequence of actions. */
  function Run(d: Dialog, st: PS.ProjectStoreState, actions: seq<Action>): (r: (Dialog, PS.ProjectStoreState))
    decreases |actions|
  {
    if |actions| == 0 then (d, st)
    else
      var (d', st') := Run(d, st, actions[..|actions| - 1]);
      match actions[|actions| - 1]
      case Type(text) => (SetAssigneeInput(d', text), st')
      case Add => (AddAssignee(d'), st')
      case Remove(name) => (RemoveAssignee(d', name), st')
      case Close => (HandleClose(d'), st')
      case Submit(newId, now) => var (d'', st'', _) := OnSubmit(d', st', newId, now); (d'', st'')
  }

  /** Starting from a fresh dialog, any sequence of edits, closes and
      submits leaves the assignee list clean. */
  lemma {:induction false} RunKeepsAssigneesClean(st: PS.ProjectStoreState, actions: seq<Action>)
    ensures AssigneesClean(Run(Dialog(BlankForm, "", true), st, actions).0.form.assignees)
    decreases |actions|
  {
    if |actions| > 0 {
      var n := |actions| - 1;
      RunKeepsAssigneesClean(st, actions[..n]);
      var d' := Run(Dialog(BlankForm, "", true), st, actions[..n]).0;
      match actions[n]
      case Type(_) =>
      case Add => AddKeepsAssigneesClean(d');
      case Remove(name) => RemoveKeepsAssigneesClean(d', name);
      case Close =>
      case Submit(_, _) =>
    }
  }
}

=== FILE: decision_tree.dfy ===
/** The ACM-1 decision tree of EN 18031-1 (src/components/assessment/DecisionTree.tsx):
    a static table of four yes/no decision nodes and five outcome nodes, the
    lookup by id, the click rule and the Reset Path button. Node positions
    and all drawing are left out. */
module DecisionTree {
  import opened Wrappers
  import Seqs

  /** `DecisionNode.outcome`: 'PASS' | 'FAIL' | 'NOT APPLICABLE'. */
  datatype Verdict = VerdictPass | VerdictFail | VerdictNotApplicable

  function VerdictText(v: Verdict): string {
    match v
    case VerdictPass => "PASS"
    case VerdictFail => "FAIL"
    case VerdictNotApplicable => "NOT APPLICABLE"
  }

  datatype NodeType = Decision | Outcome

  datatype DecisionNode = DecisionNode(
    id: string,
    nodeLabel: string,
    question: string,
    nodeType: NodeType,
    outcome: Option<Verdict>,
    yesPath: Option<string>,
    noPath: Option<string>)

  const DN1: string := "DT.ACM-1.DN-1"
  const DN2: string := "DT.ACM-1.DN-2"
  const DN3: string := "DT.ACM-1.DN-3"
  const DN4: string := "DT.ACM-1.DN-4"
  const NA1: string := "NOT_APPLICABLE_1"
  const NA2: string := "NOT_APPLICABLE_2"
  const NA3: string := "NOT_APPLICABLE_3"
  const PassId: string := "PASS"
  const FailId: string := "FAIL"

  function DecisionOf(id: string, question: string, yes: string, no: string): DecisionNode {
    DecisionNode(id, id, question, Decision, None, Some(yes), Some(no))
  }

  function OutcomeOf(id: string, nodeLabel: string, v: Verdict): DecisionNode {
    DecisionNode(id, nodeLabel, "", Outcome, Some(v), None, None)
  }

  /** `acm1DecisionTree`, in table order. */
  const Acm1Tree: seq<DecisionNode> := [
    DecisionOf(DN1, "Is the public accessibility of the asset the equipment's intended functionality?", DN2, NA1),
    OutcomeOf(NA1, "NOT APPLICABLE", VerdictNotApplicable),
    DecisionOf(DN2, "Do the physical or logical measures in the targeted operational environment limit the accessibility to authorized entities?", NA2, DN3),
    OutcomeOf(NA2, "NOT APPLICABLE", VerdictNotApplicable),
    DecisionOf(DN3, "Do legal implications not allow access control mechanisms?", NA3, DN4),
    OutcomeOf(NA3, "NOT APPLICABLE", VerdictNotApplicable),
    DecisionOf(DN4, "Are there access control mechanisms that manage entities' access to the security assets and network assets?", PassId, FailId),
    OutcomeOf(PassId, "PASS", VerdictPass),
    OutcomeOf(FailId, "FAIL", VerdictFail)
  ]

  /** The node ids of the table, in table order. */
  const TreeIds: seq<string> := [DN1, NA1, DN2, NA2, DN3, NA3, DN4, PassId, FailId]

  function HasId(id: string): DecisionNode -> bool {
    (n: DecisionNode) => n.id == id
  }

  /** `getNodeById`: the first node with the id, or `None` (`undefined`). */
  function GetNodeById(id: string): (r: Option<DecisionNode>)
    ensures r.None? <==> id !in TreeIds
    ensures r.Some? ==> r.value in Acm1Tree && r.value.id == id
  {
    TreeIdsMatch();
    Seqs.FindFirst(Acm1Tree, HasId(id))
  }

  lemma TreeIdsMatch()
    ensures |TreeIds| == |Acm1Tree| == 9
    ensures forall i :: 0 <= i < |Acm1Tree| ==> Acm1Tree[i].id == TreeIds[i]
  {
  }

  /** Length and last character: the nine ids differ in one or the other. */
  function Signature(s: string): (int, char) {
    if |s| == 0 then (0, ' ') else (|s|, s[|s| - 1])
  }

  lemma IdsDistinct()
    ensures Seqs.Distinct(TreeIds)
  {
    var sigs := [(13, '1'), (16, '1'), (13, '2'), (16, '2'), (13, '3'), (16, '3'), (13, '4'), (4, 'S'), (4, 'L')];
    assert Signature(DN1) == sigs[0];
    assert Signature(NA1) == sigs[1];
    assert Signature(DN2) == sigs[2];
    assert Signature(NA2) == sigs[3];
    assert Signature(DN3) == sigs[4];
    assert Signature(NA3) == sigs[5];
    assert Signature(DN4) == sigs[6];
    assert Signature(PassId) == sigs[7];
    assert Signature(FailId) == sigs[8];
    forall i, j | 0 <= i < j < |TreeIds| ensures TreeIds[i] != TreeIds[j] {
      assert sigs[i] != sigs[j];
    }
  }

  /** Looking up the id at position `k` finds the node at position `k`. */
  lemma LookupAt(k: nat)
    requires k < 9
    ensures GetNodeById(TreeIds[k]) == Some(Acm1Tree[k])
  {
    TreeIdsMatch();
    IdsDistinct();
    Seqs.FindFirstUnique(Acm1Tree, HasId(TreeIds[k]), k);
  }

  /** A decision node with an edge to `nodeId`. */
  predicate IsParentOf(d: DecisionNode, nodeId: string) {
    d.nodeType == Decision && (d.yesPath == Some(nodeId) || d.noPath == Some(nodeId))
  }

  function ParentTest(nodeId: string): DecisionNode -> bool {
    (d: DecisionNode) => IsParentOf(d, nodeId)
  }

  /** The positions of the decision nodes. */
  predicate IsDecisionIndex(k: nat) {
    k == 0 || k == 2 || k == 4 || k == 6
  }

  /** Position of the node a yes or no answer at decision position `k` leads to. */
  function NextIndex(k: nat, yes: bool): nat {
    if k == 0 then (if yes then 2 else 1)
    else if k == 2 then (if yes then 3 else 4)
    else if k == 4 then (if yes then 5 else 6)
    else (if yes then 7 else 8)
  }

  /** The edge a yes or no answer follows. */
  function Follow(n: DecisionNode, yes: bool): Option<string> {
    if yes then n.yesPath else n.noPath
  }

  lemma ShapeAt(k: nat)
    requires k < 9
    ensures Acm1Tree[k].nodeType == Decision <==> IsDecisionIndex(k)
    ensures IsDecisionIndex(k) ==>
              && Acm1Tree[k].outcome.None?
              && Follow(Acm1Tree[k], true) == Some(TreeIds[NextIndex(k, true)])
              && Follow(Acm1Tree[k], false) == Some(TreeIds[NextIndex(k, false)])
    ensures !IsDecisionIndex(k) ==> Acm1Tree[k].outcome.Some? && Acm1Tree[k].yesPath.None? && Acm1Tree[k].noPath.None?
  {
  }

  /** Well-formedness of the table: ids are unique; a decision node has no
      verdict and both its edges lead to nodes of the table; an outcome node
      has a verdict and no edges. */
  lemma TreeWellFormed()
    ensures Seqs.Distinct(TreeIds)
    ensures forall i :: 0 <= i < |Acm1Tree| && Acm1Tree[i].nodeType == Decision ==>
              && Acm1Tree[i].outcome.None?
              && Acm1Tree[i].yesPath.Some? && Acm1Tree[i].yesPath.value in TreeIds
              && Acm1Tree[i].noPath.Some? && Acm1Tree[i].noPath.value in TreeIds
    ensures forall i :: 0 <= i < |Acm1Tree| && Acm1Tree[i].nodeType == Outcome ==>
              Acm1Tree[i].outcome.Some? && Acm1Tree[i].yesPath.None? && Acm1Tree[i].noPath.None?
  {
    IdsDistinct();
    TreeIdsMatch();
    forall i | 0 <= i < |Acm1Tree|
      ensures Acm1Tree[i].nodeType == Decision ==>
                && Acm1Tree[i].outcome.None?
                && Acm1Tree[i].yesPath.Some? && Acm1Tree[i].yesPath.value in TreeIds
                && Acm1Tree[i].noPath.Some? && Acm1Tree[i].noPath.value in TreeIds
      ensures Acm1Tree[i].nodeType == Outcome ==>
                Acm1Tree[i].outcome.Some? && Acm1Tree[i].yesPath.None? && Acm1Tree[i].noPath.None?
    {
      ShapeAt(i);
      if IsDecisionIndex(i) {
        var y, n := NextIndex(i, true), NextIndex(i, false);
        assert y < 9 && n < 9;
        assert TreeIds[y] in TreeIds && TreeIds[n] in TreeIds;
      }
    }
  }

  /** Distance to an outcome node, by table position: 4 at DN-1 down to 1 at
      DN-4, 0 at every outcome. */
  const Ranks: seq<nat> := [4, 0, 3, 0, 2, 0, 1, 0, 0]

  /** Every edge lowers the rank, and the outcome nodes are exactly the nodes of rank 0. */
  lemma RankAt(k: nat)
    requires k < 9
    ensures Ranks[k] == 0 <==> !IsDecisionIndex(k)
    ensures IsDecisionIndex(k) ==> NextIndex(k, true) < 9 && Ranks[NextIndex(k, true)] < Ranks[k]
    ensures IsDecisionIndex(k) ==> NextIndex(k, false) < 9 && Ranks[NextIndex(k, false)] < Ranks[k]
  {
  }

  /** The table positions visited when answering `answers` from position `k`:
      the walk stops at an outcome node or when the answers run out. */
  function Walk(k: nat, answers: seq<bool>): (r: seq<nat>)
    requires k < 9
    ensures |r| >= 1 && r[0] == k
    ensures forall i :: 0 <= i < |r| ==> r[i] < 9
    decreases |answers|
  {
    if IsDecisionIndex(k) && |answers| > 0 then [k] + Walk(NextIndex(k, answers[0]), answers[1..]) else [k]
  }

  /** Step `i` of walk `t` follows the answered edge of the table: the node's
      `yesPath` or `noPath` is the id of the next node (which `LookupAt`
      shows `getNodeById` finds). */
  predicate StepFollowsEdge(t: seq<nat>, answers: seq<bool>, i: nat)
    requires i + 1 < |t| && forall j :: 0 <= j < |t| ==> t[j] < 9
  {
    && i < |answers|
    && Acm1Tree[t[i]].nodeType == Decision
    && Follow(Acm1Tree[t[i]], answers[i]) == Some(TreeIds[t[i + 1]])
  }

  lemma {:induction false} WalkFollowsEdges(k: nat, answers: seq<bool>)
    requires k < 9
    ensures forall i :: 0 <= i < |Walk(k, answers)| - 1 ==> StepFollowsEdge(Walk(k, answers), answers, i)
    decreases |answers|
  {
    if IsDecisionIndex(k) && |answers| > 0 {
      var k' := NextIndex(k, answers[0]);
      WalkFollowsEdges(k', answers[1..]);
      ShapeAt(k);
      var t := Walk(k, answers);
      var rest := Walk(k', answers[1..]);
      forall i | 0 <= i < |t| - 1 ensures StepFollowsEdge(t, answers, i) {
        if i == 0 {
          assert t[0] == k && t[1] == k';
        } else {
          assert StepFollowsEdge(rest, answers[1..], i - 1);
          assert t[i] == rest[i - 1] && t[i + 1] == rest[i] && answers[i] == answers[1..][i - 1];
        }
      }
    }
  }

  /** Shape of every walk: the rank falls strictly at each step, and the
      walk ends at an outcome node unless the answers ran out first. */
  lemma {:induction false} WalkDescends(k: nat, answers: seq<bool>)
    requires k < 9
    ensures var t := Walk(k, answers);
            && (forall i, j :: 0 <= i < j < |t| ==> Ranks[t[i]] > Ranks[t[j]])
            && (Ranks[t[|t| - 1]] == 0 || |t| == |answers| + 1)
    decreases |answers|
  {
    RankAt(k);
    if IsDecisionIndex(k) && |answers| > 0 {
      var k' := NextIndex(k, answers[0]);
      WalkDescends(k', answers[1..]);
      var rest := Walk(k', answers[1..]);
      var t := Walk(k, answers);
      forall i, j | 0 <= i < j < |t| ensures Ranks[t[i]] > Ranks[t[j]] {
        if i == 0 {
          assert t[j] == rest[j - 1];
          if j > 1 {
            assert Ranks[rest[0]] > Ranks[rest[j - 1]];
          }
        } else {
          assert t[i] == rest[i - 1] && t[j] == rest[j - 1];
        }
      }
    }
  }

  /** The `i`-th node of a walk is at least `i` ranks below its start. */
  lemma {:induction false} WalkBound(k: nat, answers: seq<bool>)
    requires k < 9
    ensures forall i :: 0 <= i < |Walk(k, answers)| ==> Ranks[Walk(k, answers)[i]] + i <= Ranks[k]
    decreases |answers|
  {
    RankAt(k);
    if IsDecisionIndex(k) && |answers| > 0 {
      var k' := NextIndex(k, answers[0]);
      WalkBound(k', answers[1..]);
      var rest := Walk(k', answers[1..]);
      var t := Walk(k, answers);
      forall i | 0 < i < |t| ensures Ranks[t[i]] + i <= Ranks[k] {
        assert t[i] == rest[i - 1];
      }
    }
  }

  /** From DN-1 every answer sequence reaches an outcome node after at most
      four decisions, and no node is visited twice. */
  lemma RootTerminates(answers: seq<bool>)
    requires |answers| >= 4
    ensures var t := Walk(0, answers);
            && |t| <= 5
            && Seqs.Distinct(t)
            && Seqs.Distinct(Seqs.Map(t, NodeIdAt))
            && Acm1Tree[t[|t| - 1]].nodeType == Outcome
  {
    WalkDescends(0, answers);
    WalkBound(0, answers);
    IdsDistinct();
    var t := Walk(0, answers);
    assert Ranks[t[|t| - 1]] == 0;
    RankAt(t[|t| - 1]);
    ShapeAt(t[|t| - 1]);
    var ids := Seqs.Map(t, NodeIdAt);
    forall i, j | 0 <= i < j < |ids| ensures ids[i] != ids[j] {
      assert t[i] != t[j];
    }
  }

  function NodeIdAt(k: nat): string {
    if k < 9 then TreeIds[k] else ""
  }

  /** DN-1 yes, DN-2 no, DN-3 no, DN-4 yes reaches PASS; DN-1 no reaches NOT APPLICABLE. */
  lemma Scenarios()
    ensures Walk(0, [true, false, false, true]) == [0, 2, 4, 6, 7]
    ensures Seqs.Map(Walk(0, [true, false, false, true]), NodeIdAt) == [DN1, DN2, DN3, DN4, PassId]
    ensures Acm1Tree[7].outcome == Some(VerdictPass)
    ensures Walk(0, [false]) == [0, 1]
    ensures Seqs.Map(Walk(0, [false]), NodeIdAt) == [DN1, NA1]
    ensures Acm1Tree[1].outcome == Some(VerdictNotApplicable)
  {
    var a := [true, false, false, true];
    assert a[1..] == [false, false, true] && a[1..][1..] == [false, true] && a[1..][1..][1..] == [true];
    assert [true][1..] == [];
    assert [false][1..] == [];
  }

  /** Position of the one decision node with an edge to the outcome at position `k`. */
  function ParentIndex(k: nat): nat {
    if k <= 1 then 0 else if k <= 3 then 2 else if k <= 5 then 4 else 6
  }

  /** Each outcome node has exactly one parent decision node. */
  lemma OutcomeParentUnique(k: nat)
    requires k < 9 && !IsDecisionIndex(k)
    ensures forall j :: 0 <= j < |Acm1Tree| ==> (IsParentOf(Acm1Tree[j], TreeIds[k]) <==> j == ParentIndex(k))
  {
    IdsDistinct();
    TreeIdsMatch();
    forall j | 0 <= j < |Acm1Tree| ensures IsParentOf(Acm1Tree[j], TreeIds[k]) <==> j == ParentIndex(k) {
      ShapeAt(j);
    }
  }

  /** What a click reports to `onNodeSelect`: a node id and an optional verdict. */
  datatype Selection = Selection(nodeId: string, outcome: Option<Verdict>)

  datatype ClickResult = ClickResult(path: seq<string>, reported: Option<Selection>)

  /** `handleNodeClick`. Nothing happens without a listener or for an unknown
      id. A decision node reports itself with no verdict; an outcome node
      reports the first decision node leading to it with the outcome's
      verdict. Whenever something is reported the clicked id is appended to
      the path. */
  function Click(path: seq<string>, nodeId: string, listening: bool): (r: ClickResult)
    ensures !listening || nodeId !in TreeIds ==> r == ClickResult(path, None)
    ensures r.reported.Some? <==> listening && nodeId in TreeIds
    ensures r.reported.Some? ==> r.path == path + [nodeId]
    ensures r.reported.None? ==> r.path == path
    ensures r.reported.Some? && GetNodeById(nodeId).value.nodeType == Decision ==>
              r.reported.value == Selection(nodeId, None)
    ensures r.reported.Some? && GetNodeById(nodeId).value.nodeType == Outcome ==>
              && r.reported.value.outcome == GetNodeById(nodeId).value.outcome
              && r.reported.value.outcome.Some?
              && exists j :: 0 <= j < |Acm1Tree| && IsParentOf(Acm1Tree[j], nodeId) && Acm1Tree[j].id == r.reported.value.nodeId
  {
    match GetNodeById(nodeId)
    case None => ClickResult(path, None)
    case Some(node) =>
      if !listening then ClickResult(path, None)
      else if node.nodeType == Outcome then
        ClickOutcomeHasParent(nodeId);
        var parent := Seqs.FindFirst(Acm1Tree, ParentTest(nodeId)).value;
        ghost var j :| 0 <= j < |Acm1Tree| && IsParentOf(Acm1Tree[j], nodeId) && Acm1Tree[j] == parent;
        ClickResult(path + [nodeId], Some(Selection(parent.id, node.outcome)))
      else
        ClickDecisionShape(nodeId);
        ClickResult(path + [nodeId], Some(Selection(nodeId, node.outcome)))
  }

  lemma ClickOutcomeHasParent(nodeId: string)
    requires GetNodeById(nodeId).Some? && GetNodeById(nodeId).value.nodeType == Outcome
    ensures GetNodeById(nodeId).value.outcome.Some?
    ensures Seqs.FindFirst(Acm1Tree, ParentTest(nodeId)).Some?
    ensures exists j :: 0 <= j < |Acm1Tree| && IsParentOf(Acm1Tree[j], nodeId)
                        && Acm1Tree[j] == Seqs.FindFirst(Acm1Tree, ParentTest(nodeId)).value
  {
    TreeIdsMatch();
    var k :| 0 <= k < |TreeIds| && TreeIds[k] == nodeId;
    LookupAt(k);
    ShapeAt(k);
    OutcomeParentUnique(k);
    assert ParentTest(nodeId)(Acm1Tree[ParentIndex(k)]);
  }

  lemma ClickDecisionShape(nodeId: string)
    requires GetNodeById(nodeId).Some? && GetNodeById(nodeId).value.nodeType == Decision
    ensures GetNodeById(nodeId).value.outcome.None?
  {
    TreeIdsMatch();
    var k :| 0 <= k < |TreeIds| && TreeIds[k] == nodeId;
    LookupAt(k);
    ShapeAt(k);
  }

  /** Clicking a decision node reports the node itself with no verdict. */
  lemma ClickDecision(path: seq<string>, k: nat)
    requires k < 9 && IsDecisionIndex(k)
    ensures Click(path, TreeIds[k], true) == ClickResult(path + [TreeIds[k]], Some(Selection(TreeIds[k], None)))
  {
    TreeIdsMatch();
    LookupAt(k);
    ShapeAt(k);
  }

  /** Clicking an outcome reports its unique parent and its verdict. */
  lemma ClickOutcome(path: seq<string>, k: nat)
    requires k < 9 && !IsDecisionIndex(k)
    ensures Click(path, TreeIds[k], true)
         == ClickResult(path + [TreeIds[k]], Some(Selection(TreeIds[ParentIndex(k)], Acm1Tree[k].outcome)))
  {
    TreeIdsMatch();
    LookupAt(k);
    ShapeAt(k);
    OutcomeParentUnique(k);
    var r := Click(path, TreeIds[k], true);
    var j :| 0 <= j < |Acm1Tree| && IsParentOf(Acm1Tree[j], TreeIds[k]) && Acm1Tree[j].id == r.reported.value.nodeId;
  }

  /** The Reset Path button: the path empties and, with a listener, `('', undefined)` is reported. */
  function Reset(listening: bool): (r: ClickResult)
    ensures r.path == []
    ensures r.reported.Some? <==> listening
    ensures r.reported.Some? ==> r.reported.value.nodeId == [] && r.reported.value.outcome.None?
  {
    ClickResult([], if listening then Some(Selection("", None)) else None)
  }
}

=== FILE: duplicate_detection.dfy ===
/** Content-hash duplicate detection for assessments
    (src/utils/duplicateDetection.ts).

    The content hash is `btoa(JSON.stringify(canonical))` with every character
    outside `[a-zA-Z0-9]` removed. The model keeps the canonical projection and
    the final stripping step exactly, and stands for `btoa(JSON.stringify(.))`
    with an arbitrary function `enc` of the canonical tuple: nothing proved here
    depends on which function it is. `btoa` throws on a code point above
    U+00FF, so hashing is partial and returns a `Result`. */
module DuplicateDetection {
  import opened Wrappers
  import opened Types
  import opened Text
  import Seqs

  /** The hashed fields of one test-step result. */
  datatype CanonicalStep = CanonicalStep(
    testStepId: string,
    result: AssessmentResult,
    actualResult: string,
    notes: string)

  /** The hashed fields of an assessment, in the order the hash serialises them. */
  datatype Canonical = Canonical(
    projectId: string,
    testCaseId: string,
    result: AssessmentResult,
    justification: string,
    comments: string,
    testPerformedOn: string,
    testExecutedBy: string,
    testStepResults: seq<CanonicalStep>,
    notes: string)

  function CanonicalStepOf(s: TestStepResult): CanonicalStep {
    CanonicalStep(s.testStepId, s.result, s.actualResult, s.notes.GetOr(""))
  }

  /** Projection of an assessment onto its substantive content; a missing
      comment or note is serialised as the empty string. */
  function CanonicalOf(a: Assessment): Canonical {
    Canonical(
      a.projectId, a.testCaseId, a.result, a.justification, a.comments.GetOr(""),
      a.testPerformedOn, a.testExecutedBy,
      Seqs.Map(a.testStepResults, CanonicalStepOf),
      a.notes.GetOr(""))
  }

  /** Two optional texts agree once absence is read as the empty string. */
  predicate SameText(x: Option<string>, y: Option<string>) {
    || x == y
    || (x == None && y == Some(""))
    || (x == Some("") && y == None)
  }

  predicate SameStepContent(s: TestStepResult, t: TestStepResult) {
    && s.testStepId == t.testStepId
    && s.result == t.result
    && s.actualResult == t.actualResult
    && SameText(s.notes, t.notes)
  }

  /** Field-by-field statement of which differences the hash must ignore. */
  predicate SameContent(a: Assessment, b: Assessment) {
    && a.projectId == b.projectId
    && a.testCaseId == b.testCaseId
    && a.result == b.result
    && a.justification == b.justification
    && SameText(a.comments, b.comments)
    && a.testPerformedOn == b.testPerformedOn
    && a.testExecutedBy == b.testExecutedBy
    && |a.testStepResults| == |b.testStepResults|
    && (forall i :: 0 <= i < |a.testStepResults| ==>
          SameStepContent(a.testStepResults[i], b.testStepResults[i]))
    && SameText(a.notes, b.notes)
  }

  lemma SameTextDefault(x: Option<string>, y: Option<string>)
    ensures SameText(x, y) <==> x.GetOr("") == y.GetOr("")
  {
  }

  /** Two assessments have the same canonical tuple exactly when they have the
      same content: ids, timestamps, version, status, evidence, reviewer and
      screenshots play no part. */
  lemma CanonicalIffSameContent(a: Assessment, b: Assessment)
    ensures CanonicalOf(a) == CanonicalOf(b) <==> SameContent(a, b)
  {
    var sa, sb := a.testStepResults, b.testStepResults;
    SameTextDefault(a.comments, b.comments);
    SameTextDefault(a.notes, b.notes);
    forall i | 0 <= i < |sa| && i < |sb|
      ensures CanonicalStepOf(sa[i]) == CanonicalStepOf(sb[i]) <==> SameStepContent(sa[i], sb[i])
    {
      SameTextDefault(sa[i].notes, sb[i].notes);
    }
    if CanonicalOf(a) == CanonicalOf(b) {
      var ca, cb := Seqs.Map(sa, CanonicalStepOf), Seqs.Map(sb, CanonicalStepOf);
      assert |ca| == |cb|;
      forall i | 0 <= i < |sa| ensures SameStepContent(sa[i], sb[i]) {
        assert ca[i] == cb[i];
      }
    }
    if SameContent(a, b) {
      assert Seqs.Map(sa, CanonicalStepOf) == Seqs.Map(sb, CanonicalStepOf);
    }
  }

  /** Changing only metadata leaves the canonical tuple unchanged. */
  lemma MetadataIgnored(a: Assessment, id: string, assessedAt: string, assessedBy: string,
                        version: int, status: AssessmentStatus, evidenceFiles: seq<string>,
                        reviewedBy: Option<string>, reviewedAt: Option<string>)
    ensures CanonicalOf(a.(id := id, assessedAt := assessedAt, assessedBy := assessedBy,
                           version := version, status := status, evidenceFiles := evidenceFiles,
                           reviewedBy := reviewedBy, reviewedAt := reviewedAt)) == CanonicalOf(a)
  {
  }

  /** Screenshots of a step are not part of its content. */
  lemma ScreenshotsIgnored(a: Assessment, i: nat, shots: seq<string>)
    requires i < |a.testStepResults|
    ensures CanonicalOf(a.(testStepResults := a.testStepResults[i := a.testStepResults[i].(screenshots := shots)]))
         == CanonicalOf(a)
  {
    CanonicalIffSameContent(a.(testStepResults := a.testStepResults[i := a.testStepResults[i].(screenshots := shots)]), a);
  }

  /** A missing comment or note (on the assessment or on a step) hashes like an empty one. */
  lemma MissingTextIsEmpty(a: Assessment, i: nat)
    requires i < |a.testStepResults|
    ensures CanonicalOf(a.(comments := None)) == CanonicalOf(a.(comments := Some("")))
    ensures CanonicalOf(a.(notes := None)) == CanonicalOf(a.(notes := Some("")))
    ensures CanonicalOf(a.(testStepResults := a.testStepResults[i := a.testStepResults[i].(notes := None)]))
         == CanonicalOf(a.(testStepResults := a.testStepResults[i := a.testStepResults[i].(notes := Some(""))]))
  {
    var s := a.testStepResults;
    CanonicalIffSameContent(a.(testStepResults := s[i := s[i].(notes := None)]),
                            a.(testStepResults := s[i := s[i].(notes := Some(""))]));
  }

  /** Changing the justification changes the canonical tuple. */
  lemma JustificationMatters(a: Assessment, j: string)
    requires j != a.justification
    ensures CanonicalOf(a.(justification := j)) != CanonicalOf(a)
  {
  }

  // ---------------------------------------------------------------------------
  // Hashing

  predicate StepIsLatin1(s: CanonicalStep) {
    IsLatin1(s.testStepId) && IsLatin1(s.actualResult) && IsLatin1(s.notes)
  }

  /** Every string of the canonical tuple is Latin-1. The keys, punctuation,
      result codes and JSON escapes are ASCII, so this is exactly when the
      serialised tuple is acceptable to `btoa`. */
  predicate CanonicalIsLatin1(c: Canonical) {
    && IsLatin1(c.projectId) && IsLatin1(c.testCaseId) && IsLatin1(c.justification)
    && IsLatin1(c.comments) && IsLatin1(c.testPerformedOn) && IsLatin1(c.testExecutedBy)
    && IsLatin1(c.notes)
    && forall i :: 0 <= i < |c.testStepResults| ==> StepIsLatin1(c.testStepResults[i])
  }

  predicate Hashable(a: Assessment) {
    CanonicalIsLatin1(CanonicalOf(a))
  }

  /** `btoa(JSON.stringify(.))` of a canonical tuple; left unspecified. */
  type Encoder = Canonical -> string

  /** `.replace(/[^a-zA-Z0-9]/g, '')`. */
  function StripNonAlnum(s: string): (r: string)
    ensures |r| <= |s|
    ensures forall i :: 0 <= i < |r| ==> IsAsciiAlnum(r[i])
    ensures forall c :: c in r <==> c in s && IsAsciiAlnum(c)
  {
    Seqs.Filter(s, IsAsciiAlnum)
  }

  function HashOf(a: Assessment, enc: Encoder): string
    requires Hashable(a)
  {
    StripNonAlnum(enc(CanonicalOf(a)))
  }

  datatype HashError = InvalidCharacterError

  /** `generateAssessmentContentHash`: fails exactly on a non-Latin-1 tuple;
      otherwise an alphanumeric string. */
  function ContentHash(a: Assessment, enc: Encoder): (r: Result<string, HashError>)
    ensures r.Failure? <==> !Hashable(a)
    ensures r.Success? ==> forall i :: 0 <= i < |r.value| ==> IsAsciiAlnum(r.value[i])
  {
    if Hashable(a) then Success(HashOf(a, enc)) else Failure(InvalidCharacterError)
  }

  /** Equal content gives equal hashes, whatever the encoder (the converse
      is not claimed: stripping discards information). */
  lemma SameContentSameHash(a: Assessment, b: Assessment, enc: Encoder)
    requires SameContent(a, b)
    ensures ContentHash(a, enc) == ContentHash(b, enc)
  {
    CanonicalIffSameContent(a, b);
  }

  /** A non-Latin-1 character anywhere in the justification makes hashing fail. */
  lemma WideCharacterFails(a: Assessment, enc: Encoder, k: nat)
    requires k < |a.justification| && a.justification[k] as int > 0xFF
    ensures ContentHash(a, enc) == Failure(InvalidCharacterError)
  {
  }

  /** `areAssessmentsContentIdentical`: hashes both (either may throw) and compares. */
  function ContentIdentical(a: Assessment, b: Assessment, enc: Encoder): (r: Result<bool, HashError>)
    ensures r.Failure? <==> !Hashable(a) || !Hashable(b)
    ensures r.Success? ==> (r.value <==> HashOf(a, enc) == HashOf(b, enc))
  {
    var ha :- ContentHash(a, enc);
    var hb :- ContentHash(b, enc);
    Success(ha == hb)
  }

  /** Content identity is reflexive, symmetric and transitive. */
  lemma ContentIdenticalIsEquivalence(a: Assessment, b: Assessment, c: Assessment, enc: Encoder)
    ensures Hashable(a) ==> ContentIdentical(a, a, enc) == Success(true)
    ensures ContentIdentical(a, b, enc) == ContentIdentical(b, a, enc)
    ensures ContentIdentical(a, b, enc) == Success(true) && ContentIdentical(b, c, enc) == Success(true)
            ==> ContentIdentical(a, c, enc) == Success(true)
  {
  }

  // ---------------------------------------------------------------------------
  // Partitioning a batch against existing records
  //
  // The two passes of `findDuplicateAssessments` are written against any
  // hashing function `hash` that may throw, so that their proofs never look
  // inside the content hash; `ContentHasher(enc)` is the one the application
  // passes, and the bridge lemmas below restate the results in its terms.

  datatype Duplicate = Duplicate(newAssessment: Assessment, existingAssessment: Assessment, contentHash: string)

  datatype DuplicateReport = DuplicateReport(duplicates: seq<Duplicate>, unique: seq<Assessment>)

  type Hasher = Assessment -> Result<string, HashError>

  function ContentHasher(enc: Encoder): Hasher {
    (a: Assessment) => ContentHash(a, enc)
  }

  /** `hash` returns (does not throw) on every element of `s`. */
  predicate AllOk(s: seq<Assessment>, hash: Hasher) {
    forall i :: 0 <= i < |s| ==> hash(s[i]).Success?
  }

  /** Index of the last element of `s` whose hash is `k`. */
  function LastWithKey(s: seq<Assessment>, k: string, hash: Hasher): (r: Option<nat>)
    requires AllOk(s, hash)
    ensures r.None? <==> forall i :: 0 <= i < |s| ==> hash(s[i]).value != k
    ensures r.Some? ==> r.value < |s| && hash(s[r.value]).value == k
    ensures r.Some? ==> forall j :: r.value < j < |s| ==> hash(s[j]).value != k
    decreases |s|
  {
    if |s| == 0 then None
    else if hash(s[|s| - 1]).value == k then Some(|s| - 1)
    else
      assert forall i :: 0 <= i < |s| - 1 ==> s[..|s| - 1][i] == s[i];
      LastWithKey(s[..|s| - 1], k, hash)
  }

  /** Adding a record changes only the entry for its own hash. */
  lemma LastWithKeySnoc(s: seq<Assessment>, hash: Hasher)
    requires AllOk(s, hash) && |s| > 0
    ensures AllOk(s[..|s| - 1], hash)
    ensures LastWithKey(s, hash(s[|s| - 1]).value, hash) == Some(|s| - 1)
    ensures forall k :: k != hash(s[|s| - 1]).value ==> LastWithKey(s, k, hash) == LastWithKey(s[..|s| - 1], k, hash)
  {
  }

  /** The `existingHashes` map: every hash of an existing record, bound to the
      last record with that hash (a later `set` overwrites an earlier one). */
  function HashIndex(existing: seq<Assessment>, hash: Hasher): (m: map<string, Assessment>)
    requires AllOk(existing, hash)
    ensures forall k :: k in m <==> LastWithKey(existing, k, hash).Some?
    ensures forall k :: k in m ==> m[k] == existing[LastWithKey(existing, k, hash).value]
    decreases |existing|
  {
    if |existing| == 0 then map[]
    else
      var n := |existing| - 1;
      LastWithKeySnoc(existing, hash);
      HashIndex(existing[..n], hash)[hash(existing[n]).value := existing[n]]
  }

  /** The first pass: index the existing records, throwing at the first one
      that cannot be hashed. */
  method BuildHashIndex(existing: seq<Assessment>, hash: Hasher) returns (r: Result<map<string, Assessment>, HashError>)
    ensures r.Failure? <==> !AllOk(existing, hash)
    ensures r.Success? ==> AllOk(existing, hash) && r.value == HashIndex(existing, hash)
  {
    var index: map<string, Assessment> := map[];
    var i := 0;
    while i < |existing|
      invariant 0 <= i <= |existing|
      invariant AllOk(existing[..i], hash)
      invariant index == HashIndex(existing[..i], hash)
    {
      var h := hash(existing[i]);
      if h.Failure? {
        return Failure(h.error);
      }
      assert existing[..i + 1][..i] == existing[..i];
      index := index[h.value := existing[i]];
      i := i + 1;
    }
    assert existing[..i] == existing;
    return Success(index);
  }

  /** The split of a batch into records whose hash is indexed and the rest,
      element by element. */
  function SplitBatch(s: seq<Assessment>, existing: seq<Assessment>, hash: Hasher): (seq<Assessment>, seq<Assessment>)
    requires AllOk(existing, hash) && AllOk(s, hash)
    decreases |s|
  {
    if |s| == 0 then ([], [])
    else
      var n := |s| - 1;
      assert AllOk(s[..n], hash);
      var (d, u) := SplitBatch(s[..n], existing, hash);
      if LastWithKey(existing, hash(s[n]).value, hash).Some? then (d + [s[n]], u) else (d, u + [s[n]])
  }

  lemma SplitBatchStep(s: seq<Assessment>, j: nat, existing: seq<Assessment>, hash: Hasher)
    requires AllOk(existing, hash) && j < |s| && AllOk(s[..j], hash) && hash(s[j]).Success?
    ensures AllOk(s[..j + 1], hash)
    ensures var (d, u) := SplitBatch(s[..j], existing, hash);
            SplitBatch(s[..j + 1], existing, hash)
            == if LastWithKey(existing, hash(s[j]).value, hash).Some? then (d + [s[j]], u) else (d, u + [s[j]])
  {
    assert s[..j + 1][..j] == s[..j];
    assert s[..j + 1] == s[..j] + [s[j]];
  }

  function NewOf(d: Duplicate): Assessment {
    d.newAssessment
  }

  lemma MapSnoc(ds: seq<Duplicate>, d: Duplicate)
    ensures Seqs.Map(ds + [d], NewOf) == Seqs.Map(ds, NewOf) + [d.newAssessment]
  {
  }

  /** A reported pair as the index builds it: the new record hashes to the
      reported hash and the existing one is the last existing record with it. */
  predicate PairedBy(d: Duplicate, existing: seq<Assessment>, hash: Hasher) {
    && AllOk(existing, hash)
    && hash(d.newAssessment) == Success(d.contentHash)
    && LastWithKey(existing, d.contentHash, hash).Some?
    && d.existingAssessment == existing[LastWithKey(existing, d.contentHash, hash).value]
  }

  /** The second pass, over the new batch. */
  method Partition(newAssessments: seq<Assessment>, existing: seq<Assessment>, index: map<string, Assessment>, hash: Hasher)
    returns (r: Result<DuplicateReport, HashError>)
    requires AllOk(existing, hash) && index == HashIndex(existing, hash)
    ensures r.Failure? <==> !AllOk(newAssessments, hash)
    ensures r.Success? ==> Seqs.Map(r.value.duplicates, NewOf) == SplitBatch(newAssessments, existing, hash).0
    ensures r.Success? ==> r.value.unique == SplitBatch(newAssessments, existing, hash).1
    ensures r.Success? ==> forall d :: d in r.value.duplicates ==> PairedBy(d, existing, hash)
  {
    var duplicates: seq<Duplicate> := [];
    var unique: seq<Assessment> := [];
    ghost var dupNew: seq<Assessment> := [];
    var j := 0;
    while j < |newAssessments|
      invariant 0 <= j <= |newAssessments|
      invariant AllOk(newAssessments[..j], hash)
      invariant dupNew == SplitBatch(newAssessments[..j], existing, hash).0
      invariant unique == SplitBatch(newAssessments[..j], existing, hash).1
      invariant Seqs.Map(duplicates, NewOf) == dupNew
      invariant forall d :: d in duplicates ==> PairedBy(d, existing, hash)
    {
      var a := newAssessments[j];
      var h := hash(a);
      if h.Failure? {
        return Failure(h.error);
      }
      SplitBatchStep(newAssessments, j, existing, hash);
      if h.value in index {
        var d := Duplicate(a, index[h.value], h.value);
        MapSnoc(duplicates, d);
        duplicates := duplicates + [d];
        dupNew := dupNew + [a];
      } else {
        unique := unique + [a];
      }
      j := j + 1;
    }
    assert newAssessments[..j] == newAssessments;
    return Success(DuplicateReport(duplicates, unique));
  }

  // The same results in terms of the content hash.

  predicate AllHashable(s: seq<Assessment>) {
    forall i :: 0 <= i < |s| ==> Hashable(s[i])
  }

  /** A new assessment counts as a duplicate when some existing record has its hash. */
  predicate IsDuplicate(a: Assessment, existing: seq<Assessment>, enc: Encoder) {
    && AllHashable(existing)
    && Hashable(a)
    && exists i :: 0 <= i < |existing| && HashOf(existing[i], enc) == HashOf(a, enc)
  }

  function DuplicateOf(existing: seq<Assessment>, enc: Encoder): Assessment -> bool {
    (a: Assessment) => IsDuplicate(a, existing, enc)
  }

  function UniqueOf(existing: seq<Assessment>, enc: Encoder): Assessment -> bool {
    (a: Assessment) => !IsDuplicate(a, existing, enc)
  }

  /** A reported pair is consistent: both records have the reported hash, and
      no existing record after the paired one has it (the last one wins). */
  predicate WellPaired(d: Duplicate, existing: seq<Assessment>, enc: Encoder) {
    && AllHashable(existing)
    && Hashable(d.newAssessment)
    && d.contentHash == HashOf(d.newAssessment, enc)
    && exists i :: 0 <= i < |existing| && existing[i] == d.existingAssessment
                   && HashOf(existing[i], enc) == d.contentHash
                   && forall j :: i < j < |existing| ==> HashOf(existing[j], enc) != d.contentHash
  }

  lemma AllOkIffAllHashable(s: seq<Assessment>, enc: Encoder)
    ensures AllOk(s, ContentHasher(enc)) <==> AllHashable(s)
  {
  }

  /** The index lookup decides exactly "is a duplicate". */
  lemma IndexedIffDuplicate(a: Assessment, existing: seq<Assessment>, enc: Encoder)
    requires AllHashable(existing) && Hashable(a)
    ensures LastWithKey(existing, HashOf(a, enc), ContentHasher(enc)).Some? <==> IsDuplicate(a, existing, enc)
  {
    var hash := ContentHasher(enc);
    if IsDuplicate(a, existing, enc) {
      var i :| 0 <= i < |existing| && HashOf(existing[i], enc) == HashOf(a, enc);
      assert hash(existing[i]).value == HashOf(a, enc);
    }
  }

  /** The split is the pair of filters by "is a duplicate" and "is not". */
  lemma {:induction false} SplitBatchIsFilter(s: seq<Assessment>, existing: seq<Assessment>, enc: Encoder)
    requires AllHashable(existing) && AllHashable(s)
    ensures AllOk(existing, ContentHasher(enc)) && AllOk(s, ContentHasher(enc))
    ensures SplitBatch(s, existing, ContentHasher(enc)).0 == Seqs.Filter(s, DuplicateOf(existing, enc))
    ensures SplitBatch(s, existing, ContentHasher(enc)).1 == Seqs.Filter(s, UniqueOf(existing, enc))
    decreases |s|
  {
    AllOkIffAllHashable(existing, enc);
    AllOkIffAllHashable(s, enc);
    if |s| > 0 {
      var n := |s| - 1;
      assert AllHashable(s[..n]);
      SplitBatchIsFilter(s[..n], existing, enc);
      IndexedIffDuplicate(s[n], existing, enc);
    }
  }

  lemma PairedByIsWellPaired(d: Duplicate, existing: seq<Assessment>, enc: Encoder)
    requires PairedBy(d, existing, ContentHasher(enc))
    ensures WellPaired(d, existing, enc)
  {
    var hash := ContentHasher(enc);
    AllOkIffAllHashable(existing, enc);
    var i := LastWithKey(existing, d.contentHash, hash).value;
    assert existing[i] == d.existingAssessment && HashOf(existing[i], enc) == d.contentHash;
  }

  /** `findDuplicateAssessments`: throws iff some record (existing or new)
      cannot be hashed; otherwise splits the new batch, in order, into the
      records whose hash some existing record shares and the rest, pairing
      each duplicate with the last existing record of its hash. */
  method FindDuplicateAssessments(newAssessments: seq<Assessment>, existing: seq<Assessment>, enc: Encoder)
    returns (r: Result<DuplicateReport, HashError>)
    ensures r.Failure? <==> !AllHashable(existing) || !AllHashable(newAssessments)
    ensures r.Success? ==> |r.value.duplicates| + |r.value.unique| == |newAssessments|
    ensures r.Success? ==> r.value.unique == Seqs.Filter(newAssessments, UniqueOf(existing, enc))
    ensures r.Success? ==> Seqs.Map(r.value.duplicates, NewOf) == Seqs.Filter(newAssessments, DuplicateOf(existing, enc))
    ensures r.Success? ==> forall d :: d in r.value.duplicates ==> WellPaired(d, existing, enc)
  {
    var hash := ContentHasher(enc);
    AllOkIffAllHashable(existing, enc);
    AllOkIffAllHashable(newAssessments, enc);
    var built := BuildHashIndex(existing, hash);
    if built.Failure? {
      return Failure(built.error);
    }
    r := Partition(newAssessments, existing, built.value, hash);
    if r.Success? {
      SplitBatchIsFilter(newAssessments, existing, enc);
      Seqs.FilterSplitLength(newAssessments, DuplicateOf(existing, enc), UniqueOf(existing, enc));
      forall d | d in r.value.duplicates ensures WellPaired(d, existing, enc) {
        PairedByIsWellPaired(d, existing, enc);
      }
    }
  }

  // ---------------------------------------------------------------------------
  // Summary text

  function ProjectOf(d: Duplicate): string {
    d.newAssessment.projectId
  }

  function InProject(projectId: string): Duplicate -> bool {
    (d: Duplicate) => d.newAssessment.projectId == projectId
  }

  /** The distinct elements of `ids`, in order of first appearance (the
      insertion order of the grouping object's keys). */
  function FirstAppearance(ids: seq<string>): (r: seq<string>)
    ensures Seqs.Distinct(r)
    ensures forall x :: x in r <==> x in ids
    decreases |ids|
  {
    if |ids| == 0 then []
    else
      var p := FirstAppearance(ids[..|ids| - 1]);
      var x := ids[|ids| - 1];
      assert ids == ids[..|ids| - 1] + [x];
      if x in p then p else p + [x]
  }

  /** A canonical array index (`"0"`, `"17"`, not `"017"`, at most 2^32 - 2):
      such property keys are enumerated before all others, in numeric order. */
  predicate IsArrayIndexKey(k: string) {
    && |k| >= 1
    && (forall i :: 0 <= i < |k| ==> IsDigit(k[i]))
    && (k == "0" || k[0] != '0')
    && ParseDigits(k) <= 4294967294
  }

  predicate IsOrdinaryKey(k: string) {
    !IsArrayIndexKey(k)
  }

  predicate AllIndexKeys(s: seq<string>) {
    forall i :: 0 <= i < |s| ==> IsArrayIndexKey(s[i])
  }

  function IndexValue(k: string): nat
    requires IsArrayIndexKey(k)
  {
    ParseDigits(k)
  }

  predicate Ascending(s: seq<string>)
    requires AllIndexKeys(s)
  {
    forall i, j :: 0 <= i < j < |s| ==> IndexValue(s[i]) <= IndexValue(s[j])
  }

  function InsertByIndex(k: string, s: seq<string>): (r: seq<string>)
    requires IsArrayIndexKey(k) && AllIndexKeys(s)
    ensures AllIndexKeys(r)
    ensures |r| == |s| + 1
    ensures forall x :: x in r <==> x == k || x in s
    decreases |s|
  {
    if |s| == 0 then [k]
    else if IndexValue(k) <= IndexValue(s[0]) then [k] + s
    else [s[0]] + InsertByIndex(k, s[1..])
  }

  lemma {:induction false} InsertKeepsOrder(k: string, s: seq<string>)
    requires IsArrayIndexKey(k) && AllIndexKeys(s)
    requires Ascending(s)
    ensures Ascending(InsertByIndex(k, s))
    decreases |s|
  {
    if |s| == 0 {
    } else if IndexValue(k) <= IndexValue(s[0]) {
      AscendingCons(k, s);
    } else {
      InsertKeepsOrder(k, s[1..]);
      var t := InsertByIndex(k, s[1..]);
      forall x | x in t ensures IsArrayIndexKey(x) && IndexValue(s[0]) <= IndexValue(x) {
        if x != k {
          var i :| 1 <= i < |s| && s[i] == x;
        }
      }
      AscendingCons(s[0], t);
    }
  }

  /** A key no larger than any element of an ascending list extends it at the front. */
  lemma AscendingCons(k: string, t: seq<string>)
    requires IsArrayIndexKey(k) && AllIndexKeys(t) && Ascending(t)
    requires forall x :: x in t ==> IsArrayIndexKey(x) && IndexValue(k) <= IndexValue(x)
    ensures AllIndexKeys([k] + t) && Ascending([k] + t)
  {
    var r := [k] + t;
    forall i, j | 0 <= i < j < |r| ensures IndexValue(r[i]) <= IndexValue(r[j]) {
      if i == 0 {
        assert r[j] == t[j - 1];
      } else {
        assert r[i] == t[i - 1] && r[j] == t[j - 1];
      }
    }
  }

  lemma {:induction false} InsertKeepsDistinct(k: string, s: seq<string>)
    requires IsArrayIndexKey(k) && AllIndexKeys(s)
    requires Seqs.Distinct(s) && k !in s
    ensures Seqs.Distinct(InsertByIndex(k, s))
    decreases |s|
  {
    if |s| > 0 && IndexValue(k) > IndexValue(s[0]) {
      assert Seqs.Distinct(s[1..]);
      InsertKeepsDistinct(k, s[1..]);
      var t := InsertByIndex(k, s[1..]);
      assert s[0] !in s[1..];
      assert s[0] !in t;
      var r := [s[0]] + t;
      forall i, j | 0 <= i < j < |r| ensures r[i] != r[j] {
        if i == 0 {
          assert r[j] in t;
        } else {
          assert r[i] == t[i - 1] && r[j] == t[j - 1];
        }
      }
    }
  }

  /** Insertion sort of array-index keys by numeric value. */
  function SortByIndex(s: seq<string>): (r: seq<string>)
    requires AllIndexKeys(s)
    ensures AllIndexKeys(r)
    ensures |r| == |s|
    ensures forall x :: x in r <==> x in s
    decreases |s|
  {
    if |s| == 0 then [] else InsertByIndex(s[0], SortByIndex(s[1..]))
  }

  lemma {:induction false} SortByIndexSorts(s: seq<string>)
    requires AllIndexKeys(s)
    ensures Ascending(SortByIndex(s))
    ensures Seqs.Distinct(s) ==> Seqs.Distinct(SortByIndex(s))
    decreases |s|
  {
    if |s| > 0 {
      SortByIndexSorts(s[1..]);
      InsertKeepsOrder(s[0], SortByIndex(s[1..]));
      if Seqs.Distinct(s) {
        assert Seqs.Distinct(s[1..]);
        assert s[0] !in s[1..];
        InsertKeepsDistinct(s[0], SortByIndex(s[1..]));
      }
    }
  }

  /** `Object.entries` order: array-index keys ascending, then the others in
      insertion order. */
  function PropertyOrder(keys: seq<string>): (r: seq<string>)
    ensures forall x :: x in r <==> x in keys
  {
    SortByIndex(Seqs.Filter(keys, IsArrayIndexKey)) + Seqs.Filter(keys, IsOrdinaryKey)
  }

  /** Keys come out distinct, array-index keys first and ascending. */
  lemma PropertyOrderShape(keys: seq<string>)
    requires Seqs.Distinct(keys)
    ensures Seqs.Distinct(PropertyOrder(keys))
    ensures var ix := Seqs.Filter(keys, IsArrayIndexKey);
            |ix| <= |PropertyOrder(keys)| && AllIndexKeys(PropertyOrder(keys)[..|ix|])
            && Ascending(PropertyOrder(keys)[..|ix|])
  {
    var ix := Seqs.Filter(keys, IsArrayIndexKey);
    var other := Seqs.Filter(keys, IsOrdinaryKey);
    Seqs.FilterDistinct(keys, IsArrayIndexKey);
    Seqs.FilterDistinct(keys, IsOrdinaryKey);
    SortByIndexSorts(ix);
    var sorted := SortByIndex(ix);
    assert (sorted + other)[..|ix|] == sorted;
    Seqs.DistinctConcat(sorted, other);
  }

  /** The project ids of the duplicates in the order the summary lists them. */
  function SummaryProjects(duplicates: seq<Duplicate>): (r: seq<string>)
    ensures forall p :: p in r <==> exists i :: 0 <= i < |duplicates| && duplicates[i].newAssessment.projectId == p
  {
    var ids := Seqs.Map(duplicates, ProjectOf);
    assert forall i :: 0 <= i < |duplicates| ==> ids[i] == duplicates[i].newAssessment.projectId;
    PropertyOrder(FirstAppearance(ids))
  }

  function CountIn(duplicates: seq<Duplicate>, projectId: string): nat {
    |Seqs.Filter(duplicates, InProject(projectId))|
  }

  function SumCounts(duplicates: seq<Duplicate>, projects: seq<string>): nat
    decreases |projects|
  {
    if |projects| == 0 then 0
    else SumCounts(duplicates, projects[..|projects| - 1]) + CountIn(duplicates, projects[|projects| - 1])
  }

  lemma {:induction false} SumCountsSnoc(duplicates: seq<Duplicate>, d: Duplicate, projects: seq<string>)
    requires Seqs.Distinct(projects)
    ensures SumCounts(duplicates + [d], projects)
         == SumCounts(duplicates, projects) + (if d.newAssessment.projectId in projects then 1 else 0)
    decreases |projects|
  {
    if |projects| > 0 {
      var n := |projects| - 1;
      var q := projects[n];
      assert Seqs.Distinct(projects[..n]);
      SumCountsSnoc(duplicates, d, projects[..n]);
      CountInSnoc(duplicates, d, q);
      assert projects == projects[..n] + [q];
      assert q !in projects[..n];
    }
  }

  /** One more duplicate adds one to its own project's count and nothing to the others. */
  lemma CountInSnoc(duplicates: seq<Duplicate>, d: Duplicate, projectId: string)
    ensures CountIn(duplicates + [d], projectId)
         == CountIn(duplicates, projectId) + (if d.newAssessment.projectId == projectId then 1 else 0)
  {
    Seqs.FilterAppend(duplicates, [d], InProject(projectId));
  }

  lemma {:induction false} SumCountsZero(projects: seq<string>)
    ensures SumCounts([], projects) == 0
    decreases |projects|
  {
    if |projects| > 0 {
      SumCountsZero(projects[..|projects| - 1]);
    }
  }

  /** Over a list of distinct projects that covers every duplicate, the
      per-project counts add up to the number of duplicates. */
  lemma {:induction false} SumCountsCovers(duplicates: seq<Duplicate>, projects: seq<string>)
    requires Seqs.Distinct(projects)
    requires forall i :: 0 <= i < |duplicates| ==> duplicates[i].newAssessment.projectId in projects
    ensures SumCounts(duplicates, projects) == |duplicates|
    decreases |duplicates|
  {
    if |duplicates| == 0 {
      SumCountsZero(projects);
    } else {
      var n := |duplicates| - 1;
      SumCountsCovers(duplicates[..n], projects);
      SumCountsSnoc(duplicates[..n], duplicates[n], projects);
      assert duplicates[..n] + [duplicates[n]] == duplicates;
    }
  }

  /** The summary's groups: each project with duplicates listed once, each
      with a positive count, the counts summing to the number of duplicates. */
  lemma SummaryGroupsPartition(duplicates: seq<Duplicate>)
    ensures Seqs.Distinct(SummaryProjects(duplicates))
    ensures SumCounts(duplicates, SummaryProjects(duplicates)) == |duplicates|
    ensures forall p :: p in SummaryProjects(duplicates) ==> CountIn(duplicates, p) > 0
  {
    var ps := SummaryProjects(duplicates);
    PropertyOrderShape(FirstAppearance(Seqs.Map(duplicates, ProjectOf)));
    SumCountsCovers(duplicates, ps);
    forall p | p in ps ensures CountIn(duplicates, p) > 0 {
      var i :| 0 <= i < |duplicates| && duplicates[i].newAssessment.projectId == p;
      assert InProject(p)(duplicates[i]);
      assert duplicates[i] in Seqs.Filter(duplicates, InProject(p));
    }
  }

  /** With ordinary (non-numeric) project ids the groups come in order of
      first appearance. */
  lemma SummaryOrderForOrdinaryIds(duplicates: seq<Duplicate>)
    requires forall i :: 0 <= i < |duplicates| ==> IsOrdinaryKey(duplicates[i].newAssessment.projectId)
    ensures SummaryProjects(duplicates) == FirstAppearance(Seqs.Map(duplicates, ProjectOf))
  {
    var ids := Seqs.Map(duplicates, ProjectOf);
    var keys := FirstAppearance(ids);
    forall i | 0 <= i < |keys| ensures IsOrdinaryKey(keys[i]) {
      assert keys[i] in ids;
    }
    Seqs.FilterNone(keys, IsArrayIndexKey);
    Seqs.FilterAll(keys, IsOrdinaryKey);
  }

  function SummaryLine(projectId: string, count: nat): string {
    "Project " + projectId + ": " + NatToString(count) + " duplicate(s)"
  }

  /** `lines.join('\n')`. */
  function JoinLines(lines: seq<string>): string
    decreases |lines|
  {
    if |lines| == 0 then ""
    else if |lines| == 1 then lines[0]
    else JoinLines(lines[..|lines| - 1]) + "\n" + lines[|lines| - 1]
  }

  /** Where line `i` starts in the joined text: after each earlier line and its newline. */
  function LineStart(lines: seq<string>, i: nat): nat
    requires i <= |lines|
  {
    if i == 0 then 0 else LineStart(lines, i - 1) + |lines[i - 1]| + 1
  }

  /** Line starts depend only on the lines before. */
  lemma {:induction false} LineStartPrefix(lines: seq<string>, more: seq<string>, i: nat)
    requires i <= |lines|
    ensures LineStart(lines + more, i) == LineStart(lines, i)
  {
    if i > 0 {
      LineStartPrefix(lines, more, i - 1);
      assert (lines + more)[i - 1] == lines[i - 1];
    }
  }

  predicate NewlineAt(s: string, k: int) {
    0 <= k < |s| && s[k] == '\n'
  }

  /** Joining one more line appends a newline and the line. */
  lemma JoinLinesSnoc(lines: seq<string>)
    requires |lines| > 1
    ensures var n := |lines| - 1;
            && JoinLines(lines) == JoinLines(lines[..n]) + "\n" + lines[n]
            && |JoinLines(lines[..n])| + 1 == LineStart(lines, n) - 1 + 1
            && LineStart(lines, n) == LineStart(lines[..n], n)
  {
    var n := |lines| - 1;
    JoinLinesLength(lines[..n]);
    assert lines[..n] + [lines[n]] == lines;
    LineStartPrefix(lines[..n], [lines[n]], n);
  }

  /** The joined text is as long as the lines and the newlines between them. */
  lemma {:induction false} JoinLinesLength(lines: seq<string>)
    requires |lines| > 0
    ensures |JoinLines(lines)| + 1 == LineStart(lines, |lines|)
    decreases |lines|
  {
    var n := |lines| - 1;
    if n > 0 {
      JoinLinesLength(lines[..n]);
      assert lines[..n] + [lines[n]] == lines;
      LineStartPrefix(lines[..n], [lines[n]], n);
    }
  }

  /** The joined text is the lines in order with one newline between
      neighbours: line `i` sits at its start, right after a newline unless it
      is the first. With JoinLinesLength this leaves no room for anything else. */
  lemma {:induction false} JoinLinesPlaces(lines: seq<string>, i: nat)
    requires i < |lines|
    ensures OccursAt(JoinLines(lines), lines[i], LineStart(lines, i))
    ensures i > 0 ==> NewlineAt(JoinLines(lines), LineStart(lines, i) - 1)
    decreases |lines|
  {
    var n := |lines| - 1;
    if n > 0 {
      var front := lines[..n];
      var j := JoinLines(front);
      JoinLinesSnoc(lines);
      var r := JoinLines(lines);
      if i < n {
        JoinLinesPlaces(front, i);
        LineStartPrefix(front, [lines[n]], i);
        assert lines[..n] + [lines[n]] == lines;
        var k := LineStart(front, i);
        assert r[k..k + |lines[i]|] == j[k..k + |lines[i]|];
      } else {
        assert r[|j| + 1..] == lines[n];
      }
    }
  }

  /** The per-project lines, one for each listed project, in list order. */
  function SummaryLines(duplicates: seq<Duplicate>, projects: seq<string>): (r: seq<string>)
    ensures |r| == |projects|
    ensures forall i :: 0 <= i < |projects| ==> r[i] == SummaryLine(projects[i], CountIn(duplicates, projects[i]))
  {
    seq(|projects|, i requires 0 <= i < |projects| => SummaryLine(projects[i], CountIn(duplicates, projects[i])))
  }

  const NoDuplicatesMessage: string := "No duplicates found."

  function SummaryHeader(total: nat): string {
    "Found " + NatToString(total) + " duplicate assessment(s):\n"
  }

  /** `createDuplicateSummary`: the fixed message exactly when there is
      nothing to report; otherwise the header with the total, followed by the
      joined per-project lines. */
  function CreateDuplicateSummary(duplicates: seq<Duplicate>): (r: string)
    ensures |duplicates| == 0 <==> r == NoDuplicatesMessage
    ensures |duplicates| > 0 ==> StartsWith(r, SummaryHeader(|duplicates|))
    ensures |duplicates| > 0 ==>
              var ps := SummaryProjects(duplicates);
              exists lines: seq<string> ::
                && r == SummaryHeader(|duplicates|) + JoinLines(lines)
                && |lines| == |ps|
                && forall i :: 0 <= i < |ps| ==> lines[i] == SummaryLine(ps[i], CountIn(duplicates, ps[i]))
  {
    if |duplicates| == 0 then NoDuplicatesMessage
    else
      var h := SummaryHeader(|duplicates|);
      var r := h + JoinLines(SummaryLines(duplicates, SummaryProjects(duplicates)));
      assert r[..|h|] == h;
      assert r != NoDuplicatesMessage by {
        assert r[0] == 'F';
      }
      r
  }

  /** Every project that has a duplicate gets its line, with its own count,
      somewhere in the summary. */
  lemma SummaryMentionsEveryProject(duplicates: seq<Duplicate>, k: nat)
    requires k < |duplicates|
    ensures var p := duplicates[k].newAssessment.projectId;
            exists at :: OccursAt(CreateDuplicateSummary(duplicates), SummaryLine(p, CountIn(duplicates, p)), at)
  {
    var p := duplicates[k].newAssessment.projectId;
    var ps := SummaryProjects(duplicates);
    assert p in ps;
    var i :| 0 <= i < |ps| && ps[i] == p;
    var lines := SummaryLines(duplicates, ps);
    JoinLinesPlaces(lines, i);
    var h := SummaryHeader(|duplicates|);
    var r := CreateDuplicateSummary(duplicates);
    assert r == h + JoinLines(lines);
    OccursAfterPrefix(r, h, JoinLines(lines), lines[i], LineStart(lines, i));
  }
}

=== FILE: edit_assessment_form.dfy ===
/** The assessment edit dialog (src/components/assessment/EditAssessmentModal.tsx):
    seeding the form from an assessment, the save guard, and closing. The
    form is a partial update request; a field never touched is `None`. The
    `onSave` callback is a parameter: the dialog only decides what it hands
    over and whether the call resolved. */
module EditAssessmentForm {
  import opened Wrappers
  import opened Types
  import AS = AssessmentStore

  datatype Modal = Modal(form: UpdateAssessmentRequest, submitting: bool, open: bool)

  /** `{}`: nothing filled in. */
  const EmptyForm: UpdateAssessmentRequest := UpdateAssessmentRequest(None, None, None, None, None, None, None, None)

  /** The result choices the select offers besides its empty placeholder. */
  const ResultOptions: seq<AssessmentResult> := [Pass, Fail, Na]

  /** The select offers every result, once each, and nothing else. */
  lemma ResultOptionsComplete()
    ensures ResultOptions == AllResults
    ensures forall r: AssessmentResult :: r in ResultOptions
  {
    EnumerationsComplete();
  }

  /** Opening on an assessment copies exactly its result, justification,
      comments, test object and tester; nothing else is in the form. */
  function Seed(m: Modal, a: Assessment): (r: Modal)
    ensures r.form.result == Some(a.result) && r.form.justification == Some(a.justification)
    ensures r.form.comments == a.comments
    ensures r.form.testPerformedOn == Some(a.testPerformedOn) && r.form.testExecutedBy == Some(a.testExecutedBy)
    ensures r.form.testCaseId.None? && r.form.testStepResults.None? && r.form.status.None?
    ensures r.submitting == m.submitting && r.open == m.open
  {
    m.(form := UpdateAssessmentRequest(None, Some(a.result), Some(a.justification), a.comments,
                                       Some(a.testPerformedOn), Some(a.testExecutedBy), None, None))
  }

  /** The fields the dialog lets the user change. */
  datatype Edit =
    | ChooseResult(result: Option<AssessmentResult>)
    | TypeJustification(text: string)
    | TypeComments(text: string)
    | TypePerformedOn(text: string)
    | TypeExecutedBy(text: string)

  /** Choosing the placeholder clears the result. */
  function ApplyEdit(m: Modal, e: Edit): (r: Modal)
    ensures r.submitting == m.submitting && r.open == m.open
    ensures r.form.testCaseId == m.form.testCaseId && r.form.testStepResults == m.form.testStepResults
    ensures r.form.status == m.form.status
  {
    match e
    case ChooseResult(result) => m.(form := m.form.(result := result))
    case TypeJustification(text) => m.(form := m.form.(justification := Some(text)))
    case TypeComments(text) => m.(form := m.form.(comments := Some(text)))
    case TypePerformedOn(text) => m.(form := m.form.(testPerformedOn := Some(text)))
    case TypeExecutedBy(text) => m.(form := m.form.(testExecutedBy := Some(text)))
  }

  /** The guard of `handleSubmit`: a result is chosen and the justification
      is not empty. It does not trim, so a justification of blanks passes. */
  predicate Filled(form: UpdateAssessmentRequest) {
    form.result.Some? && form.justification.Some? && form.justification.value != ""
  }

  /** The Save button is disabled when the form is not filled in or a save is running. */
  function SaveDisabled(m: Modal): (r: bool)
    ensures !r <==> Filled(m.form) && !m.submitting
  {
    m.form.result.None? || m.form.justification.GetOr("") == "" || m.submitting
  }

  /** `handleSubmit`: with no assessment, or an unfilled form, nothing is
      sent. Otherwise `onSave(assessment.id, form)` is called; the dialog
      closes when it resolves (`saved`) and stays open when it throws, and
      the submitting flag is down again either way. The form is kept. */
  function HandleSubmit(m: Modal, assessment: Option<Assessment>, saved: bool)
    : (r: (Modal, Option<(string, UpdateAssessmentRequest)>))
    ensures r.1.Some? <==> assessment.Some? && Filled(m.form)
    ensures r.1.None? ==> r.0 == m
    ensures r.1.Some? ==> r.1.value == (assessment.value.id, m.form)
                          && r.0 == Modal(m.form, false, m.open && !saved)
  {
    if assessment.None? || !Filled(m.form) then (m, None)
    else (Modal(m.form, false, m.open && !saved), Some((assessment.value.id, m.form)))
  }

  /** `handleClose`: the form is emptied and the dialog closes. */
  function HandleClose(m: Modal): (r: Modal)
    ensures r.form == EmptyForm && !r.open && r.submitting == m.submitting
  {
    m.(form := EmptyForm, open := false)
  }

  /** The form as it stands after seeding and a run of edits. */
  function EditAll(m: Modal, edits: seq<Edit>): (r: Modal)
    ensures r.form.status == m.form.status && r.form.testCaseId == m.form.testCaseId
    ensures r.form.testStepResults == m.form.testStepResults
    decreases |edits|
  {
    if |edits| == 0 then m else ApplyEdit(EditAll(m, edits[..|edits| - 1]), edits[|edits| - 1])
  }

  /** A seeded form can be saved straight away when the assessment's own
      justification is not empty. */
  lemma SeededFormIsFilled(m: Modal, a: Assessment)
    ensures Filled(Seed(m, a).form) <==> a.justification != ""
  {
  }

  /** Saving through the assessment store never changes the status, the
      test case or the step results: the form cannot carry them. */
  lemma SaveKeepsStatus(st: AS.AssessmentStoreState, m: Modal, a: Assessment, edits: seq<Edit>)
    requires AS.UpdateAssessment(st, a.id, EditAll(Seed(m, a), edits).form).Success?
    ensures var (_, updated) := AS.UpdateAssessment(st, a.id, EditAll(Seed(m, a), edits).form).value;
            var prior := AS.GetAssessment(st, a.id).value;
            updated.status == prior.status && updated.testCaseId == prior.testCaseId
            && updated.testStepResults == prior.testStepResults && updated.version == prior.version + 1
  {
  }
}

=== FILE: evidence_store.dfy ===
/** The evidence store (src/stores/evidenceStore.ts): the MIME-type
    classifier and the operations on the stored file list. Uploading
    (reading the file, hashing it, simulated progress) is not modelled. */
module EvidenceStore {
  import opened Wrappers
  import opened Text
  import opened Types
  import Seqs

  const NotFound: string := "File not found"

  predicate IsDocumentType(mimeType: string) {
    Contains(mimeType, "pdf") || Contains(mimeType, "document") || Contains(mimeType, "word")
  }

  predicate IsLogType(mimeType: string) {
    Contains(mimeType, "text/") || Contains(mimeType, "log")
  }

  predicate IsDataType(mimeType: string) {
    Contains(mimeType, "json") || Contains(mimeType, "xml") || Contains(mimeType, "csv")
  }

  /** `getFileType`: the first matching rule in the order image, video,
      document, log, data decides; a type no rule matches is 'other'. */
  function GetFileType(mimeType: string): (t: FileType)
    ensures t == Image <==> StartsWith(mimeType, "image/")
    ensures t == Video <==> !StartsWith(mimeType, "image/") && StartsWith(mimeType, "video/")
    ensures t == Document <==>
              !StartsWith(mimeType, "image/") && !StartsWith(mimeType, "video/") && IsDocumentType(mimeType)
    ensures t == Log <==>
              !StartsWith(mimeType, "image/") && !StartsWith(mimeType, "video/") && !IsDocumentType(mimeType)
              && IsLogType(mimeType)
    ensures t == Data <==>
              !StartsWith(mimeType, "image/") && !StartsWith(mimeType, "video/") && !IsDocumentType(mimeType)
              && !IsLogType(mimeType) && IsDataType(mimeType)
    ensures t == Other <==>
              !StartsWith(mimeType, "image/") && !StartsWith(mimeType, "video/") && !IsDocumentType(mimeType)
              && !IsLogType(mimeType) && !IsDataType(mimeType)
    ensures t != Video && t != Image ==> !StartsWith(mimeType, "image/") && !StartsWith(mimeType, "video/")
  {
    if StartsWith(mimeType, "image/") then Image
    else if StartsWith(mimeType, "video/") then Video
    else if IsDocumentType(mimeType) then Document
    else if IsLogType(mimeType) then Log
    else if IsDataType(mimeType) then Data
    else Other
  }

  /** A `text/` type is a log unless it names a document format, even when
      it also names a data format. */
  lemma TextTypesAreLogs(mimeType: string)
    requires StartsWith(mimeType, "text/") && !IsDocumentType(mimeType)
    ensures GetFileType(mimeType) == Log
  {
    assert OccursAt(mimeType, "text/", 0);
    assert mimeType[0] == 't';
  }

  /** So a CSV file is classified as a log, not as data. */
  lemma CsvIsLog()
    ensures IsDataType("text/csv") && GetFileType("text/csv") == Log
  {
    assert OccursAt("text/csv", "csv", 5);
    MissingCharNotContained("text/csv", "pdf", 0);
    MissingCharNotContained("text/csv", "document", 0);
    MissingCharNotContained("text/csv", "word", 0);
    TextTypesAreLogs("text/csv");
  }

  // ---------------------------------------------------------------------------
  // The file list

  datatype EvidenceStoreState = EvidenceStoreState(files: seq<EvidenceFile>)

  function HasId(id: string): EvidenceFile -> bool {
    (f: EvidenceFile) => f.id == id
  }

  function OtherId(id: string): EvidenceFile -> bool {
    (f: EvidenceFile) => f.id != id
  }

  /** `getFile`: the first file with the id. */
  function GetFile(st: EvidenceStoreState, id: string): (r: Option<EvidenceFile>)
    ensures r.None? <==> forall i :: 0 <= i < |st.files| ==> st.files[i].id != id
    ensures r.Some? ==> r.value in st.files && r.value.id == id
    ensures r.Some? ==> exists k :: 0 <= k < |st.files| && st.files[k] == r.value
                                    && forall j :: 0 <= j < k ==> st.files[j].id != id
  {
    Seqs.FindFirst(st.files, HasId(id))
  }

  /** `deleteFile`: every file with the id goes, the rest stay in order. */
  function DeleteFile(st: EvidenceStoreState, id: string): (r: EvidenceStoreState)
    ensures forall f :: f in r.files <==> f in st.files && f.id != id
    ensures GetFile(r, id).None?
    ensures Seqs.Selects(r.files, st.files, OtherId(id))
  {
    Seqs.FilterSelects(st.files, OtherId(id));
    EvidenceStoreState(Seqs.Filter(st.files, OtherId(id)))
  }

  /** Deleting keeps the relative order of the other files: it is the same
      as deleting from each half of the list. */
  lemma DeleteFileSplits(a: seq<EvidenceFile>, b: seq<EvidenceFile>, id: string)
    ensures DeleteFile(EvidenceStoreState(a + b), id).files
         == DeleteFile(EvidenceStoreState(a), id).files + DeleteFile(EvidenceStoreState(b), id).files
  {
    Seqs.FilterAppend(a, b, OtherId(id));
  }

  /** `Partial<Pick<EvidenceFile, 'description' | 'tags'>>`. */
  datatype FileUpdate = FileUpdate(description: Option<string>, tags: Option<seq<string>>)

  function Merge(f: EvidenceFile, u: FileUpdate): EvidenceFile {
    f.(description := if u.description.Some? then u.description else f.description,
       tags := u.tags.GetOr(f.tags))
  }

  /** `updateFile`. An unknown id fails with "File not found". Otherwise the
      first file with the id, with the given description and tags, replaces
      every file with that id in place; only description and tags can change. */
  function UpdateFile(st: EvidenceStoreState, id: string, u: FileUpdate): (r: Result<(EvidenceStoreState, EvidenceFile), string>)
    ensures r.Failure? <==> forall i :: 0 <= i < |st.files| ==> st.files[i].id != id
    ensures r.Failure? ==> r.error == NotFound
    ensures r.Success? ==>
              var (st', updated) := r.value;
              var prior := GetFile(st, id).value;
              && updated == prior.(description := updated.description, tags := updated.tags)
              && (u.description.Some? ==> updated.description == u.description)
              && (u.description.None? ==> updated.description == prior.description)
              && Patched(u.tags, prior.tags, updated.tags)
              && |st'.files| == |st.files|
              && forall i :: 0 <= i < |st.files| ==>
                   st'.files[i] == if st.files[i].id == id then updated else st.files[i]
  {
    match GetFile(st, id)
    case None => Failure(NotFound)
    case Some(existing) =>
      var updated := Merge(existing, u);
      Success((EvidenceStoreState(Seqs.ReplaceWhere(st.files, HasId(id), updated)), updated))
  }

  /** An empty update rewrites the matching files with the first of them,
      so with distinct ids it changes nothing. */
  lemma EmptyUpdateChangesNothing(st: EvidenceStoreState, id: string)
    requires forall i, j :: 0 <= i < j < |st.files| ==> st.files[i].id != st.files[j].id
    requires UpdateFile(st, id, FileUpdate(None, None)).Success?
    ensures UpdateFile(st, id, FileUpdate(None, None)).value.0 == st
  {
    var st' := UpdateFile(st, id, FileUpdate(None, None)).value.0;
    var prior := GetFile(st, id).value;
    var k :| 0 <= k < |st.files| && st.files[k] == prior;
    forall i | 0 <= i < |st.files| ensures st'.files[i] == st.files[i] {
      if st.files[i].id == id {
        assert i == k;
      }
    }
  }

  /** `getFilesByAssessment`: the assessment's files, in stored order. */
  function FilesByAssessment(st: EvidenceStoreState, assessmentId: string): (r: seq<EvidenceFile>)
    ensures forall f :: f in r <==> f in st.files && f.assessmentId == assessmentId
    ensures Seqs.Selects(r, st.files, OfAssessment(assessmentId))
  {
    Seqs.FilterSelects(st.files, OfAssessment(assessmentId));
    Seqs.Filter(st.files, OfAssessment(assessmentId))
  }

  function OfAssessment(assessmentId: string): EvidenceFile -> bool {
    (f: EvidenceFile) => f.assessmentId == assessmentId
  }

  function OfType(t: FileType): EvidenceFile -> bool {
    (f: EvidenceFile) => f.fileType == t
  }

  /** `getFilesByType`: the files of the type, in stored order. */
  function FilesByType(st: EvidenceStoreState, t: FileType): (r: seq<EvidenceFile>)
    ensures forall f :: f in r <==> f in st.files && f.fileType == t
    ensures Seqs.Selects(r, st.files, OfType(t))
  {
    Seqs.FilterSelects(st.files, OfType(t));
    Seqs.Filter(st.files, OfType(t))
  }

  /** Every file is listed under exactly one type, so the six lists
      together are as long as the file list. */
  lemma {:induction false} TypesPartitionFiles(s: seq<EvidenceFile>)
    ensures |Seqs.Filter(s, OfType(Image))| + |Seqs.Filter(s, OfType(Log))| + |Seqs.Filter(s, OfType(Document))|
          + |Seqs.Filter(s, OfType(Data))| + |Seqs.Filter(s, OfType(Video))| + |Seqs.Filter(s, OfType(Other))| == |s|
    decreases |s|
  {
    if |s| > 0 {
      TypesPartitionFiles(s[..|s| - 1]);
    }
  }

  function TagMatches(lowerQuery: string): string -> bool {
    (tag: string) => Contains(ToLower(tag), lowerQuery)
  }

  /** The fields `searchFiles` looks in, for an already lower-cased query:
      the file name, the description if any, and each tag. */
  predicate Matches(f: EvidenceFile, lowerQuery: string) {
    || Contains(ToLower(f.fileName), lowerQuery)
    || (f.description.Some? && Contains(ToLower(f.description.value), lowerQuery))
    || exists i :: 0 <= i < |f.tags| && Contains(ToLower(f.tags[i]), lowerQuery)
  }

  function MatchesQuery(lowerQuery: string): EvidenceFile -> bool {
    (f: EvidenceFile) => Matches(f, lowerQuery)
  }

  /** `searchFiles`: the files matching the lower-cased query, in stored order. */
  function SearchFiles(st: EvidenceStoreState, query: string): (r: seq<EvidenceFile>)
    ensures forall f :: f in r <==> f in st.files && Matches(f, ToLower(query))
    ensures Seqs.Selects(r, st.files, MatchesQuery(ToLower(query)))
  {
    Seqs.FilterSelects(st.files, MatchesQuery(ToLower(query)));
    Seqs.Filter(st.files, MatchesQuery(ToLower(query)))
  }

  /** A file is found by any query contained in one of its tags, whatever
      the case of either. */
  lemma TagFindsFile(st: EvidenceStoreState, k: nat, t: nat, query: string)
    requires k < |st.files| && t < |st.files[k].tags|
    requires Contains(ToLower(st.files[k].tags[t]), ToLower(query))
    ensures st.files[k] in SearchFiles(st, query)
  {
  }

  /** The search ignores the case of the query. */
  lemma SearchIgnoresQueryCase(st: EvidenceStoreState, query: string)
    ensures SearchFiles(st, ToLower(query)) == SearchFiles(st, query)
  {
    ToLowerIdempotent(query);
  }
}

=== FILE: export_utils.dfy ===
/** The export and import helpers (src/utils/exportUtils.ts): what goes
    into an export envelope, how an imported object is validated, the
    report's counts and the download file names. Serialisation, the file
    download itself and the report's Markdown text are not modelled. */
module ExportUtils {
  import opened Wrappers
  import opened Text
  import opened Types
  import Seqs

  const ExportVersion: string := "1.0.0"

  /** The envelope `exportProjectData` writes. */
  datatype ExportData = ExportData(
    projects: seq<Project>,
    assessments: seq<Assessment>,
    evidenceFiles: seq<EvidenceFile>,
    exportedAt: string,
    version: string)

  /** The envelope `exportSingleProject` writes: one `project`, not a `projects` list. */
  datatype SingleProjectExport = SingleProjectExport(
    project: Project,
    assessments: seq<Assessment>,
    evidenceFiles: seq<EvidenceFile>,
    exportedAt: string,
    version: string)

  /** `exportProjectData`: everything, stamped with the format version. */
  function ExportProjectData(projects: seq<Project>, assessments: seq<Assessment>, files: seq<EvidenceFile>, now: string)
    : (e: ExportData)
    ensures e.projects == projects && e.assessments == assessments && e.evidenceFiles == files
    ensures e.exportedAt == now && e.version == ExportVersion
  {
    ExportData(projects, assessments, files, now, ExportVersion)
  }

  function InProject(projectId: string): Assessment -> bool {
    (a: Assessment) => a.projectId == projectId
  }

  /** Some assessment in `s` has the id. */
  predicate HasAssessment(s: seq<Assessment>, id: string) {
    exists i :: 0 <= i < |s| && s[i].id == id
  }

  function BelongsTo(s: seq<Assessment>): EvidenceFile -> bool {
    (f: EvidenceFile) => HasAssessment(s, f.assessmentId)
  }

  /** `exportSingleProject`: the project's assessments, in order, and the
      evidence files attached to one of them, in order. */
  function ExportSingleProject(project: Project, assessments: seq<Assessment>, files: seq<EvidenceFile>, now: string)
    : (e: SingleProjectExport)
    ensures e.project == project && e.version == ExportVersion && e.exportedAt == now
    ensures forall a :: a in e.assessments <==> a in assessments && a.projectId == project.id
    ensures forall f :: f in e.evidenceFiles <==> f in files && ProjectHas(assessments, project.id, f.assessmentId)
    ensures Seqs.Selects(e.assessments, assessments, InProject(project.id))
    ensures Seqs.Selects(e.evidenceFiles, files, OwnedBy(assessments, project.id))
  {
    var own := Seqs.Filter(assessments, InProject(project.id));
    forall id ensures HasAssessment(own, id) <==> ProjectHas(assessments, project.id, id) {
      OwnAssessments(assessments, project.id, id);
    }
    Seqs.FilterSelects(assessments, InProject(project.id));
    Seqs.FilterSelects(files, BelongsTo(own));
    SingleProjectExport(project, own, Seqs.Filter(files, BelongsTo(own)), now, ExportVersion)
  }

  /** Some assessment of the project in `s` has the id. */
  predicate ProjectHas(s: seq<Assessment>, projectId: string, id: string) {
    exists i :: 0 <= i < |s| && s[i].projectId == projectId && s[i].id == id
  }

  /** The file is attached to one of the project's assessments in `s`. */
  function OwnedBy(s: seq<Assessment>, projectId: string): EvidenceFile -> bool {
    (f: EvidenceFile) => ProjectHas(s, projectId, f.assessmentId)
  }

  lemma OwnAssessments(s: seq<Assessment>, projectId: string, id: string)
    ensures HasAssessment(Seqs.Filter(s, InProject(projectId)), id) <==> ProjectHas(s, projectId, id)
  {
    var own := Seqs.Filter(s, InProject(projectId));
    if ProjectHas(s, projectId, id) {
      var i :| 0 <= i < |s| && s[i].projectId == projectId && s[i].id == id;
      assert s[i] in own;
    }
    if HasAssessment(own, id) {
      var j :| 0 <= j < |own| && own[j].id == id;
      assert own[j] in s;
    }
  }

  /** A project with no assessments exports no evidence. */
  lemma NoAssessmentsNoEvidence(project: Project, assessments: seq<Assessment>, files: seq<EvidenceFile>, now: string)
    requires forall i :: 0 <= i < |assessments| ==> assessments[i].projectId != project.id
    ensures ExportSingleProject(project, assessments, files, now).assessments == []
    ensures ExportSingleProject(project, assessments, files, now).evidenceFiles == []
  {
    Seqs.FilterNone(assessments, InProject(project.id));
    Seqs.FilterNone(files, BelongsTo([]));
  }

  // ---------------------------------------------------------------------------
  // Import validation

  /** What a key of the parsed object holds, as far as the validation looks:
      nothing (absent or falsy), an array, or some other value. */
  datatype Slot<T> = Absent | Items(items: seq<T>) | NotAnArray

  /** The parsed file, reduced to the three keys the validation inspects. */
  datatype ParsedObject = ParsedObject(
    projects: Slot<Project>,
    assessments: Slot<Assessment>,
    evidenceFiles: Slot<EvidenceFile>)

  const ProjectsError: string := "Invalid export file: missing or invalid projects data"
  const AssessmentsError: string := "Invalid export file: missing or invalid assessments data"
  const EvidenceError: string := "Invalid export file: missing or invalid evidence files data"

  /** The three lists an accepted import yields. */
  datatype ImportedData = ImportedData(projects: seq<Project>, assessments: seq<Assessment>, evidenceFiles: seq<EvidenceFile>)

  /** The validation in `importProjectData`: `projects`, then `assessments`,
      then `evidenceFiles` must each be an array; the first that is not
      names the error. */
  function ImportProjectData(o: ParsedObject): (r: Result<ImportedData, string>)
    ensures r.Success? <==> o.projects.Items? && o.assessments.Items? && o.evidenceFiles.Items?
    ensures r.Success? ==> r.value == ImportedData(o.projects.items, o.assessments.items, o.evidenceFiles.items)
    ensures !o.projects.Items? ==> r == Failure(ProjectsError)
    ensures o.projects.Items? && !o.assessments.Items? ==> r == Failure(AssessmentsError)
    ensures o.projects.Items? && o.assessments.Items? && !o.evidenceFiles.Items? ==> r == Failure(EvidenceError)
  {
    if !o.projects.Items? then Failure(ProjectsError)
    else if !o.assessments.Items? then Failure(AssessmentsError)
    else if !o.evidenceFiles.Items? then Failure(EvidenceError)
    else Success(ImportedData(o.projects.items, o.assessments.items, o.evidenceFiles.items))
  }

  /** How each envelope looks once written and parsed back. */
  function ParsedFull(e: ExportData): ParsedObject {
    ParsedObject(Items(e.projects), Items(e.assessments), Items(e.evidenceFiles))
  }

  function ParsedSingle(e: SingleProjectExport): ParsedObject {
    ParsedObject(Absent, Items(e.assessments), Items(e.evidenceFiles))
  }

  /** A full export imports back to the lists it was made from, while a
      single-project export is rejected for its missing `projects` key. */
  lemma ImportOfExports(projects: seq<Project>, assessments: seq<Assessment>, files: seq<EvidenceFile>, now: string, p: Project)
    ensures ImportProjectData(ParsedFull(ExportProjectData(projects, assessments, files, now)))
         == Success(ImportedData(projects, assessments, files))
    ensures ImportProjectData(ParsedSingle(ExportSingleProject(p, assessments, files, now))) == Failure(ProjectsError)
  {
  }

  // ---------------------------------------------------------------------------
  // Report

  function HasResult(r: AssessmentResult): Assessment -> bool {
    (a: Assessment) => a.result == r
  }

  datatype ReportCounts = ReportCounts(total: nat, passed: nat, failed: nat, notApplicable: nat)

  /** The counts in `generateProjectReport`'s summary. */
  function ReportCountsOf(project: Project, assessments: seq<Assessment>): (c: ReportCounts)
    ensures c.passed + c.failed + c.notApplicable == c.total
    ensures c.total == |Seqs.Filter(assessments, InProject(project.id))|
  {
    var own := Seqs.Filter(assessments, InProject(project.id));
    ResultsPartition(own);
    ReportCounts(|own|, |Seqs.Filter(own, HasResult(Pass))|, |Seqs.Filter(own, HasResult(Fail))|,
                 |Seqs.Filter(own, HasResult(Na))|)
  }

  /** Each assessment has exactly one of the three results. */
  lemma {:induction false} ResultsPartition(s: seq<Assessment>)
    ensures |Seqs.Filter(s, HasResult(Pass))| + |Seqs.Filter(s, HasResult(Fail))| + |Seqs.Filter(s, HasResult(Na))| == |s|
    decreases |s|
  {
    if |s| > 0 {
      ResultsPartition(s[..|s| - 1]);
    }
  }

  /** `Math.round(100 * part / whole)` for non-negative values, in integers. */
  function RoundedPercent(part: nat, whole: nat): nat
    requires whole > 0
  {
    (200 * part + whole) / (2 * whole)
  }

  /** The completion rate: 0 without assessments, and otherwise the share of
      assessments with a result, which is always all of them. */
  function CompletionRate(c: ReportCounts): (rate: nat)
    requires c.passed + c.failed + c.notApplicable == c.total
    ensures c.total == 0 ==> rate == 0
    ensures c.total > 0 ==> rate == 100
  {
    if c.total > 0 then
      WholeIsHundredPercent(c.total);
      RoundedPercent(c.passed + c.failed + c.notApplicable, c.total)
    else 0
  }

  lemma WholeIsHundredPercent(n: nat)
    requires n > 0
    ensures RoundedPercent(n, n) == 100
  {
    assert 200 * n + n == 100 * (2 * n) + n;
    DivisionByQuotient(200 * n + n, 2 * n, 100, n);
  }

  /** Integer division recovers the quotient of an exact decomposition. */
  lemma DivisionByQuotient(a: int, b: int, q: int, r: int)
    requires b > 0 && a == q * b + r && 0 <= r < b
    ensures a / b == q
  {
    var d, m := a / b, a % b;
    assert (d - q) * b == r - m;
    if d > q {
      PositiveMultiple(d - q, b);
    } else if d < q {
      PositiveMultiple(q - d, b);
    }
  }

  lemma PositiveMultiple(x: int, b: int)
    requires x >= 1 && b > 0
    ensures x * b >= b
  {
    assert x * b == (x - 1) * b + b;
  }

  /** `RoundedPercent` rounds half up: it is within half a percent of the exact share. */
  lemma RoundedPercentIsNearest(part: nat, whole: nat)
    requires whole > 0
    ensures 2 * whole * RoundedPercent(part, whole) <= 200 * part + whole < 2 * whole * (RoundedPercent(part, whole) + 1)
  {
  }

  // ---------------------------------------------------------------------------
  // File names

  /** One character of the download stem: letters and digits lower-cased,
      anything else an underscore. */
  function StemChar(c: char): (r: char)
    ensures ('a' <= r <= 'z') || ('0' <= r <= '9') || r == '_'
    ensures IsAsciiAlnum(c) ==> r == LowerChar(c)
  {
    if IsAsciiAlnum(c) then LowerChar(c) else '_'
  }

  /** `name.replace(/[^a-z0-9]/gi, '_')`. */
  function ReplaceNonAlnum(name: string): (r: string)
    ensures |r| == |name|
    ensures forall i :: 0 <= i < |name| ==> r[i] == if IsAsciiAlnum(name[i]) then name[i] else '_'
  {
    seq(|name|, i requires 0 <= i < |name| => if IsAsciiAlnum(name[i]) then name[i] else '_')
  }

  /** The file-name stem: replace, then lower-case. It has the name's
      length, only `[a-z0-9_]`, and is the per-character `StemChar`. */
  function FileStem(name: string): (r: string)
    ensures |r| == |name|
    ensures forall i :: 0 <= i < |r| ==> r[i] == StemChar(name[i])
    ensures forall i :: 0 <= i < |r| ==> ('a' <= r[i] <= 'z') || ('0' <= r[i] <= '9') || r[i] == '_'
  {
    ToLower(ReplaceNonAlnum(name))
  }

  /** Making a stem of a stem changes nothing. */
  lemma FileStemIdempotent(name: string)
    ensures FileStem(FileStem(name)) == FileStem(name)
  {
    var s := FileStem(name);
    assert forall i :: 0 <= i < |s| ==> FileStem(s)[i] == s[i];
  }

  function SingleExportFileName(project: Project): string {
    FileStem(project.name) + "-export.json"
  }

  function ReportFileName(project: Project): string {
    FileStem(project.name) + "-report.md"
  }

  /** The part of an ISO timestamp before the 'T'. */
  function DatePart(now: string): (r: string)
    ensures |r| <= |now| && r == now[..|r|]
    ensures 'T' !in r
    ensures |r| < |now| ==> now[|r|] == 'T'
  {
    if |now| == 0 || now[0] == 'T' then "" else [now[0]] + DatePart(now[1..])
  }

  function FullExportFileName(now: string): string {
    "en18031-export-" + DatePart(now) + ".json"
  }

  /** The two download names of a project differ only in their suffix. */
  lemma FileNamesShareStem(project: Project)
    ensures SingleExportFileName(project)[..|project.name|] == ReportFileName(project)[..|project.name|]
    ensures SingleExportFileName(project) != ReportFileName(project)
  {
    var stem := FileStem(project.name);
    assert SingleExportFileName(project)[..|stem|] == stem;
    assert ReportFileName(project)[..|stem|] == stem;
    assert SingleExportFileName(project)[|stem| + 1] == 'e';
    assert ReportFileName(project)[|stem| + 1] == 'r';
  }
}

=== FILE: import_policy.dfy ===
/** The record-selection and create policy of the import dialog
    (`onDrop` in src/components/project/ImportExportModal.tsx).

    The file parser is not part of this model: its result arrives as a
    parameter, a `Failure` carrying the message it threw. `crypto.randomUUID`
    is the parameter `uuid`, whose k-th value is the k-th fresh id the drop
    hands out (the ids the stores generate for themselves are not observed).
    The clock is the single reading `now`, and the message `btoa` throws on a
    character above U+00FF is `btoaMessage`. The store calls run one after another, so
    the awaits add nothing and the drop is one state transition. */
module ImportPolicy {
  import opened Wrappers
  import opened Types
  import opened Text
  import Seqs
  import DD = DuplicateDetection
  import AS = AssessmentStore
  import PS = ProjectStore

  datatype Format = Json | Csv | Xml

  /** What the parser hands back; a key the file lacks is `None`. */
  datatype ImportedData = ImportedData(
    project: Option<Project>,
    projects: Option<seq<Project>>,
    assessments: Option<seq<Assessment>>)

  datatype Stores = Stores(projects: PS.ProjectStoreState, assessments: AS.AssessmentStoreState)

  /** The dialog's three message slots. */
  datatype Notice = Notice(success: Option<string>, error: Option<string>, warning: Option<string>)

  datatype DropResult = DropResult(stores: Stores, notice: Notice)

  const Cleared: Notice := Notice(None, None, None)

  /** The "skip duplicates" box starts ticked. */
  const DefaultSkipDuplicates: bool := true

  // ---------------------------------------------------------------------------
  // What gets created

  /** The records the dialog creates: only the unique ones when skipping,
      otherwise the whole batch. */
  function Chosen(batch: seq<Assessment>, existing: seq<Assessment>, enc: DD.Encoder, skip: bool): seq<Assessment> {
    if skip then Seqs.Filter(batch, DD.UniqueOf(existing, enc)) else batch
  }

  /** An imported record as the store keeps it: everything the file carried,
      except the id and project it is given and the bookkeeping the store
      always sets itself. */
  function Stored(a: Assessment, id: string, projectId: string, now: string): Assessment {
    a.(id := id, projectId := projectId, evidenceFiles := [], assessedAt := now,
       assessedBy := AS.CurrentUser, version := 1, status := StatusDraft)
  }

  /** A project record spread into `createProject` with a fresh id. */
  function ProjectDataOf(p: Project, id: string): PS.ProjectData {
    PS.ProjectData(
      CreateProjectRequest(p.name, p.description, p.productName, p.manufacturer, p.modelReference,
                           p.testStandard, p.testLaboratory, p.reportReference, p.assignees),
      Some(id))
  }

  /** JSON and XML paths: `{...assessment, projectId: newProject.id}`. The
      store's own generated id is always overridden by the spread `id`, so
      the record's id stands in for it. */
  function CreateRehomed(st: AS.AssessmentStoreState, batch: seq<Assessment>, projectId: string, now: string)
    : (r: AS.AssessmentStoreState)
    ensures r.testCases == st.testCases
    ensures |r.assessments| == |st.assessments| + |batch|
    ensures r.assessments[..|st.assessments|] == st.assessments
    ensures forall i :: 0 <= i < |batch| ==>
              r.assessments[|st.assessments| + i] == Stored(batch[i], batch[i].id, projectId, now)
    decreases |batch|
  {
    if |batch| == 0 then st
    else
      var n := |batch| - 1;
      var a := batch[n];
      var data := AS.FromAssessment(a).(projectId := Some(projectId));
      var prior := CreateRehomed(st, batch[..n], projectId, now);
      AS.CreateAssessment(prior, data, projectId, a.id, now).0
  }

  /** CSV path: `{...assessment, id: crypto.randomUUID(), assessedAt: now}`
      created in the open project; the i-th created record gets `uuid(i)`. */
  function CreateRenumbered(st: AS.AssessmentStoreState, batch: seq<Assessment>, projectId: string,
                            uuid: nat -> string, now: string)
    : (r: AS.AssessmentStoreState)
    ensures r.testCases == st.testCases
    ensures |r.assessments| == |st.assessments| + |batch|
    ensures r.assessments[..|st.assessments|] == st.assessments
    ensures forall i :: 0 <= i < |batch| ==>
              r.assessments[|st.assessments| + i] == Stored(batch[i], uuid(i), batch[i].projectId, now)
    decreases |batch|
  {
    if |batch| == 0 then st
    else
      var n := |batch| - 1;
      var a := batch[n];
      var data := AS.FromAssessment(a).(id := Some(uuid(n)));
      var prior := CreateRenumbered(st, batch[..n], projectId, uuid, now);
      AS.CreateAssessment(prior, data, projectId, uuid(n), now).0
  }

  /** Multi-project JSON path: each entry becomes a project with id `uuid(k)`. */
  function CreateProjects(st: PS.ProjectStoreState, list: seq<Project>, uuid: nat -> string, now: string)
    : (r: PS.ProjectStoreState)
    ensures r.currentProject == st.currentProject
    ensures |r.projects| == |st.projects| + |list|
    ensures r.projects[..|st.projects|] == st.projects
    ensures forall k :: 0 <= k < |list| ==>
              r.projects[|st.projects| + k] == PS.NewProject(ProjectDataOf(list[k], uuid(k)), uuid(k), now)
    decreases |list|
  {
    if |list| == 0 then st
    else
      var n := |list| - 1;
      PS.CreateProject(CreateProjects(st, list[..n], uuid, now), ProjectDataOf(list[n], uuid(n)), uuid(n), now).0
  }

  // ---------------------------------------------------------------------------
  // Messages

  function ProjectMessage(name: string, count: nat): string {
    "Successfully imported project \"" + name + "\" with " + NatToString(count) + " assessments"
  }

  function XmlMessage(name: string): string {
    "Successfully imported project \"" + name + "\" from XML"
  }

  function ProjectsMessage(count: nat): string {
    "Successfully imported " + NatToString(count) + " projects"
  }

  function CsvMessage(created: nat, duplicates: nat, skip: bool): string {
    "Successfully imported " + NatToString(created) + " assessments"
      + (if duplicates > 0 && skip then " (" + NatToString(duplicates) + " duplicates skipped)" else "")
  }

  /** The duplicate check can run: every record involved can be hashed. */
  predicate Checkable(batch: seq<Assessment>, existing: seq<Assessment>) {
    DD.AllHashable(existing) && DD.AllHashable(batch)
  }

  /** Some record of the batch has a content twin among the existing records. */
  predicate HasDuplicate(batch: seq<Assessment>, existing: seq<Assessment>, enc: DD.Encoder) {
    exists i :: 0 <= i < |batch| && DD.IsDuplicate(batch[i], existing, enc)
  }

  /** The warning slot after a successful duplicate check. */
  function Warning(duplicates: seq<DD.Duplicate>): (w: Option<string>) {
    if |duplicates| > 0 then Some(DD.CreateDuplicateSummary(duplicates)) else None
  }

  lemma WarningIffDuplicate(report: DD.DuplicateReport, batch: seq<Assessment>, existing: seq<Assessment>, enc: DD.Encoder)
    requires Seqs.Map(report.duplicates, DD.NewOf) == Seqs.Filter(batch, DD.DuplicateOf(existing, enc))
    ensures Warning(report.duplicates).Some? <==> HasDuplicate(batch, existing, enc)
  {
    var p := DD.DuplicateOf(existing, enc);
    assert |Seqs.Filter(batch, p)| == |report.duplicates|;
    Seqs.FilterNonEmpty(batch, p);
    assert HasDuplicate(batch, existing, enc) <==> exists i :: 0 <= i < |batch| && p(batch[i]);
  }

  // ---------------------------------------------------------------------------
  // The three import paths

  /** Single-project JSON or XML file: the project is always created first
      (with id `newId`); then, if the file has assessments, the duplicate
      check runs against every stored assessment. A failed check leaves the
      new project in place and reports the error; otherwise the chosen
      records are created in the new project, keeping their own ids. The JSON
      message counts the whole batch, skipped records included. */
  method ImportProjectFile(stores: Stores, project: Project, batch: Option<seq<Assessment>>, skip: bool,
                           fromXml: bool, enc: DD.Encoder, newId: string, now: string, btoaMessage: string)
    returns (r: DropResult)
    ensures r.stores.projects == PS.CreateProject(stores.projects, ProjectDataOf(project, newId), newId, now).0
    ensures batch.None? ==> r.stores.assessments == stores.assessments
    ensures batch.Some? && !Checkable(batch.value, stores.assessments.assessments) ==>
              r.stores.assessments == stores.assessments && r.notice == Notice(None, Some(btoaMessage), None)
    ensures batch.Some? && Checkable(batch.value, stores.assessments.assessments) ==>
              r.stores.assessments
                == CreateRehomed(stores.assessments, Chosen(batch.value, stores.assessments.assessments, enc, skip), newId, now)
    ensures batch.None? || Checkable(batch.value, stores.assessments.assessments) ==>
              r.notice.error.None?
              && r.notice.success == Some(if fromXml then XmlMessage(project.name)
                                          else ProjectMessage(project.name, if batch.Some? then |batch.value| else 0))
    ensures r.notice.warning.Some? <==>
              batch.Some? && Checkable(batch.value, stores.assessments.assessments)
              && HasDuplicate(batch.value, stores.assessments.assessments, enc)
  {
    var (projects, p) := PS.CreateProject(stores.projects, ProjectDataOf(project, newId), newId, now);
    var success := if fromXml then XmlMessage(p.name) else ProjectMessage(p.name, if batch.Some? then |batch.value| else 0);
    if batch.None? {
      return DropResult(Stores(projects, stores.assessments), Notice(Some(success), None, None));
    }
    var all := stores.assessments.assessments;
    var check := DD.FindDuplicateAssessments(batch.value, all, enc);
    if check.Failure? {
      return DropResult(Stores(projects, stores.assessments), Notice(None, Some(btoaMessage), None));
    }
    var report := check.value;
    WarningIffDuplicate(report, batch.value, all, enc);
    var chosen := if skip then report.unique else batch.value;
    assert chosen == Chosen(batch.value, all, enc, skip);
    var st := CreateRehomed(stores.assessments, chosen, p.id, now);
    r := DropResult(Stores(projects, st), Notice(Some(success), None, Warning(report.duplicates)));
  }

  /** Multi-project JSON file: one new project per entry, no assessments. */
  function ImportProjectList(stores: Stores, list: seq<Project>, uuid: nat -> string, now: string): (r: DropResult)
    ensures r.stores.assessments == stores.assessments
    ensures |r.stores.projects.projects| == |stores.projects.projects| + |list|
    ensures r.stores.projects.projects[..|stores.projects.projects|] == stores.projects.projects
    ensures forall k :: 0 <= k < |list| ==>
              var p := r.stores.projects.projects[|stores.projects.projects| + k];
              p.id == uuid(k) && p.name == list[k].name && p.status == ProjectDraft && p.version == 1
    ensures r.notice == Notice(Some(ProjectsMessage(|list|)), None, None)
  {
    DropResult(Stores(CreateProjects(stores.projects, list, uuid, now), stores.assessments),
               Notice(Some(ProjectsMessage(|list|)), None, None))
  }

  /** CSV file: only the records of the open project are considered; the
      chosen ones are created there under fresh ids, and the message counts
      exactly the created records. */
  method ImportCsv(stores: Stores, open: Project, batch: seq<Assessment>, skip: bool,
                   enc: DD.Encoder, uuid: nat -> string, now: string, btoaMessage: string)
    returns (r: DropResult)
    ensures r.stores.projects == stores.projects
    ensures var mine := Seqs.Filter(batch, AS.InProject(open.id));
            !Checkable(mine, stores.assessments.assessments) ==>
              r.stores.assessments == stores.assessments && r.notice == Notice(None, Some(btoaMessage), None)
    ensures var all := stores.assessments.assessments;
            var mine := Seqs.Filter(batch, AS.InProject(open.id));
            var created := Chosen(mine, all, enc, skip);
            Checkable(mine, all) ==>
              && r.stores.assessments == CreateRenumbered(stores.assessments, created, open.id, uuid, now)
              && r.notice.error.None?
              && r.notice.success == Some(CsvMessage(|created|, |mine| - |Seqs.Filter(mine, DD.UniqueOf(all, enc))|, skip))
              && (r.notice.warning.Some? <==> HasDuplicate(mine, all, enc))
  {
    var all := stores.assessments.assessments;
    var mine := Seqs.Filter(batch, AS.InProject(open.id));
    var check := DD.FindDuplicateAssessments(mine, all, enc);
    if check.Failure? {
      return DropResult(stores, Notice(None, Some(btoaMessage), None));
    }
    var report := check.value;
    WarningIffDuplicate(report, mine, all, enc);
    var chosen := if skip then report.unique else mine;
    assert chosen == Chosen(mine, all, enc, skip);
    var st := CreateRenumbered(stores.assessments, chosen, open.id, uuid, now);
    var message := CsvMessage(|chosen|, |report.duplicates|, skip);
    r := DropResult(Stores(stores.projects, st), Notice(Some(message), None, Warning(report.duplicates)));
  }

  // ---------------------------------------------------------------------------
  // Consequences of the policy

  /** With nothing to skip, skipping changes nothing. */
  lemma SkipWithoutDuplicates(batch: seq<Assessment>, existing: seq<Assessment>, enc: DD.Encoder)
    requires !HasDuplicate(batch, existing, enc)
    ensures Chosen(batch, existing, enc, true) == batch
  {
    forall i | 0 <= i < |batch| ensures DD.UniqueOf(existing, enc)(batch[i]) {
      assert !DD.IsDuplicate(batch[i], existing, enc);
    }
    Seqs.FilterAll(batch, DD.UniqueOf(existing, enc));
  }

  /** When a duplicate is skipped, fewer records are created than the batch
      holds, so the JSON message, which counts the batch, overstates. */
  lemma SkippedStillCounted(batch: seq<Assessment>, existing: seq<Assessment>, enc: DD.Encoder)
    requires HasDuplicate(batch, existing, enc)
    ensures |Chosen(batch, existing, enc, true)| < |batch|
  {
    var i :| 0 <= i < |batch| && DD.IsDuplicate(batch[i], existing, enc);
    assert !DD.UniqueOf(existing, enc)(batch[i]);
    Seqs.FilterKeepsAll(batch, DD.UniqueOf(existing, enc));
  }

  /** A CSV import only ever chooses records of the open project. */
  lemma CsvChoosesOpenProject(batch: seq<Assessment>, open: Project, existing: seq<Assessment>,
                              enc: DD.Encoder, skip: bool)
    ensures var created := Chosen(Seqs.Filter(batch, AS.InProject(open.id)), existing, enc, skip);
            forall i :: 0 <= i < |created| ==> created[i].projectId == open.id
  {
    var mine := Seqs.Filter(batch, AS.InProject(open.id));
    var created := Chosen(mine, existing, enc, skip);
    forall i | 0 <= i < |created| ensures created[i].projectId == open.id {
      assert created[i] in mine;
    }
  }

  /** Every record a CSV import creates lands in the open project, under
      the fresh id of its position. */
  lemma CsvRecordsLandInOpenProject(st: AS.AssessmentStoreState, created: seq<Assessment>, open: Project,
                                    uuid: nat -> string, now: string)
    requires forall i :: 0 <= i < |created| ==> created[i].projectId == open.id
    ensures var r := CreateRenumbered(st, created, open.id, uuid, now);
            forall j :: |st.assessments| <= j < |r.assessments| ==>
              r.assessments[j].projectId == open.id && r.assessments[j].id == uuid(j - |st.assessments|)
  {
    var r := CreateRenumbered(st, created, open.id, uuid, now);
    var n := |st.assessments|;
    forall j | n <= j < |r.assessments|
      ensures r.assessments[j].projectId == open.id && r.assessments[j].id == uuid(j - n)
    {
      var i := j - n;
      assert r.assessments[n + i] == Stored(created[i], uuid(i), created[i].projectId, now);
    }
  }

  /** The duplicate check finds what a CSV import created: dropping the
      same file again reports every record created the first time. */
  lemma CsvReimportFindsDuplicates(st: AS.AssessmentStoreState, created: seq<Assessment>, projectId: string,
                                   uuid: nat -> string, now: string, enc: DD.Encoder, i: nat)
    requires Checkable(created, st.assessments) && i < |created|
    ensures var r := CreateRenumbered(st, created, projectId, uuid, now);
            DD.IsDuplicate(created[i], r.assessments, enc)
  {
    var r := CreateRenumbered(st, created, projectId, uuid, now);
    var n := |st.assessments|;
    forall j | 0 <= j < |r.assessments| ensures DD.Hashable(r.assessments[j]) {
      if j >= n {
        StoredKeepsContent(created[j - n], uuid(j - n), now);
      } else {
        assert r.assessments[j] == r.assessments[..n][j];
      }
    }
    StoredKeepsContent(created[i], uuid(i), now);
    assert DD.HashOf(r.assessments[n + i], enc) == DD.HashOf(created[i], enc);
  }

  /** A record stored under its own project has the content it was read with. */
  lemma StoredKeepsContent(a: Assessment, id: string, now: string)
    ensures DD.CanonicalOf(Stored(a, id, a.projectId, now)) == DD.CanonicalOf(a)
  {
  }

  /** The JSON and XML paths keep each record's own id, so importing a file
      whose records are still stored, without skipping, leaves two records
      under one id. */
  lemma RehomedRepeatsStoredIds(st: AS.AssessmentStoreState, batch: seq<Assessment>, projectId: string,
                                now: string, j: nat, k: nat)
    requires j < |st.assessments| && k < |batch| && st.assessments[j].id == batch[k].id
    ensures !AS.UniqueIds(CreateRehomed(st, batch, projectId, now).assessments)
  {
    var r := CreateRehomed(st, batch, projectId, now).assessments;
    var n := |st.assessments|;
    assert r[j] == r[..n][j];
    assert r[n + k].id == batch[k].id;
  }

  // ---------------------------------------------------------------------------
  // The drop handler

  /** `onDrop`: nothing happens without a file; otherwise the messages are
      cleared, a parser failure is reported as such, and the format picks
      the path. A JSON file with neither `project` nor `projects`, an XML
      file without `project` and a CSV file without `assessments` change
      nothing and report nothing. */
  method OnDrop(fileCount: nat, format: Format, parsed: Result<ImportedData, string>, skip: bool,
                open: Project, stores: Stores, notice: Notice,
                enc: DD.Encoder, uuid: nat -> string, now: string, btoaMessage: string)
    returns (r: DropResult)
    ensures fileCount == 0 ==> r == DropResult(stores, notice)
    ensures fileCount > 0 && parsed.Failure? ==> r == DropResult(stores, Notice(None, Some(parsed.error), None))
    ensures format == Csv ==> r.stores.projects == stores.projects
    ensures fileCount > 0 && parsed.Success? && format != Csv && parsed.value.project.Some? ==>
              |r.stores.projects.projects| == |stores.projects.projects| + 1
              && r.stores.projects.projects[|stores.projects.projects|].id == uuid(0)
    ensures format == Json && parsed.Success? && parsed.value.project.None? ==> r.stores.assessments == stores.assessments
    ensures fileCount > 0 && parsed.Success? && format == Json && parsed.value.project.None? && parsed.value.projects.Some? ==>
              |r.stores.projects.projects| == |stores.projects.projects| + |parsed.value.projects.value|
    ensures fileCount > 0 && parsed.Success? &&
            (|| (format == Json && parsed.value.project.None? && parsed.value.projects.None?)
             || (format == Xml && parsed.value.project.None?)
             || (format == Csv && parsed.value.assessments.None?)) ==>
              r == DropResult(stores, Cleared)
  {
    if fileCount == 0 {
      return DropResult(stores, notice);
    }
    if parsed.Failure? {
      return DropResult(stores, Notice(None, Some(parsed.error), None));
    }
    var data := parsed.value;
    match format {
      case Json =>
        if data.project.Some? {
          r := ImportProjectFile(stores, data.project.value, data.assessments, skip, false, enc, uuid(0), now, btoaMessage);
        } else if data.projects.Some? {
          r := ImportProjectList(stores, data.projects.value, uuid, now);
        } else {
          r := DropResult(stores, Cleared);
        }
      case Csv =>
        if data.assessments.Some? {
          r := ImportCsv(stores, open, data.assessments.value, skip, enc, uuid, now, btoaMessage);
        } else {
          r := DropResult(stores, Cleared);
        }
      case Xml =>
        if data.project.Some? {
          r := ImportProjectFile(stores, data.project.value, data.assessments, skip, true, enc, uuid(0), now, btoaMessage);
        } else {
          r := DropResult(stores, Cleared);
        }
    }
  }
}

=== FILE: project_store.dfy ===
/** The project store (src/stores/projectStore.ts) as state transitions on
    the project list and the current project. The generated id and the
    clock reading are parameters; the loading and error flags are left out. */
module ProjectStore {
  import opened Wrappers
  import opened Text
  import opened Types
  import Seqs

  datatype ProjectStoreState = ProjectStoreState(projects: seq<Project>, currentProject: Option<Project>)

  const CurrentUser: string := "current_user"
  const NotFound: string := "Project not found"

  /** The object handed to `createProject`: the form's request, plus the
      `id` key the import paths spread in (`None` when absent). */
  datatype ProjectData = ProjectData(request: CreateProjectRequest, id: Option<string>)

  /** The record `createProject` builds. A spread `id` wins over the
      generated one; status, both timestamps, creator and version always
      come from the store. */
  function NewProject(data: ProjectData, newId: string, now: string): (p: Project)
    ensures p.id == (if data.id.Some? then data.id.value else newId)
    ensures p.status == ProjectDraft && p.version == 1 && p.createdBy == CurrentUser
    ensures p.createdAt == now && p.updatedAt == now
    ensures p.name == data.request.name && p.description == data.request.description
    ensures p.productName == data.request.productName && p.manufacturer == data.request.manufacturer
    ensures p.modelReference == data.request.modelReference && p.testStandard == data.request.testStandard
    ensures p.testLaboratory == data.request.testLaboratory && p.reportReference == data.request.reportReference
    ensures p.assignees == data.request.assignees
  {
    var q := data.request;
    Project(data.id.GetOr(newId), q.name, q.description, q.productName, q.manufacturer,
            q.modelReference, q.testStandard, q.testLaboratory, q.reportReference, q.assignees,
            ProjectDraft, now, now, CurrentUser, 1)
  }

  /** `createProject`: appends exactly the new project; the current project is untouched. */
  function CreateProject(st: ProjectStoreState, data: ProjectData, newId: string, now: string): (r: (ProjectStoreState, Project))
    ensures r.1 == NewProject(data, newId, now)
    ensures r.0.projects == st.projects + [r.1] && r.0.currentProject == st.currentProject
  {
    var p := NewProject(data, newId, now);
    (st.(projects := st.projects + [p]), p)
  }

  function HasId(id: string): Project -> bool {
    (p: Project) => p.id == id
  }

  function OtherId(id: string): Project -> bool {
    (p: Project) => p.id != id
  }

  /** `getProject`: the first project with the id. */
  function GetProject(st: ProjectStoreState, id: string): (r: Option<Project>)
    ensures r.None? <==> forall i :: 0 <= i < |st.projects| ==> st.projects[i].id != id
    ensures r.Some? ==> r.value in st.projects && r.value.id == id
    ensures r.Some? ==> exists k :: 0 <= k < |st.projects| && st.projects[k] == r.value
                                    && forall j :: 0 <= j < k ==> st.projects[j].id != id
  {
    Seqs.FindFirst(st.projects, HasId(id))
  }

  /** `{...existing, ...data}`: a key present in the request replaces the stored value. */
  function Merge(p: Project, data: UpdateProjectRequest): Project {
    p.(name := data.name.GetOr(p.name),
       description := if data.description.Some? then data.description else p.description,
       productName := data.productName.GetOr(p.productName),
       manufacturer := data.manufacturer.GetOr(p.manufacturer),
       modelReference := data.modelReference.GetOr(p.modelReference),
       testStandard := data.testStandard.GetOr(p.testStandard),
       testLaboratory := data.testLaboratory.GetOr(p.testLaboratory),
       reportReference := data.reportReference.GetOr(p.reportReference),
       assignees := data.assignees.GetOr(p.assignees),
       status := data.status.GetOr(p.status))
  }

  /** `updateProject`. An unknown id fails with "Project not found" and
      changes nothing. Otherwise the first project with the id, merged with
      the request, stamped `now` and one version up, replaces every project
      with that id in place, and becomes the current project exactly when
      the current project has that id. */
  function UpdateProject(st: ProjectStoreState, id: string, data: UpdateProjectRequest, now: string)
    : (r: Result<(ProjectStoreState, Project), string>)
    ensures r.Failure? <==> forall i :: 0 <= i < |st.projects| ==> st.projects[i].id != id
    ensures r.Failure? ==> r.error == NotFound
    ensures r.Success? ==>
              var (st', updated) := r.value;
              var prior := GetProject(st, id).value;
              && updated.id == id && updated.version == prior.version + 1 && updated.updatedAt == now
              && updated.createdAt == prior.createdAt && updated.createdBy == prior.createdBy
              && Patched(data.name, prior.name, updated.name)
              && (data.description.Some? ==> updated.description == data.description)
              && (data.description.None? ==> updated.description == prior.description)
              && Patched(data.productName, prior.productName, updated.productName)
              && Patched(data.manufacturer, prior.manufacturer, updated.manufacturer)
              && Patched(data.modelReference, prior.modelReference, updated.modelReference)
              && Patched(data.testStandard, prior.testStandard, updated.testStandard)
              && Patched(data.testLaboratory, prior.testLaboratory, updated.testLaboratory)
              && Patched(data.reportReference, prior.reportReference, updated.reportReference)
              && Patched(data.assignees, prior.assignees, updated.assignees)
              && Patched(data.status, prior.status, updated.status)
              && |st'.projects| == |st.projects|
              && (forall i :: 0 <= i < |st.projects| ==>
                    st'.projects[i] == if st.projects[i].id == id then updated else st.projects[i])
              && (st.currentProject.Some? && st.currentProject.value.id == id ==> st'.currentProject == Some(updated))
              && (!(st.currentProject.Some? && st.currentProject.value.id == id) ==> st'.currentProject == st.currentProject)
  {
    match GetProject(st, id)
    case None => Failure(NotFound)
    case Some(existing) =>
      var updated := Merge(existing, data).(updatedAt := now, version := existing.version + 1);
      var current := if st.currentProject.Some? && st.currentProject.value.id == id then Some(updated) else st.currentProject;
      Success((ProjectStoreState(Seqs.ReplaceWhere(st.projects, HasId(id), updated), current), updated))
  }

  /** `deleteProject`: every project with the id goes, the rest stay in
      order, and the current project is cleared exactly when it has the id. */
  function DeleteProject(st: ProjectStoreState, id: string): (r: ProjectStoreState)
    ensures forall p :: p in r.projects <==> p in st.projects && p.id != id
    ensures Seqs.Selects(r.projects, st.projects, OtherId(id))
    ensures st.currentProject.Some? && st.currentProject.value.id == id ==> r.currentProject.None?
    ensures !(st.currentProject.Some? && st.currentProject.value.id == id) ==> r.currentProject == st.currentProject
  {
    var current := if st.currentProject.Some? && st.currentProject.value.id == id then None else st.currentProject;
    Seqs.FilterSelects(st.projects, OtherId(id));
    ProjectStoreState(Seqs.Filter(st.projects, OtherId(id)), current)
  }

  /** `setCurrentProject`. */
  function SetCurrentProject(st: ProjectStoreState, p: Option<Project>): (r: ProjectStoreState)
    ensures r.currentProject == p && r.projects == st.projects
  {
    st.(currentProject := p)
  }

  /** The current project, when there is one, is a stored project. */
  predicate CurrentIsStored(st: ProjectStoreState) {
    st.currentProject.Some? ==> st.currentProject.value in st.projects
  }

  /** Create, update and delete keep the current project among the stored
      ones, and so does selecting a stored project or none. */
  lemma CurrentStaysStored(st: ProjectStoreState, id: string, data: ProjectData, upd: UpdateProjectRequest,
                           newId: string, now: string, pick: Option<Project>)
    requires CurrentIsStored(st)
    requires pick.Some? ==> pick.value in st.projects
    ensures CurrentIsStored(CreateProject(st, data, newId, now).0)
    ensures UpdateProject(st, id, upd, now).Success? ==> CurrentIsStored(UpdateProject(st, id, upd, now).value.0)
    ensures CurrentIsStored(DeleteProject(st, id))
    ensures CurrentIsStored(SetCurrentProject(st, pick))
  {
    var r := UpdateProject(st, id, upd, now);
    if r.Success? && st.currentProject.Some? {
      var (st', updated) := r.value;
      var c := st.currentProject.value;
      var k :| 0 <= k < |st.projects| && st.projects[k] == c;
      if c.id == id {
        assert st'.projects[k] == updated;
      } else {
        assert st'.projects[k] == c;
      }
    }
  }

  /** Deleting a project just created under a fresh id restores the list. */
  lemma DeleteUndoesCreate(st: ProjectStoreState, data: ProjectData, newId: string, now: string)
    requires forall i :: 0 <= i < |st.projects| ==> st.projects[i].id != NewProject(data, newId, now).id
    requires st.currentProject.Some? ==> st.currentProject.value.id != NewProject(data, newId, now).id
    ensures var (st', p) := CreateProject(st, data, newId, now);
            DeleteProject(st', p.id) == st
  {
    var (st', p) := CreateProject(st, data, newId, now);
    Seqs.FilterAppend(st.projects, [p], OtherId(p.id));
    Seqs.FilterAll(st.projects, OtherId(p.id));
  }

  // ---------------------------------------------------------------------------
  // Queries

  /** The fields `searchProjects` looks in, for an already lower-cased query.
      A project without a description does not match on it. */
  predicate Matches(p: Project, lowerQuery: string) {
    || Contains(ToLower(p.name), lowerQuery)
    || (p.description.Some? && Contains(ToLower(p.description.value), lowerQuery))
    || Contains(ToLower(p.productName), lowerQuery)
    || Contains(ToLower(p.manufacturer), lowerQuery)
  }

  function MatchesQuery(lowerQuery: string): Project -> bool {
    (p: Project) => Matches(p, lowerQuery)
  }

  /** `searchProjects`: the projects matching the lower-cased query, in stored order. */
  function SearchProjects(st: ProjectStoreState, query: string): (r: seq<Project>)
    ensures forall p :: p in r <==> p in st.projects && Matches(p, ToLower(query))
    ensures Seqs.Selects(r, st.projects, MatchesQuery(ToLower(query)))
  {
    Seqs.FilterSelects(st.projects, MatchesQuery(ToLower(query)));
    Seqs.Filter(st.projects, MatchesQuery(ToLower(query)))
  }

  /** The empty query returns every project. */
  lemma EmptyQueryReturnsAll(st: ProjectStoreState)
    ensures SearchProjects(st, "") == st.projects
  {
    forall i | 0 <= i < |st.projects| ensures Matches(st.projects[i], ToLower("")) {
      ContainsEmpty(ToLower(st.projects[i].name));
    }
    Seqs.FilterAll(st.projects, MatchesQuery(ToLower("")));
  }

  /** The search ignores the case of the query. */
  lemma SearchIgnoresQueryCase(st: ProjectStoreState, query: string)
    ensures SearchProjects(st, ToLower(query)) == SearchProjects(st, query)
  {
    ToLowerIdempotent(query);
  }

  function HasStatus(status: ProjectStatus): Project -> bool {
    (p: Project) => p.status == status
  }

  /** `getProjectsByStatus`: the projects with the status, in stored order. */
  function ProjectsByStatus(st: ProjectStoreState, status: ProjectStatus): (r: seq<Project>)
    ensures forall p :: p in r <==> p in st.projects && p.status == status
    ensures Seqs.Selects(r, st.projects, HasStatus(status))
  {
    Seqs.FilterSelects(st.projects, HasStatus(status));
    Seqs.Filter(st.projects, HasStatus(status))
  }

  /** A newly created project is listed under 'draft' and under no other status. */
  lemma CreatedIsDraft(st: ProjectStoreState, data: ProjectData, newId: string, now: string, status: ProjectStatus)
    ensures var (st', p) := CreateProject(st, data, newId, now);
            ProjectsByStatus(st', status) == ProjectsByStatus(st, status) + (if status == ProjectDraft then [p] else [])
  {
    var (st', p) := CreateProject(st, data, newId, now);
    Seqs.FilterAppend(st.projects, [p], HasStatus(status));
  }

  /** What `getProjectProgress` returns for a stored project: its overview
      counts and completion rate. The per-mechanism, per-type and activity
      lists are always empty and are not modelled. */
  datatype ProjectProgress = ProjectProgress(
    projectId: string,
    total: nat, completed: nat, passed: nat, failed: nat, notApplicable: nat, pending: nat,
    completionRate: nat)

  /** The fixed figures `getProjectProgress` reports. */
  const MockTotal: nat := 50

  /** `getProjectProgress`: null exactly when the project is absent;
      otherwise placeholder figures that are consistent with each other (the
      completed ones split into passed, failed and not applicable, and with
      the pending ones make up the total) but ignore the assessments. */
  function ProjectProgressOf(st: ProjectStoreState, id: string): (r: Option<ProjectProgress>)
    ensures r.None? <==> forall i :: 0 <= i < |st.projects| ==> st.projects[i].id != id
    ensures r.Some? ==> r.value.projectId == id
    ensures r.Some? ==> && r.value.completed == r.value.passed + r.value.failed + r.value.notApplicable
                        && r.value.total == r.value.completed + r.value.pending
                        && r.value.total == MockTotal && r.value.completed == 0 && r.value.completionRate == 0
  {
    if GetProject(st, id).None? then None else Some(ProjectProgress(id, MockTotal, 0, 0, 0, 0, MockTotal, 0))
  }
}

=== FILE: seqs.dfy ===
/** The array combinators the stores are written with (`filter`, `find`,
    `map` with a replacement), as functions on sequences. */
module Seqs {
  import opened Wrappers

  /** `r` is `s` with some elements left out and the rest in their original
      order. Matching from the back is complete for subsequences. */
  ghost predicate IsSubsequence<T>(r: seq<T>, s: seq<T>)
    decreases |s|
  {
    if |r| == 0 then true
    else if |s| == 0 then false
    else if r[|r| - 1] == s[|s| - 1] then IsSubsequence(r[..|r| - 1], s[..|s| - 1])
    else IsSubsequence(r, s[..|s| - 1])
  }

  /** `r` lists exactly the elements of `s` that satisfy `p`: in the order
      of `s`, and each as often as it occurs there. */
  ghost predicate Selects<T(!new)>(r: seq<T>, s: seq<T>, p: T -> bool) {
    && IsSubsequence(r, s)
    && forall x :: multiset(r)[x] == if p(x) then multiset(s)[x] else 0
  }

  /** `s.filter(p)`: the elements satisfying `p`, in their original order. */
  function Filter<T(!new)>(s: seq<T>, p: T -> bool): (r: seq<T>)
    ensures |r| <= |s|
    ensures forall x :: x in r <==> x in s && p(x)
    ensures forall i :: 0 <= i < |r| ==> p(r[i])
  {
    if |s| == 0 then []
    else
      assert s == s[..|s| - 1] + [s[|s| - 1]];
      Filter(s[..|s| - 1], p) + (if p(s[|s| - 1]) then [s[|s| - 1]] else [])
  }

  /** The filter is a selection: it keeps the order of `s` and takes every
      element satisfying `p` as often as it occurs. */
  lemma FilterSelects<T(!new)>(s: seq<T>, p: T -> bool)
    ensures Selects(Filter(s, p), s, p)
  {
    FilterIsSubsequence(s, p);
    FilterCounts(s, p);
  }

  lemma {:induction false} FilterIsSubsequence<T(!new)>(s: seq<T>, p: T -> bool)
    ensures IsSubsequence(Filter(s, p), s)
    decreases |s|
  {
    if |s| > 0 {
      var n := |s| - 1;
      var f := Filter(s[..n], p);
      FilterIsSubsequence(s[..n], p);
      if p(s[n]) {
        assert (f + [s[n]])[..|f|] == f;
      } else {
        assert Filter(s, p) == f;
        assert f == [] || p(f[|f| - 1]);
      }
    }
  }

  lemma {:induction false} FilterCounts<T(!new)>(s: seq<T>, p: T -> bool)
    ensures forall x :: multiset(Filter(s, p))[x] == if p(x) then multiset(s)[x] else 0
    decreases |s|
  {
    if |s| > 0 {
      var n := |s| - 1;
      assert s == s[..n] + [s[n]];
      FilterCounts(s[..n], p);
      var tail := if p(s[n]) then [s[n]] else [];
      assert multiset(Filter(s, p)) == multiset(Filter(s[..n], p)) + multiset(tail);
      assert multiset(s) == multiset(s[..n]) + multiset([s[n]]);
    }
  }

  /** A subsequence takes each element at most as often as it occurs. */
  lemma {:induction false} SubsequenceCounts<T>(r: seq<T>, s: seq<T>)
    requires IsSubsequence(r, s)
    ensures multiset(r) <= multiset(s)
    decreases |s|
  {
    if |r| > 0 {
      var m, n := |r| - 1, |s| - 1;
      assert s == s[..n] + [s[n]];
      if r[m] == s[n] {
        assert r == r[..m] + [r[m]];
        SubsequenceCounts(r[..m], s[..n]);
      } else {
        SubsequenceCounts(r, s[..n]);
      }
    }
  }

  /** The filter is the only selection: any sequence that lists exactly the
      elements satisfying `p`, in order and with their multiplicities, is
      `Filter(s, p)`. */
  lemma {:induction false} SelectionIsFilter<T(!new)>(r: seq<T>, s: seq<T>, p: T -> bool)
    requires Selects(r, s, p)
    ensures r == Filter(s, p)
    decreases |s|
  {
    if |s| > 0 {
      var n := |s| - 1;
      var x := s[n];
      assert s == s[..n] + [x];
      if |r| > 0 && r[|r| - 1] == x {
        var m := |r| - 1;
        assert r == r[..m] + [x];
        assert p(x) by {
          assert multiset(r)[x] > 0;
        }
        forall y ensures multiset(r[..m])[y] == if p(y) then multiset(s[..n])[y] else 0 {
          assert multiset(r)[y] == multiset(r[..m])[y] + multiset([x])[y];
          assert multiset(s)[y] == multiset(s[..n])[y] + multiset([x])[y];
        }
        SelectionIsFilter(r[..m], s[..n], p);
      } else {
        assert IsSubsequence(r, s[..n]);
        SubsequenceCounts(r, s[..n]);
        assert !p(x) by {
          assert multiset(s)[x] == multiset(s[..n])[x] + 1;
        }
        forall y ensures multiset(r)[y] == if p(y) then multiset(s[..n])[y] else 0 {
          assert multiset(s)[y] == multiset(s[..n])[y] + multiset([x])[y];
        }
        SelectionIsFilter(r, s[..n], p);
      }
    }
  }

  /** Filtering distributes over concatenation, so the result keeps the order of `s`. */
  lemma {:induction false} FilterAppend<T(!new)>(a: seq<T>, b: seq<T>, p: T -> bool)
    ensures Filter(a + b, p) == Filter(a, p) + Filter(b, p)
    decreases |b|
  {
    if |b| == 0 {
      assert a + b == a;
    } else {
      var b' := b[..|b| - 1];
      assert (a + b)[..|a + b| - 1] == a + b';
      assert (a + b)[|a + b| - 1] == b[|b| - 1];
      FilterAppend(a, b', p);
    }
  }

  /** A sequence all of whose elements satisfy `p` is its own filter. */
  lemma {:induction false} FilterAll<T(!new)>(s: seq<T>, p: T -> bool)
    requires forall i :: 0 <= i < |s| ==> p(s[i])
    ensures Filter(s, p) == s
    decreases |s|
  {
    if |s| > 0 {
      var n := |s| - 1;
      FilterAll(s[..n], p);
      assert Filter(s, p) == Filter(s[..n], p) + [s[n]];
      assert s[..n] + [s[n]] == s;
    }
  }

  /** A sequence none of whose elements satisfies `p` filters to nothing. */
  lemma {:induction false} FilterNone<T(!new)>(s: seq<T>, p: T -> bool)
    requires forall i :: 0 <= i < |s| ==> !p(s[i])
    ensures Filter(s, p) == []
    decreases |s|
  {
    if |s| > 0 {
      FilterNone(s[..|s| - 1], p);
    }
  }

  /** Every element goes to exactly one side of a predicate and its negation. */
  lemma {:induction false} FilterSplitLength<T(!new)>(s: seq<T>, p: T -> bool, q: T -> bool)
    requires forall x :: q(x) == !p(x)
    ensures |Filter(s, p)| + |Filter(s, q)| == |s|
    decreases |s|
  {
    if |s| > 0 {
      FilterSplitLength(s[..|s| - 1], p, q);
    }
  }

  /** The filter keeps every element exactly when every element satisfies `p`. */
  lemma FilterKeepsAll<T(!new)>(s: seq<T>, p: T -> bool)
    ensures |Filter(s, p)| == |s| <==> forall i :: 0 <= i < |s| ==> p(s[i])
  {
    if forall i :: 0 <= i < |s| ==> p(s[i]) {
      FilterAll(s, p);
    } else {
      var i :| 0 <= i < |s| && !p(s[i]);
      FilterDrops(s, p, i);
    }
  }

  /** An element failing `p` makes the filter strictly shorter. */
  lemma {:induction false} FilterDrops<T(!new)>(s: seq<T>, p: T -> bool, i: nat)
    requires i < |s| && !p(s[i])
    ensures |Filter(s, p)| < |s|
    decreases |s|
  {
    var n := |s| - 1;
    if i < n {
      assert s[..n][i] == s[i];
      FilterDrops(s[..n], p, i);
    }
  }

  /** A filter keeps something exactly when some element satisfies the predicate. */
  lemma FilterNonEmpty<T(!new)>(s: seq<T>, p: T -> bool)
    ensures |Filter(s, p)| > 0 <==> exists i :: 0 <= i < |s| && p(s[i])
  {
    var f := Filter(s, p);
    if |f| > 0 {
      assert f[0] in s && p(f[0]);
      var i :| 0 <= i < |s| && s[i] == f[0];
    }
    if exists i :: 0 <= i < |s| && p(s[i]) {
      var i :| 0 <= i < |s| && p(s[i]);
      assert s[i] in f;
    }
  }

  /** Filtering twice by the same predicate is filtering once. */
  lemma FilterIdempotent<T(!new)>(s: seq<T>, p: T -> bool)
    ensures Filter(Filter(s, p), p) == Filter(s, p)
  {
    FilterAll(Filter(s, p), p);
  }

  /** Index of the first element satisfying `p` (`findIndex`, with `None` for -1). */
  function FirstIndex<T>(s: seq<T>, p: T -> bool): (r: Option<nat>)
    ensures r.None? <==> forall i :: 0 <= i < |s| ==> !p(s[i])
    ensures r.Some? ==> r.value < |s| && p(s[r.value])
    ensures r.Some? ==> forall j :: 0 <= j < r.value ==> !p(s[j])
  {
    if |s| == 0 then None
    else if p(s[0]) then Some(0)
    else match FirstIndex(s[1..], p)
      case None => None
      case Some(i) => Some(i + 1)
  }

  /** `s.find(p)`: the first element satisfying `p`, or `None` (JavaScript's `undefined`). */
  function FindFirst<T(!new)>(s: seq<T>, p: T -> bool): (r: Option<T>)
    ensures r.None? <==> forall i :: 0 <= i < |s| ==> !p(s[i])
    ensures r.Some? ==> r.value in s && p(r.value)
    ensures r.Some? ==> exists i :: 0 <= i < |s| && s[i] == r.value && forall j :: 0 <= j < i ==> !p(s[j])
  {
    match FirstIndex(s, p)
    case None => None
    case Some(i) => Some(s[i])
  }

  /** When at most one element can satisfy `p`, `find` returns that element. */
  lemma FindFirstUnique<T(!new)>(s: seq<T>, p: T -> bool, k: nat)
    requires k < |s| && p(s[k])
    requires forall i :: 0 <= i < |s| && p(s[i]) ==> i == k
    ensures FindFirst(s, p) == Some(s[k])
  {
  }

  /** `s.map(x => p(x) ? v : x)`: every element satisfying `p` is replaced by `v`. */
  function ReplaceWhere<T>(s: seq<T>, p: T -> bool, v: T): (r: seq<T>)
    ensures |r| == |s|
    ensures forall i :: 0 <= i < |s| ==> r[i] == if p(s[i]) then v else s[i]
  {
    seq(|s|, i requires 0 <= i < |s| => if p(s[i]) then v else s[i])
  }

  /** `s.map(f)`. */
  function Map<T, U>(s: seq<T>, f: T -> U): (r: seq<U>)
    ensures |r| == |s|
    ensures forall i :: 0 <= i < |s| ==> r[i] == f(s[i])
  {
    seq(|s|, i requires 0 <= i < |s| => f(s[i]))
  }

  /** No element occurs twice. */
  predicate Distinct<T(==)>(s: seq<T>) {
    forall i, j :: 0 <= i < j < |s| ==> s[i] != s[j]
  }

  /** Two duplicate-free sequences with no common element concatenate to a duplicate-free one. */
  lemma DistinctConcat<T>(a: seq<T>, b: seq<T>)
    requires Distinct(a) && Distinct(b)
    requires forall x :: x in a ==> x !in b
    ensures Distinct(a + b)
  {
    forall i, j | 0 <= i < j < |a + b| ensures (a + b)[i] != (a + b)[j] {
      if j < |a| {
      } else if i >= |a| {
        assert (a + b)[i] == b[i - |a|] && (a + b)[j] == b[j - |a|];
      } else {
        assert (a + b)[i] in a && (a + b)[j] in b;
      }
    }
  }

  /** Filtering a duplicate-free sequence leaves it duplicate-free. */
  lemma {:induction false} FilterDistinct<T(!new)>(s: seq<T>, p: T -> bool)
    requires Distinct(s)
    ensures Distinct(Filter(s, p))
    decreases |s|
  {
    if |s| > 0 {
      var n := |s| - 1;
      assert Distinct(s[..n]);
      FilterDistinct(s[..n], p);
      assert s[n] !in s[..n];
    }
  }
}

=== FILE: test_catalog.dfy ===
/** The built-in test-case catalog (src/data/testCases.ts): four EN 18031-1
    cases and two EN 18031-2 cases, and the four lookups over them.

    Each case keeps its id, mechanism code and number, assessment type,
    title, standard, section, order and steps; each step keeps its id, case
    id, number and order. The descriptive texts (objective, prerequisites,
    procedures, units, rationale, and each step's procedure and expected
    result) are left empty: no lookup reads them. */
module TestCatalog {
  import opened Wrappers
  import opened Types
  import Seqs

  const AcmOne: TestCase := TestCase(
    "acm-001", ACM, 1, Conceptual,
    "Access Control Mechanism - Conceptual Assessment",
    "", "", "", "", "",
    EN18031_1, "5.1.1", 1,
    [
      TestStep("acm-001-step-1", "acm-001", 1, None, "", Some(""), 1),
      TestStep("acm-001-step-2", "acm-001", 2, None, "", Some(""), 2),
      TestStep("acm-001-step-3", "acm-001", 3, None, "", Some(""), 3)
    ])

  const AcmTwo: TestCase := TestCase(
    "acm-002", ACM, 2, FunctionalCompleteness,
    "Access Control Mechanism - Functional Completeness",
    "", "", "", "", "",
    EN18031_1, "5.1.2", 2,
    [
      TestStep("acm-002-step-1", "acm-002", 1, None, "", Some(""), 1),
      TestStep("acm-002-step-2", "acm-002", 2, None, "", Some(""), 2),
      TestStep("acm-002-step-3", "acm-002", 3, None, "", Some(""), 3)
    ])

  const AumOne: TestCase := TestCase(
    "aum-001", AUM, 1, Conceptual,
    "Access Update Mechanism - Conceptual Assessment",
    "", "", "", "", "",
    EN18031_1, "5.2.1", 3,
    [
      TestStep("aum-001-step-1", "aum-001", 1, None, "", Some(""), 1),
      TestStep("aum-001-step-2", "aum-001", 2, None, "", Some(""), 2)
    ])

  const SumOne: TestCase := TestCase(
    "sum-001", SUM, 1, FunctionalSufficiency,
    "Software Update Mechanism - Functional Sufficiency",
    "", "", "", "", "",
    EN18031_1, "5.3.1", 4,
    [
      TestStep("sum-001-step-1", "sum-001", 1, None, "", Some(""), 1),
      TestStep("sum-001-step-2", "sum-001", 2, None, "", Some(""), 2),
      TestStep("sum-001-step-3", "sum-001", 3, None, "", Some(""), 3)
    ])

  const SsmOne: TestCase := TestCase(
    "ssm-001", SSM, 1, Conceptual,
    "Secure Storage Mechanism - Conceptual Assessment",
    "", "", "", "", "",
    EN18031_2, "6.1.1", 1,
    [
      TestStep("ssm-001-step-1", "ssm-001", 1, None, "", Some(""), 1),
      TestStep("ssm-001-step-2", "ssm-001", 2, None, "", Some(""), 2)
    ])

  const ScmOne: TestCase := TestCase(
    "scm-001", SCM, 1, FunctionalCompleteness,
    "Secure Communication Mechanism - Functional Completeness",
    "", "", "", "", "",
    EN18031_2, "6.2.1", 2,
    [
      TestStep("scm-001-step-1", "scm-001", 1, None, "", Some(""), 1),
      TestStep("scm-001-step-2", "scm-001", 2, None, "", Some(""), 2),
      TestStep("scm-001-step-3", "scm-001", 3, None, "", Some(""), 3)
    ])

  const En18031One: seq<TestCase> := [AcmOne, AcmTwo, AumOne, SumOne]
  const En18031Two: seq<TestCase> := [SsmOne, ScmOne]

  // ---------------------------------------------------------------------------
  // Well-formedness of the data

  /** Each step belongs to its case and is numbered, and ordered, by its
      1-based position. */
  predicate StepsNumbered(tc: TestCase) {
    forall i :: 0 <= i < |tc.testSteps| ==>
      && tc.testSteps[i].testCaseId == tc.id
      && tc.testSteps[i].stepNumber == i + 1
      && tc.testSteps[i].order == i + 1
  }

  function IdOf(tc: TestCase): string {
    tc.id
  }

  function FromStandard(standard: Standard): TestCase -> bool {
    (tc: TestCase) => tc.source == standard
  }

  /** Every EN 18031-1 case has well-numbered steps and names its standard. */
  lemma FirstListWellFormed()
    ensures forall i :: 0 <= i < |En18031One| ==> StepsNumbered(En18031One[i]) && En18031One[i].source == EN18031_1
  {
    assert StepsNumbered(AcmOne);
    assert StepsNumbered(AcmTwo);
    assert StepsNumbered(AumOne);
    assert StepsNumbered(SumOne);
  }

  /** Every EN 18031-2 case has well-numbered steps and names its standard. */
  lemma SecondListWellFormed()
    ensures forall i :: 0 <= i < |En18031Two| ==> StepsNumbered(En18031Two[i]) && En18031Two[i].source == EN18031_2
  {
    assert StepsNumbered(SsmOne);
    assert StepsNumbered(ScmOne);
  }

  /** No two cases of the catalog share an id. */
  lemma CatalogIdsDistinct()
    ensures Seqs.Distinct(Seqs.Map(GetAllTestCases(), IdOf))
  {
    var ids := Seqs.Map(GetAllTestCases(), IdOf);
    assert ids == ["acm-001", "acm-002", "aum-001", "sum-001", "ssm-001", "scm-001"];
  }

  // ---------------------------------------------------------------------------
  // Lookups

  /** `getAllTestCases`: the EN 18031-1 list, then the EN 18031-2 list. */
  function GetAllTestCases(): (r: seq<TestCase>)
    ensures |r| == |En18031One| + |En18031Two|
    ensures r[..|En18031One|] == En18031One && r[|En18031One|..] == En18031Two
  {
    En18031One + En18031Two
  }

  /** `getTestCasesByStandard`: the -1 list exactly for EN18031-1, the -2
      list for anything else. */
  function GetTestCasesByStandard(standard: Standard): (r: seq<TestCase>)
    ensures standard == EN18031_1 <==> r == En18031One
    ensures standard != EN18031_1 ==> r == En18031Two
  {
    if standard == EN18031_1 then En18031One else En18031Two
  }

  /** A standard's list is exactly the catalog's cases of that standard, in
      catalog order. */
  lemma ByStandardIsFilter(standard: Standard)
    ensures GetTestCasesByStandard(standard) == Seqs.Filter(GetAllTestCases(), FromStandard(standard))
  {
    FirstListWellFormed();
    SecondListWellFormed();
    var p := FromStandard(standard);
    Seqs.FilterAppend(En18031One, En18031Two, p);
    if standard == EN18031_1 {
      Seqs.FilterAll(En18031One, p);
      Seqs.FilterNone(En18031Two, p);
    } else {
      Seqs.FilterNone(En18031One, p);
      Seqs.FilterAll(En18031Two, p);
    }
  }

  function HasMechanism(mechanism: string): TestCase -> bool {
    (tc: TestCase) => MechanismName(tc.mechanism) == mechanism
  }

  /** `getTestCasesByMechanism`: the catalog's cases whose mechanism code is
      the string given, in catalog order. */
  function GetTestCasesByMechanism(mechanism: string): (r: seq<TestCase>)
    ensures forall tc :: tc in r <==> tc in GetAllTestCases() && MechanismName(tc.mechanism) == mechanism
    ensures |r| <= |GetAllTestCases()|
    ensures Seqs.Selects(r, GetAllTestCases(), HasMechanism(mechanism))
  {
    Seqs.FilterSelects(GetAllTestCases(), HasMechanism(mechanism));
    Seqs.Filter(GetAllTestCases(), HasMechanism(mechanism))
  }

  /** Matching a code's string is matching the code. */
  lemma HasMechanismIsCode(m: MechanismType, tc: TestCase)
    ensures HasMechanism(MechanismName(m))(tc) <==> tc.mechanism == m
  {
    MechanismNamesDistinct(tc.mechanism, m);
  }

  /** The access control mechanism has two cases, in catalog order. */
  lemma AccessControlCases()
    ensures GetTestCasesByMechanism("ACM") == [AcmOne, AcmTwo]
  {
    var p := HasMechanism(MechanismName(ACM));
    var acm := [AcmOne, AcmTwo];
    var rest := [AumOne, SumOne, SsmOne, ScmOne];
    assert GetAllTestCases() == acm + rest;
    forall i | 0 <= i < |acm| ensures p(acm[i]) {
      HasMechanismIsCode(ACM, acm[i]);
    }
    forall i | 0 <= i < |rest| ensures !p(rest[i]) {
      HasMechanismIsCode(ACM, rest[i]);
    }
    Seqs.FilterAppend(acm, rest, p);
    Seqs.FilterAll(acm, p);
    Seqs.FilterNone(rest, p);
  }

  /** A mechanism code the catalog does not use finds nothing. */
  lemma UnusedMechanismFindsNothing(m: MechanismType)
    requires m !in {ACM, AUM, SUM, SSM, SCM}
    ensures GetTestCasesByMechanism(MechanismName(m)) == []
  {
    var all := GetAllTestCases();
    forall i | 0 <= i < |all| ensures !HasMechanism(MechanismName(m))(all[i]) {
      HasMechanismIsCode(m, all[i]);
    }
    Seqs.FilterNone(all, HasMechanism(MechanismName(m)));
  }

  /** `getTestCaseById`: the first case with the id, if any. */
  function GetTestCaseById(id: string): (r: Option<TestCase>)
    ensures r.None? <==> forall i :: 0 <= i < |GetAllTestCases()| ==> GetAllTestCases()[i].id != id
    ensures r.Some? ==> r.value in GetAllTestCases() && r.value.id == id
  {
    Seqs.FindFirst(GetAllTestCases(), (tc: TestCase) => tc.id == id)
  }

  /** Ids being distinct, every case is found by its own id. */
  lemma LookupByOwnId(k: nat)
    requires k < |GetAllTestCases()|
    ensures GetTestCaseById(GetAllTestCases()[k].id) == Some(GetAllTestCases()[k])
  {
    var all := GetAllTestCases();
    CatalogIdsDistinct();
    var ids := Seqs.Map(all, IdOf);
    forall i | 0 <= i < |all| && all[i].id == all[k].id ensures i == k {
      assert ids[i] == ids[k];
    }
    Seqs.FindFirstUnique(all, (tc: TestCase) => tc.id == all[k].id, k);
  }
}

=== FILE: text.dfy ===
/** The JavaScript string operations the application relies on: `trim`,
    `toLowerCase`, `includes`, `startsWith`, the alphanumeric character class
    and decimal rendering of counts. */
module Text {

  /** ECMAScript WhiteSpace and LineTerminator code points: what `String.prototype.trim` strips. */
  predicate IsWhitespace(c: char) {
    || c == '\t' || c == '\n' || c == '\U{000B}' || c == '\U{000C}' || c == '\r' || c == ' '
    || c == '\U{00A0}' || c == '\U{1680}' || ('\U{2000}' <= c <= '\U{200A}')
    || c == '\U{2028}' || c == '\U{2029}' || c == '\U{202F}' || c == '\U{205F}'
    || c == '\U{3000}' || c == '\U{FEFF}'
  }

  predicate AllWhitespace(s: string) {
    forall i :: 0 <= i < |s| ==> IsWhitespace(s[i])
  }

  function TrimStart(s: string): (r: string)
    ensures |r| <= |s| && r == s[|s| - |r|..]
    ensures forall i :: 0 <= i < |s| - |r| ==> IsWhitespace(s[i])
    ensures r == [] || !IsWhitespace(r[0])
    decreases |s|
  {
    if |s| > 0 && IsWhitespace(s[0]) then TrimStart(s[1..]) else s
  }

  function TrimEnd(s: string): (r: string)
    ensures |r| <= |s| && r == s[..|r|]
    ensures forall i :: |r| <= i < |s| ==> IsWhitespace(s[i])
    ensures r == [] || !IsWhitespace(r[|r| - 1])
    decreases |s|
  {
    if |s| > 0 && IsWhitespace(s[|s| - 1]) then TrimEnd(s[..|s| - 1]) else s
  }

  /** Every character of `s` before `a` or from `b` on is whitespace. */
  predicate OnlyWhitespaceOutside(s: string, a: int, b: int)
    requires 0 <= a <= b <= |s|
  {
    && (forall i :: 0 <= i < a ==> IsWhitespace(s[i]))
    && (forall i :: b <= i < |s| ==> IsWhitespace(s[i]))
  }

  /** `s.trim()`: the part of `s` between its leading and trailing
      whitespace; empty exactly when `s` is all whitespace. */
  function Trim(s: string): (r: string)
    ensures |r| <= |s|
    ensures r == [] <==> AllWhitespace(s)
  {
    var t := TrimStart(s);
    var r := TrimEnd(t);
    assert r == [] ==> AllWhitespace(s) by {
      if r == [] {
        assert t == [];
      }
    }
    r
  }

  /** A non-empty trimmed string neither starts nor ends with whitespace,
      and a string that already does neither is left as it is. */
  lemma TrimShape(s: string)
    ensures var r := Trim(s);
            r != [] ==> !IsWhitespace(r[0]) && !IsWhitespace(r[|r| - 1])
    ensures (s == [] || (!IsWhitespace(s[0]) && !IsWhitespace(s[|s| - 1]))) ==> Trim(s) == s
  {
    var t := TrimStart(s);
    var r := TrimEnd(t);
    assert r != [] ==> r[0] == t[0];
  }

  /** What `trim` promises: the result is a slice of `s` with only
      whitespace cut off either side, and it neither starts nor ends with
      whitespace. Together these fix the result. */
  lemma TrimIsStrippedSlice(s: string)
    ensures var r := Trim(s);
            && (exists a, b :: 0 <= a <= b <= |s| && r == s[a..b] && OnlyWhitespaceOutside(s, a, b))
            && (r == [] || (!IsWhitespace(r[0]) && !IsWhitespace(r[|r| - 1])))
  {
    var t := TrimStart(s);
    var r := TrimEnd(t);
    var a := |s| - |t|;
    assert r == s[a..a + |r|];
    assert OnlyWhitespaceOutside(s, a, a + |r|) by {
      forall i | a + |r| <= i < |s| ensures IsWhitespace(s[i]) {
        assert s[i] == t[i - a];
      }
    }
    TrimShape(s);
  }

  /** Trimming is idempotent. */
  lemma TrimIdempotent(s: string)
    ensures Trim(Trim(s)) == Trim(s)
  {
    TrimShape(s);
    TrimShape(Trim(s));
  }

  /** ASCII upper-case letters map to lower case, every other character to itself. */
  function LowerChar(c: char): (r: char)
    ensures 'A' <= c <= 'Z' ==> 'a' <= r <= 'z'
    ensures !('A' <= c <= 'Z') ==> r == c
  {
    if 'A' <= c <= 'Z' then (c as int + 32) as char else c
  }

  /** `s.toLowerCase()` on the ASCII letters. */
  function ToLower(s: string): (r: string)
    ensures |r| == |s|
    ensures forall i :: 0 <= i < |s| ==> r[i] == LowerChar(s[i])
  {
    seq(|s|, i requires 0 <= i < |s| => LowerChar(s[i]))
  }

  /** Lower-casing twice is lower-casing once. */
  lemma ToLowerIdempotent(s: string)
    ensures ToLower(ToLower(s)) == ToLower(s)
  {
    var t := ToLower(s);
    assert forall i :: 0 <= i < |s| ==> ToLower(t)[i] == LowerChar(LowerChar(s[i])) == LowerChar(s[i]);
  }

  /** `s.startsWith(prefix)`. */
  predicate StartsWith(s: string, prefix: string) {
    |prefix| <= |s| && s[..|prefix|] == prefix
  }

  /** `sub` occurs in `s` at offset `i`. */
  predicate OccursAt(s: string, sub: string, i: int) {
    0 <= i && i + |sub| <= |s| && s[i..i + |sub|] == sub
  }

  /** `s.includes(sub)`: true exactly when `sub` occurs somewhere in `s`. */
  function Contains(s: string, sub: string): (r: bool)
    ensures r <==> exists i :: OccursAt(s, sub, i)
    decreases |s|
  {
    if StartsWith(s, sub) then
      assert OccursAt(s, sub, 0);
      true
    else if |s| == 0 then
      false
    else
      ContainsShift(s, sub);
      Contains(s[1..], sub)
  }

  /** Past offset 0, the occurrences in `s` are those of `s[1..]` shifted by one. */
  lemma ContainsShift(s: string, sub: string)
    requires |s| > 0 && !OccursAt(s, sub, 0)
    ensures (exists i :: OccursAt(s, sub, i)) <==> (exists i :: OccursAt(s[1..], sub, i))
  {
    if exists i :: OccursAt(s, sub, i) {
      var i :| OccursAt(s, sub, i);
      assert i > 0;
      assert s[1..][i - 1..i - 1 + |sub|] == s[i..i + |sub|];
      assert OccursAt(s[1..], sub, i - 1);
    }
    if exists i :: OccursAt(s[1..], sub, i) {
      var i :| OccursAt(s[1..], sub, i);
      assert s[i + 1..i + 1 + |sub|] == s[1..][i..i + |sub|];
      assert OccursAt(s, sub, i + 1);
    }
  }

  /** An occurrence in `body` is one in `prefix + body`, shifted by the prefix. */
  lemma OccursAfterPrefix(whole: string, prefix: string, body: string, sub: string, at: int)
    requires whole == prefix + body
    requires OccursAt(body, sub, at)
    ensures OccursAt(whole, sub, |prefix| + at)
  {
    var k := |prefix| + at;
    forall j | 0 <= j < |sub| ensures whole[k + j] == sub[j] {
      assert body[at..at + |sub|][j] == body[at + j];
    }
    assert whole[k..k + |sub|] == sub;
  }

  /** A string containing a character that `s` lacks does not occur in `s`. */
  lemma MissingCharNotContained(s: string, sub: string, j: nat)
    requires j < |sub| && sub[j] !in s
    ensures !Contains(s, sub)
  {
  }

  /** The empty string occurs in every string. */
  lemma ContainsEmpty(s: string)
    ensures Contains(s, "")
  {
    assert OccursAt(s, "", 0);
  }

  /** The character class `[a-zA-Z0-9]`. */
  predicate IsAsciiAlnum(c: char) {
    ('a' <= c <= 'z') || ('A' <= c <= 'Z') || ('0' <= c <= '9')
  }

  predicate IsDigit(c: char) {
    '0' <= c <= '9'
  }

  /** Every character fits in one byte, so `btoa` accepts the string. */
  predicate IsLatin1(s: string) {
    forall i :: 0 <= i < |s| ==> s[i] as int <= 0xFF
  }

  function DigitChar(d: nat): (c: char)
    requires d < 10
    ensures IsDigit(c)
  {
    ('0' as int + d) as char
  }

  function DigitValue(c: char): (d: nat)
    requires IsDigit(c)
    ensures d < 10
  {
    c as int - '0' as int
  }

  /** Decimal rendering of a count, as a template literal prints it. */
  function NatToString(n: nat): (r: string)
    ensures |r| >= 1
    ensures forall i :: 0 <= i < |r| ==> IsDigit(r[i])
    decreases n
  {
    if n < 10 then [DigitChar(n)] else NatToString(n / 10) + [DigitChar(n % 10)]
  }

  /** Value of a string of decimal digits. */
  function ParseDigits(s: string): nat
    requires forall i :: 0 <= i < |s| ==> IsDigit(s[i])
    decreases |s|
  {
    if |s| == 0 then 0 else 10 * ParseDigits(s[..|s| - 1]) + DigitValue(s[|s| - 1])
  }

  /** Reading back a rendered count gives the count. */
  lemma {:induction false} NatToStringRoundTrip(n: nat)
    ensures ParseDigits(NatToString(n)) == n
    decreases n
  {
    if n >= 10 {
      NatToStringRoundTrip(n / 10);
      var s := NatToString(n);
      assert s[..|s| - 1] == NatToString(n / 10);
    }
  }
}

=== FILE: types.dfy ===
/** The records and enumerations of the application's data model. A
    TypeScript optional property (`x?: T`) is an `Option<T>`; `DateTime` values
    are ISO 8601 strings and are kept as strings. */
module Types {
  import opened Wrappers

  /** `AssessmentResult`: 'pass' | 'fail' | 'na'. */
  datatype AssessmentResult = Pass | Fail | Na

  /** `Assessment.status`: 'draft' | 'completed' | 'reviewed'. */
  datatype AssessmentStatus = StatusDraft | StatusCompleted | StatusReviewed

  /** `ProjectStatus`: 'draft' | 'active' | 'completed' | 'archived'. */
  datatype ProjectStatus = ProjectDraft | ProjectActive | ProjectCompleted | ProjectArchived

  /** `FileType`: the six evidence-file categories. */
  datatype FileType = Image | Log | Document | Data | Video | Other

  /** `MechanismType`: the fourteen EN 18031 mechanism codes. */
  datatype MechanismType =
    | ACM | AUM | SUM | SSM | SCM | RLM | NMM | TCM | CCK | GEC | CRY | LGM | DLM | UNM

  /** The code a mechanism string names, if any. */
  function MechanismOf(s: string): Option<MechanismType> {
    if s == "ACM" then Some(ACM) else if s == "AUM" then Some(AUM)
    else if s == "SUM" then Some(SUM) else if s == "SSM" then Some(SSM)
    else if s == "SCM" then Some(SCM) else if s == "RLM" then Some(RLM)
    else if s == "NMM" then Some(NMM) else if s == "TCM" then Some(TCM)
    else if s == "CCK" then Some(CCK) else if s == "GEC" then Some(GEC)
    else if s == "CRY" then Some(CRY) else if s == "LGM" then Some(LGM)
    else if s == "DLM" then Some(DLM) else if s == "UNM" then Some(UNM)
    else None
  }

  /** Reading a code's string back gives the code, so no two codes share a string. */
  lemma MechanismNameRoundTrip(m: MechanismType)
    ensures MechanismOf(MechanismName(m)) == Some(m)
  {
  }

  lemma MechanismNamesDistinct(a: MechanismType, b: MechanismType)
    ensures MechanismName(a) == MechanismName(b) <==> a == b
  {
    MechanismNameRoundTrip(a);
    MechanismNameRoundTrip(b);
  }

  datatype AssessmentType = Conceptual | FunctionalCompleteness | FunctionalSufficiency

  /** `TestCase.source`: 'EN18031-1' | 'EN18031-2'. */
  datatype Standard = EN18031_1 | EN18031_2

  /** The string a mechanism code is compared against. */
  function MechanismName(m: MechanismType): string {
    match m
    case ACM => "ACM" case AUM => "AUM" case SUM => "SUM" case SSM => "SSM"
    case SCM => "SCM" case RLM => "RLM" case NMM => "NMM" case TCM => "TCM"
    case CCK => "CCK" case GEC => "GEC" case CRY => "CRY" case LGM => "LGM"
    case DLM => "DLM" case UNM => "UNM"
  }

  datatype Project = Project(
    id: string,
    name: string,
    description: Option<string>,
    productName: string,
    manufacturer: string,
    modelReference: string,
    testStandard: string,
    testLaboratory: string,
    reportReference: string,
    assignees: seq<string>,
    status: ProjectStatus,
    createdAt: string,
    updatedAt: string,
    createdBy: string,
    version: int)

  datatype TestStep = TestStep(
    id: string,
    testCaseId: string,
    stepNumber: int,
    assetId: Option<string>,
    testingProcedure: string,
    expectedResult: Option<string>,
    order: int)

  datatype TestCase = TestCase(
    id: string,
    mechanism: MechanismType,
    mechanismNumber: int,
    assessmentType: AssessmentType,
    title: string,
    objective: string,
    prerequisites: string,
    testProcedures: string,
    assessmentUnits: string,
    resultRationale: string,
    source: Standard,
    section: string,
    order: int,
    testSteps: seq<TestStep>)

  datatype TestStepResult = TestStepResult(
    testStepId: string,
    result: AssessmentResult,
    actualResult: string,
    screenshots: seq<string>,
    notes: Option<string>)

  datatype Assessment = Assessment(
    id: string,
    projectId: string,
    testCaseId: string,
    result: AssessmentResult,
    justification: string,
    comments: Option<string>,
    testPerformedOn: string,
    testExecutedBy: string,
    evidenceFiles: seq<string>,
    testStepResults: seq<TestStepResult>,
    assessedAt: string,
    assessedBy: string,
    version: int,
    status: AssessmentStatus,
    reviewedBy: Option<string>,
    reviewedAt: Option<string>,
    notes: Option<string>)

  datatype EvidenceFile = EvidenceFile(
    id: string,
    assessmentId: string,
    fileName: string,
    fileType: FileType,
    fileSize: int,
    mimeType: string,
    description: Option<string>,
    uploadedAt: string,
    uploadedBy: string,
    sharepointUrl: string,
    thumbnailUrl: Option<string>,
    checksum: string,
    tags: seq<string>)

  /** The form payload for a new project. */
  datatype CreateProjectRequest = CreateProjectRequest(
    name: string,
    description: Option<string>,
    productName: string,
    manufacturer: string,
    modelReference: string,
    testStandard: string,
    testLaboratory: string,
    reportReference: string,
    assignees: seq<string>)

  /** `Partial<CreateProjectRequest>` plus an optional status. */
  datatype UpdateProjectRequest = UpdateProjectRequest(
    name: Option<string>,
    description: Option<string>,
    productName: Option<string>,
    manufacturer: Option<string>,
    modelReference: Option<string>,
    testStandard: Option<string>,
    testLaboratory: Option<string>,
    reportReference: Option<string>,
    assignees: Option<seq<string>>,
    status: Option<ProjectStatus>)

  /** The payload for a new assessment: it carries no id, project id, version or status. */
  datatype CreateAssessmentRequest = CreateAssessmentRequest(
    testCaseId: string,
    result: AssessmentResult,
    justification: string,
    comments: Option<string>,
    testPerformedOn: string,
    testExecutedBy: string,
    testStepResults: Option<seq<TestStepResult>>)

  /** `Partial<CreateAssessmentRequest>` plus an optional status. */
  datatype UpdateAssessmentRequest = UpdateAssessmentRequest(
    testCaseId: Option<string>,
    result: Option<AssessmentResult>,
    justification: Option<string>,
    comments: Option<string>,
    testPerformedOn: Option<string>,
    testExecutedBy: Option<string>,
    testStepResults: Option<seq<TestStepResult>>,
    status: Option<AssessmentStatus>)

  /** Every value of each closed enumeration, once each. */
  const AllResults: seq<AssessmentResult> := [Pass, Fail, Na]
  const AllFileTypes: seq<FileType> := [Image, Log, Document, Data, Video, Other]

  /** `AssessmentResult` has exactly three values and `FileType` exactly six. */
  lemma EnumerationsComplete()
    ensures |AllResults| == 3 && forall r: AssessmentResult :: r in AllResults
    ensures |AllFileTypes| == 6 && forall t: FileType :: t in AllFileTypes
    ensures forall i, j :: 0 <= i < j < |AllFileTypes| ==> AllFileTypes[i] != AllFileTypes[j]
  {
    forall r: AssessmentResult ensures r in AllResults {
      match r
      case Pass => assert AllResults[0] == r;
      case Fail => assert AllResults[1] == r;
      case Na => assert AllResults[2] == r;
    }
    forall t: FileType ensures t in AllFileTypes {
      match t
      case Image => assert AllFileTypes[0] == t;
      case Log => assert AllFileTypes[1] == t;
      case Document => assert AllFileTypes[2] == t;
      case Data => assert AllFileTypes[3] == t;
      case Video => assert AllFileTypes[4] == t;
      case Other => assert AllFileTypes[5] == t;
    }
  }
}

=== FILE: wrappers.dfy ===
/** Failure-compatible wrappers: `Option` for JavaScript's `undefined`/`null`,
    `Result` for an operation that either returns or throws. */
module Wrappers {

  datatype Option<+T> = None | Some(value: T) {

    /** Value of a `Some`, or the given default (JavaScript's `x || d` / `x ?? d`). */
    function GetOr(default: T): T {
      match this
      case Some(v) => v
      case None => default
    }
  }

  /** One key of a `{...before, ...patch}` spread: `after` is the patch's
      value when the key is present and the old value when it is absent. */
  predicate Patched<T(==)>(patch: Option<T>, before: T, after: T) {
    if patch.Some? then after == patch.value else after == before
  }

  datatype Result<+R, +E> = Success(value: R) | Failure(error: E) {

    predicate IsFailure() {
      Failure?
    }

    function PropagateFailure<U>(): Result<U, E>
      requires Failure?
    {
      Failure(error)
    }

    function Extract(): R
      requires Success?
    {
      value
    }
  }
}
